=== FILE: README.md ===
# Mission event engine: a Dafny model

This project models the core of a graduation-project backend that records how
users work through two guided missions, a portfolio mission and a vocabulary
mission. The part modelled here covers:

- **Lifecycle.** Starting a mission attempt creates an `IN_PROGRESS` attempt.
  Attempts can be looked up and their status changed.
- **Event ingestion.** A WebSocket event is checked, stored and applied. A
  terminal event ends its attempt. A rating event may derive a review, best
  effort.
- **Reviews.** An explicit submission path refuses a missing attempt and a
  second review. A direct save path, used by ingestion, checks nothing.
- **Dashboard and analytics.** The aggregates are read from the three tables:
  the overview, completion rates per type, the three-hour distribution of
  start times, review statistics, per-type analytics, an attempt's event
  timeline and the slow-step test.
- **Small total functions.** These are the formatters (durations, payload
  previews, step labels, star strings), the case-insensitive mission-type
  parser, the request validators, the exception-to-response table and the
  response envelope.

The model is functional. The three tables form one immutable `Store`:

- attempts are a map keyed by attempt id;
- events are a sequence in insertion order;
- reviews are a sequence in insertion order.

Each service call is a function from a store and its inputs to a `Result`. A
failure leaves every table as it was, which matches the transactional
rollback. Anything drawn from outside enters as a parameter (`Events.Env`):
random UUIDs, the wall clock and the measured processing time. SQL aggregates
are functions over the table sequences.

Two choices about numbers:

- `BigDecimal` and PostgreSQL `numeric` values are exact rationals
  (`Numeric.Ratio`).
- Rounded results are held as integers in hundredths. A rate is in hundredths
  of a percent, an average duration in hundredths of a second, an average
  rating in hundredths of a star. All use `RoundingMode.HALF_UP`.

Timestamps are milliseconds on the local time line. Stored durations are
whole milliseconds; the column keeps seconds at three decimals.

Modules follow the program's structure:

| module | contents |
|---|---|
| `Entities` | the records and enumerations, plus the mission-type parser |
| `Stores` | the tables, id generation and the consistency invariant |
| `Missions`, `Events`, `Reviews` | the three services |
| `Requests` | the request validators |
| `Failures`, `Responses` | the exceptions and the error handler |
| `Tables`, `Analytics`, `Dashboard`, `Timeline`, `Formatting` | the read side |
| `Numeric`, `Text` | Java's integer narrowing, `HALF_UP` rounding and string helpers |
| `Scenarios` | one attempt followed from start to dashboard |

## Model

All source paths are under `src/main/java/org/example/greduatebe/`.

| member | source | states |
|---|---|---|
| Missions.MissionNameOneToOne | src/main/java/org/example/greduatebe/service/MissionService.java:140-145 | PORTFOLIO is named "Portfolio Mission" and VOCABULARY "Vocabulary Mission"; two types with the same name are the same type |
| Missions.GenerateAttemptId | src/main/java/org/example/greduatebe/service/MissionService.java:131-133 | an attempt id starts with "attempt_" and holds no hyphen |
| Missions.StartMission | src/main/java/org/example/greduatebe/service/MissionService.java:45-74 | fails exactly when the type, session id or timestamp is null or the generated id is taken; a null type fails as a null dereference, and every such failure is internal. On success the new attempt is filed under the generated id, which the response returns. It is IN_PROGRESS, starts at the request's timestamp, has no end time or duration, and carries the request's session and type and the type's name. Other attempts, events and reviews are untouched |
| Missions.GetMissionAttempt | src/main/java/org/example/greduatebe/service/MissionService.java:82-86 | succeeds exactly for a stored id and returns that attempt; otherwise MissionNotFound with "Mission attempt not found: " + id |
| Missions.UpdateMissionStatus | src/main/java/org/example/greduatebe/service/MissionService.java:119-125 | succeeds exactly for a stored id; only that attempt's status changes, to the given status; otherwise MissionNotFound |
| Missions.ListMissionAttempts | src/main/java/org/example/greduatebe/service/MissionService.java:98-111 | the listing holds every stored attempt and nothing else |
| Missions.ListingIgnoresFilters | src/main/java/org/example/greduatebe/service/MissionService.java:108-110 | any two choices of type, status and date filters give the same listing |
| Missions.StartMissionKeepsConsistent | src/main/java/org/example/greduatebe/service/MissionService.java:56-65 | a successful start keeps the tables consistent |
| Missions.UpdateStatusKeepsConsistent | src/main/java/org/example/greduatebe/service/MissionService.java:119-125 | a status change keeps the tables consistent |
| Stores.GenerateId | src/main/java/org/example/greduatebe/service/MissionService.java:131-133 | a generated id starts with its prefix, has no hyphen when the prefix has none, and is as long as the prefix plus the UUID less its hyphens |
| Stores.GenerateIdInjective | src/main/java/org/example/greduatebe/service/MissionService.java:131-133 | for canonical 8-4-4-4-12 UUIDs the id is the prefix plus 32 characters, and distinct UUIDs give distinct ids |
| Events.GenerateEventId | src/main/java/org/example/greduatebe/service/EventService.java:147-149 | an event id starts with "event_" and holds no hyphen |
| Events.IsMissionEndEvent | src/main/java/org/example/greduatebe/service/EventService.java:156-160 | a rating submission is never an end event, and among the end events exactly the expiry gets EXPIRED from the end-status mapping, so each of the three ends the attempt with its own status |
| Events.EndStatus | src/main/java/org/example/greduatebe/service/EventService.java:109-113 | the status is terminal: COMPLETED exactly for "mission_completed", QUITTED exactly for "mission_quitted", EXPIRED for every other type |
| Events.EndAttempt | src/main/java/org/example/greduatebe/service/EventService.java:101-114 | end time is the event's time; duration is end minus start in milliseconds; status is the event type's end status; every other field is unchanged |
| Events.HandleMissionEnd | src/main/java/org/example/greduatebe/service/EventService.java:95-116 | succeeds exactly for a stored attempt and replaces only that attempt by its ended form, whatever its earlier status; otherwise MissionNotFound |
| Events.RatingOf | src/main/java/org/example/greduatebe/service/EventService.java:179-184 | a rating is read exactly when the payload's value is a number, with no range check, and it is that number's `intValue()`: an integer that fits an int is kept exactly, a wider one wraps modulo 2^32, a fraction is cut toward zero and a fraction out of range saturates |
| Events.RatingNarrowing | src/main/java/org/example/greduatebe/service/EventService.java:179-184 | a rating of 4.7 is read as 4, -4.7 as -4, and 2^32 + 5 as 5 |
| Events.HandleMissionRating | src/main/java/org/example/greduatebe/service/EventService.java:168-220 | an attempt that has a review is left alone. Only a saved review changes the store, by appending that one review. The review carries the attempt id, the payload's rating and text, the payload's feedback text exactly when the payload has one, hasFeedback true only for an explicit true, and the given time. A missing rating or text saves nothing. No failure escapes, including a failed save, which the program instead turns into a failure of the whole ingestion (see "## Left out") |
| Events.ProcessEvent | src/main/java/org/example/greduatebe/service/EventService.java:42-86 | a null or empty attempt id fails with InvalidEvent; an unknown attempt fails with MissionNotFound. It succeeds exactly when the attempt exists, every non-null column is present and the event id is free; a rejected save of the derived review, which fails the program's whole call, is not among the failures (see "## Left out"). The one appended event copies the message unchanged. Non-terminal events leave the attempts alone; terminal ones end exactly that attempt. Only a rating event can add a review, only one, only for that attempt, and never when the attempt already had one |
| Events.ProcessEventKeepsConsistent | src/main/java/org/example/greduatebe/service/EventService.java:42-86 | successful ingestion keeps the tables consistent: every event and review points at a stored attempt, event and review ids stay unique, and no attempt gains a second review |
| Events.RatingKeepsReviewsUnique | src/main/java/org/example/greduatebe/service/EventService.java:168-220 | a review added by ingestion has a fresh review id and belongs to an attempt that had no review, so review ids and review attempts stay unique |
| Events.RepeatedTerminalEventOverwrites | src/main/java/org/example/greduatebe/service/EventService.java:98-116 | after two terminal events for one attempt, the attempt is the original ended by the second event; the first event's time, duration and status are overwritten |
| Events.RatingEventFilesReview | src/main/java/org/example/greduatebe/service/EventService.java:178-211 | a rating event with an integer rating and a text, on an attempt without a review, adds exactly one review, with that attempt id, rating, text and time |
| Events.BadRatingPayloadKeepsEvent | src/main/java/org/example/greduatebe/service/EventService.java:186-219 | a rating event whose feedback is not text still stores its event and succeeds, and the reviews stay as they were |
| Reviews.GenerateReviewId | src/main/java/org/example/greduatebe/service/ReviewService.java:103-105 | a review id starts with "review_" and holds no hyphen |
| Reviews.HasReview | src/main/java/org/example/greduatebe/service/ReviewService.java:95-97 | `existsByAttemptId` holds exactly when `findByAttemptId` finds a review of the attempt |
| Reviews.GetReview | src/main/java/org/example/greduatebe/service/ReviewService.java:73-76 | a review is found exactly when the attempt has one, and it is a stored review of that attempt |
| Reviews.SaveReviewDirectly | src/main/java/org/example/greduatebe/service/ReviewService.java:114-118 | fails only on a taken review id; otherwise appends the review exactly as given |
| Reviews.SubmitReview | src/main/java/org/example/greduatebe/service/ReviewService.java:35-65 | an unknown attempt fails with MissionNotFound, checked before the duplicate check. An attempt with a review fails with InvalidRequest "Review already exists for attemptId: " + id. It succeeds exactly when the attempt exists without a review, the three non-null fields are present and the review id is free. The one appended review copies the request's fields under the generated id, and afterwards `hasReview` holds and `getReview` returns it |
| Reviews.SubmitReviewKeepsConsistent | src/main/java/org/example/greduatebe/service/ReviewService.java:39-60 | a successful submission keeps the tables consistent, in particular at most one review per attempt |
| Reviews.SaveDirectlyAllowsSecondReview | src/main/java/org/example/greduatebe/service/ReviewService.java:114-118 | the direct save stores a second review for an attempt, which breaks consistency, so one review per attempt rests on the caller's `hasReview` test |
| Requests.StartViolations | src/main/java/org/example/greduatebe/dto/request/MissionStartRequest.java:22-29 | no message exactly when the request is valid; the session message appears exactly for a null or blank session id, the type message for a null type, and the timestamp message for a null timestamp |
| Requests.ReviewViolations | src/main/java/org/example/greduatebe/dto/request/ReviewSubmitRequest.java:18-30 | no message exactly when the rating is 1..5, the text is not blank and at most 20 UTF-16 units, and the feedback flag is present |
| Requests.RatingMessages | src/main/java/org/example/greduatebe/dto/request/ReviewSubmitRequest.java:18-21 | the "required" message appears exactly for a null rating, the minimum message exactly below 1, the maximum message exactly above 5 |
| Requests.TextMessages | src/main/java/org/example/greduatebe/dto/request/ReviewSubmitRequest.java:23-30 | the text-required message appears exactly for a null or blank text, the size message exactly above 20 UTF-16 units, the flag message exactly for a null flag |
| Requests.FeedbackUnconstrained | src/main/java/org/example/greduatebe/dto/request/ReviewSubmitRequest.java:27 | changing the feedback changes neither validity nor the messages |
| Responses.Success | src/main/java/org/example/greduatebe/dto/response/ApiResponse.java:38-43 | success is true, data is the given data, there is no error |
| Responses.Error | src/main/java/org/example/greduatebe/dto/response/ApiResponse.java:52-60 | success is false with no data; the error has the code and message and no details |
| Responses.ErrorWithDetails | src/main/java/org/example/greduatebe/dto/response/ApiResponse.java:70-79 | the same envelope as the two-argument error, except that the details are set; error present exactly when success is false |
| Responses.Handle | src/main/java/org/example/greduatebe/exception/GlobalExceptionHandler.java:24-110 | status and code follow the failure kind: 404 MISSION_NOT_FOUND; 400 INVALID_EVENT, INVALID_REQUEST, VALIDATION_ERROR or INVALID_ARGUMENT; 404 RESOURCE_NOT_FOUND; 500 INTERNAL_SERVER_ERROR for the rest. The four application kinds pass their message through without details. Validation failures say "Validation failed", with the field messages joined by ", " as details. Resource-not-found says "Resource not found" without details. Internal failures show only the fixed message |
| Responses.InternalFailuresLookAlike | src/main/java/org/example/greduatebe/exception/GlobalExceptionHandler.java:102-110 | any two internal failures get identical replies, so no exception text leaks |
| Responses.CodesDistinguishKinds | src/main/java/org/example/greduatebe/exception/GlobalExceptionHandler.java:24-97 | two non-internal failures with the same code are of the same kind |
| Entities.HourOf | src/main/java/org/example/greduatebe/service/MissionAnalysisService.java:185 | the hour lies in 0..23 and is the hour of the day into which the timestamp's time of day falls |
| Entities.FromString | src/main/java/org/example/greduatebe/entity/MissionType.java:24-35 | null gives null; a match gives the constant whose name equals the text ignoring case; otherwise IllegalArgument with the listed message, and no constant matches |
| Entities.ToValue | src/main/java/org/example/greduatebe/entity/MissionType.java:41-43 | the name is upper case and parses back to the same constant |
| Entities.NamesDisjoint | src/main/java/org/example/greduatebe/entity/MissionType.java:28-32 | no text matches both constant names, so the search order does not matter |
| Entities.FromStringIgnoresCase | src/main/java/org/example/greduatebe/entity/MissionType.java:28-32 | "portfolio", "Vocabulary" and "portfolıo" (dotless i) are accepted; "quiz" is refused |
| Entities.StringField | src/main/java/org/example/greduatebe/service/EventService.java:186-187 | a `(String)` cast: null for a missing or null value, the text for a text value, ClassCast otherwise |
| Entities.BoolField | src/main/java/org/example/greduatebe/service/EventService.java:188 | a `(Boolean)` cast: null for a missing or null value, the flag for a boolean value, ClassCast otherwise |
| Entities.JsonbOrder | src/main/java/org/example/greduatebe/entity/MissionEvent.java:43-45 | the `jsonb` column returns the same entries with shorter keys (in UTF-8 bytes) first and equal lengths in byte order |
| Entities.JsonbOrderKeepsValues | src/main/java/org/example/greduatebe/service/MissionAnalysisService.java:294-297 | every key reads the same value before and after the reordering |
| Entities.GetIgnoresOrder | src/main/java/org/example/greduatebe/service/MissionAnalysisService.java:294-297 | two payloads with the same entries answer every lookup alike |
| Entities.GetFinds | src/main/java/org/example/greduatebe/service/EventService.java:180-184 | in a payload with distinct keys, a lookup finds the value stored under the key |
| Entities.LongValue | src/main/java/org/example/greduatebe/service/MissionAnalysisService.java:327-330 | `longValue()` of a number lies in the 64-bit range: an integer that fits is kept and a wider one wraps modulo 2^64; a fraction is cut toward zero and saturates at the bounds |
| Entities.IntValue | src/main/java/org/example/greduatebe/service/MissionAnalysisService.java:333-336 | `intValue()` of a number: an integer that fits an int is kept and a wider one wraps modulo 2^32; a fraction is cut toward zero and saturates at the int bounds |
| Numeric.WrapInt32 | src/main/java/org/example/greduatebe/service/EventService.java:183 | `intValue()` of an integer keeps a value that fits and otherwise agrees with it modulo 2^32 |
| Numeric.SaturateInt32 | src/main/java/org/example/greduatebe/service/EventService.java:183 | `intValue()` of a double keeps a value that fits and saturates at the bounds |
| Numeric.TruncDiv | src/main/java/org/example/greduatebe/service/MissionAnalysisService.java:486 | the quotient rounds toward zero: within one divisor of the dividend, on the dividend's side |
| Numeric.RoundHalfUpNearest | src/main/java/org/example/greduatebe/service/AnalyticsService.java:94-97 | HALF_UP rounding is within half a unit of the quotient, with an exact half going away from zero |
| Numeric.RoundHalfUpUnique | src/main/java/org/example/greduatebe/service/AnalyticsService.java:94-97 | only one integer satisfies that condition |
| Numeric.RoundHalfUpMonotone | src/main/java/org/example/greduatebe/service/AnalyticsService.java:94-97 | rounding preserves order |
| Numeric.RoundHalfUpExact | src/main/java/org/example/greduatebe/service/AnalyticsService.java:94-97 | an exact quotient is returned unchanged |
| Text.IntToStringRoundTrip | src/main/java/org/example/greduatebe/service/MissionAnalysisService.java:488 | a rendered integer reads back as itself |
| Text.ParseIntCanonical | src/main/java/org/example/greduatebe/service/MissionAnalysisService.java:488 | only the decimal text `Long.toString` writes reads back: a text that parses is exactly the rendering of its value, so a leading zero or "-0" never parses |
| Text.IntToStringInjective | src/main/java/org/example/greduatebe/service/MissionAnalysisService.java:495-498 | distinct integers render differently |
| Text.Pad2 | src/main/java/org/example/greduatebe/service/MissionAnalysisService.java:198 | `%02d` gives two digits whose value is the number |
| Text.Join | src/main/java/org/example/greduatebe/service/MissionAnalysisService.java:474 | joining nothing gives "" and one part gives that part; otherwise the result starts with the first part and its length is the parts' lengths plus one separator between each pair |
| Text.JoinAppend | src/main/java/org/example/greduatebe/service/MissionAnalysisService.java:474 | joining one more part appends the separator and that part to the join of the others |
| Text.RemoveChar | src/main/java/org/example/greduatebe/service/MissionService.java:132 | the character no longer occurs; the length drops by its number of occurrences; text without it is unchanged |
| Text.RepeatChar | src/main/java/org/example/greduatebe/dto/response/dashboard/ReviewSummaryDto.java:82 | n copies of the character and nothing else |
| Text.Utf16Length | src/main/java/org/example/greduatebe/dto/request/ReviewSubmitRequest.java:24 | the UTF-16 length lies between the character count and twice it; it equals the character count when every character is in the Basic Multilingual Plane, and a single character outside it counts 2 |
| Text.Utf16LengthAppend | src/main/java/org/example/greduatebe/dto/request/ReviewSubmitRequest.java:24 | the UTF-16 length of a concatenation is the sum of the parts' lengths |
| Tables.Filter | src/main/java/org/example/greduatebe/service/MissionAnalysisService.java:57 | a `WHERE` keeps exactly the rows that satisfy the condition, never more rows than it was given |
| Tables.Count | src/main/java/org/example/greduatebe/service/MissionAnalysisService.java:52-53 | `COUNT(CASE WHEN ...)` is the size of the filtered rows, and 0 exactly when no row qualifies |
| Tables.CountPartition | src/main/java/org/example/greduatebe/service/MissionAnalysisService.java:51-57 | when every row meets exactly one of two conditions, the two counts add up to the row count |
| Tables.AvgHundredths | src/main/java/org/example/greduatebe/service/MissionAnalysisService.java:63 | `ROUND(AVG(x), 2)` is null exactly for no rows |
| Tables.AvgHundredthsNearest | src/main/java/org/example/greduatebe/service/MissionAnalysisService.java:63 | the rounded average is the HALF_UP hundredth of sum/n |
| Tables.AvgHundredthsBetween | src/main/java/org/example/greduatebe/service/AnalyticsService.java:118-128 | an average of values between lo and hi rounds to between them |
| Tables.OfType | src/main/java/org/example/greduatebe/service/AnalyticsService.java:75 | `WHERE mission_type = ?` keeps exactly the rows of that type |
| Tables.TypesPartition | src/main/java/org/example/greduatebe/service/MissionAnalysisService.java:103 | the two types' rows together are all the rows |
| Analytics.CompletionRate | src/main/java/org/example/greduatebe/service/AnalyticsService.java:90-98 | 0 when there are no attempts, never negative |
| Analytics.CompletionRateNearest | src/main/java/org/example/greduatebe/service/AnalyticsService.java:94-97 | the rate is the HALF_UP hundredth of a percent of completed/total |
| Analytics.CompletionRateBounds | src/main/java/org/example/greduatebe/service/AnalyticsService.java:94-97 | with completed <= total the rate lies between 0.00 and 100.00 |
| Analytics.SevenOfNine | src/main/java/org/example/greduatebe/service/AnalyticsService.java:94-97 | 7 of 9 gives 77.78 |
| Analytics.Matches | src/main/java/org/example/greduatebe/service/AnalyticsService.java:119-121 | a review joins no attempt row exactly when no row has its attempt id and the type |
| Analytics.JoinRatingBounds | src/main/java/org/example/greduatebe/service/AnalyticsService.java:118-128 | with ratings in 1..5, the joined rating sum lies between one and five times the joined count |
| Analytics.AverageDuration | src/main/java/org/example/greduatebe/service/AnalyticsService.java:103-113 | 0 when no completed attempt has a duration |
| Analytics.AverageDurationNearest | src/main/java/org/example/greduatebe/service/AnalyticsService.java:103-113 | otherwise, the HALF_UP hundredth of a second of the mean duration of the completed attempts that have one |
| Analytics.GetMissionAnalytics | src/main/java/org/example/greduatebe/service/AnalyticsService.java:36-69 | the total counts the type's attempts of every status, and the completed count is its COMPLETED ones. The rate is 0 with no attempts, otherwise the HALF_UP hundredth of a percent of completed/total, in 0.00..100.00. The average duration is 0 without timed completed attempts, otherwise the HALF_UP hundredth of a second of their mean. The review count is the joined count. The average rating is 0 without reviews, otherwise the HALF_UP hundredth of the joined rating sum over the count, in 1.00..5.00 when the ratings are in range |
| Analytics.InProgressLowersRate | src/main/java/org/example/greduatebe/service/AnalyticsService.java:74-85 | an added IN_PROGRESS attempt raises the type's total by one and leaves its completed count alone |
| Dashboard.SqlCompletionRate | src/main/java/org/example/greduatebe/service/MissionAnalysisService.java:55 | null exactly when there are no rows (`NULLIF`), never negative |
| Dashboard.RatesAgree | src/main/java/org/example/greduatebe/service/MissionAnalysisService.java:55 | the SQL rate, read as 0 when null, equals the analytics service's four-place rate |
| Dashboard.AverageSeconds | src/main/java/org/example/greduatebe/service/MissionAnalysisService.java:54 | `AVG` is null exactly when no row has a duration; otherwise it is the millisecond sum of the timed rows over 1000 per timed row |
| Dashboard.AverageSecondsBetween | src/main/java/org/example/greduatebe/service/MissionAnalysisService.java:54 | the average lies between the shortest and the longest duration |
| Dashboard.Overview | src/main/java/org/example/greduatebe/service/MissionAnalysisService.java:46-81 | only COMPLETED and QUITTED attempts are counted, and total = completed + quitted. The rate is the SQL rate: 0 when nothing finished, otherwise the HALF_UP hundredth of a percent of completed/total, in 0.00..100.00. The average time is the completed attempts' mean duration, 0 and "-" without durations, and its text is that average formatted. The rating average is 0 without reviews, otherwise the HALF_UP hundredth of the mean rating, in 1.00..5.00 for in-range ratings |
| Dashboard.GroupRow | src/main/java/org/example/greduatebe/service/MissionAnalysisService.java:93-119 | a type has a row exactly when it has finished attempts. The row's total is their number and equals completed + quitted. Its completed count counts COMPLETED ones, and its average covers both statuses |
| Dashboard.CompletionRates | src/main/java/org/example/greduatebe/service/MissionAnalysisService.java:90-120 | one row per type with finished attempts |
| Dashboard.CompletionRatesRows | src/main/java/org/example/greduatebe/service/MissionAnalysisService.java:103-119 | the rows are the types' group rows, PORTFOLIO's first and VOCABULARY's last |
| Dashboard.CompletionRatesCoverFinished | src/main/java/org/example/greduatebe/service/MissionAnalysisService.java:96-103 | the row totals add up to the number of finished attempts |
| Dashboard.Bucket | src/main/java/org/example/greduatebe/service/MissionAnalysisService.java:185 | the range start is one of 0, 3, ..., 21 and the hour lies in the three hours from it |
| Dashboard.BucketIsFloorDivision | src/main/java/org/example/greduatebe/service/MissionAnalysisService.java:185 | the range start equals `FLOOR(hour / 3) * 3` |
| Dashboard.CompletedInBucket | src/main/java/org/example/greduatebe/service/MissionAnalysisService.java:187 | a range's completed count never exceeds its attempt count |
| Dashboard.HourLabel | src/main/java/org/example/greduatebe/service/MissionAnalysisService.java:198 | a label is eleven characters long |
| Dashboard.HourLabelFormat | src/main/java/org/example/greduatebe/service/MissionAnalysisService.java:195-198 | the label is `"%02d:00-%02d:00"` of the start and start + 3, and both hours read back from it |
| Dashboard.SqlRateBounds | src/main/java/org/example/greduatebe/service/MissionAnalysisService.java:188 | a range's rate lies between 0.00 and 100.00 |
| Dashboard.HourlyFrom | src/main/java/org/example/greduatebe/service/MissionAnalysisService.java:183-203 | each row from range k on is a non-empty range at or above 3k, with its attempt count, completed count and label |
| Dashboard.HourlyFromAscending | src/main/java/org/example/greduatebe/service/MissionAnalysisService.java:191 | the rows ascend strictly by range start |
| Dashboard.HourlyFromCovers | src/main/java/org/example/greduatebe/service/MissionAnalysisService.java:190 | every non-empty range from k on has a row |
| Dashboard.HourlyDistribution | src/main/java/org/example/greduatebe/service/MissionAnalysisService.java:180-204 | every row is a non-empty range with its counts and label, in strictly ascending order |
| Dashboard.HourlyHasEveryRange | src/main/java/org/example/greduatebe/service/MissionAnalysisService.java:183-192 | every attempt's range has a row |
| Dashboard.HourlyCoversAll | src/main/java/org/example/greduatebe/service/MissionAnalysisService.java:183-192 | the row totals add up to the number of attempts |
| Dashboard.RatingCount | src/main/java/org/example/greduatebe/service/MissionAnalysisService.java:632-636 | a bar never exceeds the number of reviews and is 0 exactly when no review has that rating |
| Dashboard.HistogramCoversAll | src/main/java/org/example/greduatebe/service/MissionAnalysisService.java:631-636 | the five bars and the out-of-scale reviews together count every review once |
| Dashboard.GetReviewStatistics | src/main/java/org/example/greduatebe/service/MissionAnalysisService.java:626-654 | the total is the number of reviews; each bar k is the number of reviews rated k, and the bars sum to the total less the out-of-scale reviews. The feedback count counts flagged reviews. The average is null exactly without reviews, otherwise the HALF_UP hundredth of the mean rating, in 1.00..5.00 when every rating is in range |
| Formatting.WholeSeconds | src/main/java/org/example/greduatebe/service/MissionAnalysisService.java:486 | `longValue()` of the duration is its integer part, truncated toward zero, when that fits 64 bits and agrees with it modulo 2^64 otherwise; it is 0 for under a second |
| Formatting.FormatDuration | src/main/java/org/example/greduatebe/service/MissionAnalysisService.java:481-499 | "-" exactly for null or zero. Under a minute of whole seconds N, the text reads back as N seconds and no minutes. From 60 on, it reads back as the minutes N / 60, with no seconds field when the minutes are whole and otherwise the seconds N % 60, between 1 and 59. The text shows minutes exactly when N is 60 or more, and it ends in the seconds or minutes unit. Reading back accepts only canonical text, so these fields fix the text exactly (`Formatting.ParseDurationCanonical`) |
| Formatting.FormatDurationRoundTrip | src/main/java/org/example/greduatebe/service/MissionAnalysisService.java:486-498 | the fields of every text other than "-" add up to the whole seconds of the duration |
| Formatting.FormatDurationInjective | src/main/java/org/example/greduatebe/service/MissionAnalysisService.java:486-498 | durations with different whole seconds never get the same text |
| Formatting.ParseDurationCanonical | src/main/java/org/example/greduatebe/service/MissionAnalysisService.java:486-498 | a duration text that reads back is exactly the rendering of its minute and second fields, so the fields the formatter promises fix its text character by character |
| Formatting.ParseDurationInjective | src/main/java/org/example/greduatebe/service/MissionAnalysisService.java:486-498 | two duration texts that read back the same fields are the same text |
| Formatting.PaddedSecondsRejected | src/main/java/org/example/greduatebe/service/MissionAnalysisService.java:486-498 | a zero-padded "05초", which the formatter never writes, does not read back |
| Formatting.NinetySecondsShown | src/main/java/org/example/greduatebe/service/MissionAnalysisService.java:486-498 | 90.7 seconds is 90 whole seconds, shown as "1분 30초", which reads back as 1 minute and 30 seconds |
| Formatting.PreviewParts | src/main/java/org/example/greduatebe/service/MissionAnalysisService.java:463-468 | at most one part per entry, and none exactly when every entry is "page" or null |
| Formatting.CreateDataPreview | src/main/java/org/example/greduatebe/service/MissionAnalysisService.java:458-476 | null exactly for a missing payload or one with nothing shown. Otherwise the ", "-joined parts, unchanged up to 100 characters; longer text keeps its first 100 characters followed by "..." |
| Formatting.PreviewIgnoresHiddenEntry | src/main/java/org/example/greduatebe/service/MissionAnalysisService.java:464-468 | dropping a "page" entry or a null value anywhere in the payload leaves the preview unchanged |
| Formatting.PreviewFollowsParts | src/main/java/org/example/greduatebe/service/MissionAnalysisService.java:470-475 | payloads with the same shown parts have the same preview |
| Formatting.BuildAdditionalInfo | src/main/java/org/example/greduatebe/service/MissionAnalysisService.java:421-437 | a label exists exactly for step 3 with an adjustment count, step 4 with a name length or step 5 with a target percentage, and starts with that step's label |
| Formatting.AdditionalInfoRoundTrip | src/main/java/org/example/greduatebe/service/MissionAnalysisService.java:421-437 | stripping the step's label and unit gives back the field's text |
| Formatting.StarRating | src/main/java/org/example/greduatebe/dto/response/dashboard/ReviewSummaryDto.java:78-83 | "" for a null rating; fails exactly for a negative rating, with `String.repeat`'s message; otherwise nothing but stars |
| Formatting.StarRatingCounts | src/main/java/org/example/greduatebe/dto/response/dashboard/ReviewSummaryDto.java:82 | a non-negative rating n gives exactly n stars |
| Timeline.OfAttempt | src/main/java/org/example/greduatebe/service/MissionAnalysisService.java:286 | keeps exactly the events of the attempt |
| Timeline.OfAttemptMultiset | src/main/java/org/example/greduatebe/service/MissionAnalysisService.java:286 | each of the attempt's events is kept as often as the store holds it |
| Timeline.SortByTime | src/main/java/org/example/greduatebe/service/MissionAnalysisService.java:287 | the result ascends by timestamp |
| Timeline.SortByTimePermutes | src/main/java/org/example/greduatebe/service/MissionAnalysisService.java:287 | sorting keeps every event as often as it occurs |
| Timeline.SortByTimeSorted | src/main/java/org/example/greduatebe/service/MissionAnalysisService.java:287 | an ascending sequence is left as it is |
| Timeline.GapSeconds | src/main/java/org/example/greduatebe/service/MissionAnalysisService.java:301-305 | the gap is the span in whole seconds, rounded down |
| Timeline.RelevanceOf | src/main/java/org/example/greduatebe/service/MissionAnalysisService.java:321-324 | set exactly for a boolean value, to that value |
| Timeline.DurationOf | src/main/java/org/example/greduatebe/service/MissionAnalysisService.java:327-330 | set exactly for a number, to its `longValue()`: an integer that fits 64 bits is kept exactly, a fraction is cut toward zero |
| Timeline.ScrollDepthOf | src/main/java/org/example/greduatebe/service/MissionAnalysisService.java:333-336 | set exactly for a number, to its `intValue()`: an integer that fits an int is kept exactly, a fraction is cut toward zero |
| Timeline.EntryOf | src/main/java/org/example/greduatebe/service/MissionAnalysisService.java:290-353 | a row maps exactly when its page and referrer are text or null. Otherwise the page cast fails first, then the referrer cast. The entry carries the row's type and time; its data is the payload in `jsonb` key order, with the same entries; its preview is of that reordered payload; page, referrer and the typed fields read the payload's values. It has a gap exactly when there is a previous row, and the gap is the whole seconds since that row |
| Timeline.ReorderedStringAgrees | src/main/java/org/example/greduatebe/service/MissionAnalysisService.java:294-297 | a text field reads the same before and after the `jsonb` reordering |
| Timeline.ReorderedNumbersAgree | src/main/java/org/example/greduatebe/service/MissionAnalysisService.java:321-336 | the relevance flag, duration and scroll depth read the same before and after the `jsonb` reordering |
| Timeline.JsonbSwapsPair | src/main/java/org/example/greduatebe/entity/MissionEvent.java:43-45 | two entries whose keys are out of `jsonb` order come back swapped |
| Timeline.JsonbReordersKeys | src/main/java/org/example/greduatebe/entity/MissionEvent.java:43-45 | a payload sent as scrollDepth, duration comes back with duration first |
| Timeline.EntriesFrom | src/main/java/org/example/greduatebe/service/MissionAnalysisService.java:290-354 | succeeds exactly when every row maps, with one entry per row; each entry is its row mapped against the previous row's time (the first against none); a failure is the failure of some row all of whose predecessors map, and is one of the two casts |
| Timeline.FirstUnreadable | src/main/java/org/example/greduatebe/service/MissionAnalysisService.java:290-354 | the first row whose casts fail, if any: none exactly when every row maps; otherwise that row fails and every earlier one maps |
| Timeline.EntriesFollowRows | src/main/java/org/example/greduatebe/service/MissionAnalysisService.java:344 | each entry shows its own row's timestamp |
| Timeline.TimelineEvents | src/main/java/org/example/greduatebe/service/MissionAnalysisService.java:278-355 | one entry per event of the attempt; a failure is one of the two casts |
| Timeline.TimelineAscending | src/main/java/org/example/greduatebe/service/MissionAnalysisService.java:284-305 | the timeline ascends in time; the first entry has no gap; every later one has the whole, non-negative seconds since the one before |
| Timeline.TimelineIsPermutation | src/main/java/org/example/greduatebe/service/MissionAnalysisService.java:285-287 | the sorted rows hold each of the attempt's events as often as the store does, and no other event |
| Timeline.IsStepSlow | src/main/java/org/example/greduatebe/service/MissionAnalysisService.java:402-416 | false without an average; otherwise slow exactly when the time exceeds twice the average |
| Timeline.TwiceAverageNotSlow | src/main/java/org/example/greduatebe/service/MissionAnalysisService.java:415 | exactly twice the average is not slow |
| Timeline.IsStepSlowIgnoresScale | src/main/java/org/example/greduatebe/service/MissionAnalysisService.java:415 | the same value written at another scale gets the same answer |
| Timeline.IsStepSlowMonotone | src/main/java/org/example/greduatebe/service/MissionAnalysisService.java:415 | a time at least as long as a slow one is slow |
| Scenarios.StartStoresAttempt | src/main/java/org/example/greduatebe/service/MissionService.java:56-73 | starting from empty tables with UUID "ab-12" files one IN_PROGRESS "Portfolio Mission" attempt under "attempt_ab12" and returns that id |
| Scenarios.CompletionEndsAttempt | src/main/java/org/example/greduatebe/service/EventService.java:73-116 | a completion one minute after the start ends that attempt COMPLETED with 60000 ms and stores the event |
| Scenarios.RatingFilesOneReview | src/main/java/org/example/greduatebe/service/EventService.java:168-211 | a rating event with rating 5 and a text files one review with those values and leaves the attempts alone |
| Scenarios.UnknownAttemptIsNotFound | src/main/java/org/example/greduatebe/service/EventService.java:49-54 | an event for an unknown attempt fails with MissionNotFound and the message "Mission attempt not found: attempt_zz", the text the socket client receives as the error |
| Scenarios.AnalyticsOfTheAttempt | src/main/java/org/example/greduatebe/service/AnalyticsService.java:36-69 | one completed 60-second attempt rated 5 gives 1 attempt, 1 completed, 100.00 %, 60.00 s, 1 review and 5.00 stars |

## Left out

- Jackson parsing (`parseJsonData`): payloads arrive already parsed, as key/value entries in the order the sender wrote them, with distinct keys. `Double.toString` is not modelled either; a fractional number carries its rendered text.
- The double arithmetic `toMillis() / 1000.0` of `handleMissionEnd`: durations are exact whole milliseconds, and the three-decimal column holds them exactly.
- Randomness and clocks are parameters rather than computed: `UUID.randomUUID`, `System.currentTimeMillis` (processing time) and `LocalDateTime.now` (submission time). `@CreationTimestamp`/`@UpdateTimestamp` columns are not modelled.
- Time zones: timestamps are milliseconds on the local time line, and `EXTRACT(HOUR ...)` is taken on that line.
- Transactions and concurrency: each call is sequential and all-or-nothing.
- HandleMissionRating: a failed review save is swallowed and the event is kept. In the program, `saveReviewDirectly` runs through the transactional review service inside `processEvent`'s transaction. A failed insert marks that transaction rollback-only, so the caught exception still fails the call at commit and no event is kept. A review-id collision causes this, and so does rating text longer than the 20-character column, which the event path does not check.
- ProcessEvent: for the same reason, the model reports success where the program's ingestion of a rating event fails because the derived review could not be saved.
- Column lengths, the `numeric(10, 3)` precision of `total_duration` and the 20-character `rating_text` column are not modelled. PostgreSQL's result scale for `AVG` and for `numeric` division is not modelled either: averages are exact rationals, and only the rounding the code asks for is applied.
- Paging: `listMissionAttempts` returns the whole table rather than a page.
- Other read operations outside this core are not modelled: `getRecentAttempts`, `getRecentReviews`, `getAllReviews`, `getAttemptDetail`'s assembly, `getEventsByAttemptId`, `getEventCountByAttemptId` and `getReviewById`.
- `getPortfolioStepDetails`: parsing the step fields and the average-time query are not modelled. `Timeline.IsStepSlow` takes the step's average as a parameter.
- The start response's WebSocket URL and expiry come from configuration; the model uses their default values.
- The WebSocket controller's replies: it publishes an acknowledgement after a successful ingestion, and after a failed one an error message carrying the failure's message, the message's type and attempt id and the current time. The REST error handler (`Responses.Handle`) never sees an ingestion failure. The model stops at `processEvent`'s result, and the topic names and reply maps are not modelled.
- `WebSocketMessage`'s constraint annotations: the WebSocket handler does not validate, so only `processEvent`'s own attempt-id check applies.
- Timeline.SortByTime: events with equal timestamps keep their store order. The SQL `ORDER BY` leaves that order unspecified, so this is one admissible order.
- Dashboard.CompletionRates: the SQL `GROUP BY` has no `ORDER BY`. The model fixes PORTFOLIO's row before VOCABULARY's, which is one admissible order.
- `jsonb` normalisation beyond top-level key order (`Entities.JsonbOrder`): keys inside nested objects are not reordered, because a composite value is kept as its rendered text, and number text is not normalised.
- Timeline.EntryOf: the typed fields read each number with the kind it had in the message. The program reads the reloaded `jsonb` row, where an exponent-form double such as 3.0E9 comes back as the integer 3000000000. Jackson then parses it as an integral number, so an out-of-range value wraps in the program (`scrollDepth` 3.0E9 gives -1294967296) where the model saturates it to 2147483647. A `duration` of 2^63 or more wraps the same way. In-range values agree.
- Requests.StartViolations: the messages are listed in field order, which is one admissible order. Hibernate Validator collects violations in a set with no defined order.
- Requests.ReviewViolations: the same holds for the review request's messages.
- Formatting.CreateDataPreview: the 100-character cut counts characters, where `String.length()` counts UTF-16 units. Previews containing characters outside the Basic Multilingual Plane can be cut at a different place.

## Behaviour kept as the code has it

Some behaviour one might expect is absent; the model follows the code:

- A second terminal event for an attempt is not rejected. It overwrites end time, duration and status (`Events.RepeatedTerminalEventOverwrites`).
- There is no quit-reason review path. A `mission_quitted` event only ends the attempt.
- A missing event timestamp or payload is not defaulted. The event row's non-null columns refuse it, and ingestion fails.
- The event path takes any number as the rating, with no 1..5 check. `hasFeedback` is copied from the payload or request and is not derived from the feedback text.
- The per-type analytics count attempts of every status in the rate's denominator (`Analytics.InProgressLowersRate`). The dashboard overview counts only COMPLETED and QUITTED attempts.

=== FILE: analytics.dfy ===
/** Per-type analytics (the analytics service): attempt counts, completion
    rate, average duration of completed attempts, average rating and review
    count for one mission type. */
module Analytics {

  import opened Common
  import opened Numeric
  import opened Entities
  import opened Tables

  /** `calculateCompletionRate`: completed/total rounded HALF_UP to four
      places, times 100, at scale 2; held here in hundredths of a percent. */
  function CompletionRate(total: nat, completed: nat): (r: int)
    ensures total == 0 ==> r == 0
    ensures r >= 0
  {
    if total == 0 then 0 else RoundHalfUp(completed * 10000, total)
  }

  /** The rate is the hundredth of a percent nearest to completed/total. */
  lemma CompletionRateNearest(total: nat, completed: nat)
    requires total > 0
    ensures IsHalfUpOf(CompletionRate(total, completed), completed * 10000, total)
  {
    RoundHalfUpNearest(completed * 10000, total);
  }

  /** A completion rate lies between 0.00 and 100.00 percent. */
  lemma CompletionRateBounds(total: nat, completed: nat)
    requires completed <= total
    ensures 0 <= CompletionRate(total, completed) <= 10000
  {
    if total > 0 {
      RoundHalfUpMonotone(completed * 10000, 10000 * total, total);
      RoundHalfUpExact(10000, total);
    }
  }

  /** 7 of 9 is 77.78 percent: 0.7778 after the four-place division. */
  lemma SevenOfNine()
    ensures CompletionRate(9, 7) == 7778
  {
  }

  /** Rows of `mission_attempts` joined to a review: those with its attempt
      id and the given type. With unique attempt ids this is 0 or 1. */
  function Matches(rows: seq<MissionAttempt>, attemptId: string, t: MissionType): (n: nat)
    ensures n <= |rows|
    ensures n == 0 <==> forall i :: 0 <= i < |rows| ==> !(rows[i].attemptId == attemptId && rows[i].missionType == t)
  {
    if |rows| == 0 then 0
    else
      var n := (if rows[0].attemptId == attemptId && rows[0].missionType == t then 1 else 0)
               + Matches(rows[1..], attemptId, t);
      assert forall i :: 1 <= i < |rows| ==> rows[1..][i - 1] == rows[i];
      n
  }

  /** `COUNT(r.*) FROM reviews r JOIN mission_attempts ma ... WHERE
      ma.mission_type = ?`: one joined row per matching attempt row. */
  function JoinCount(reviews: seq<Review>, rows: seq<MissionAttempt>, t: MissionType): nat {
    if |reviews| == 0 then 0
    else Matches(rows, reviews[0].attemptId, t) + JoinCount(reviews[1..], rows, t)
  }

  /** `SUM(r.rating)` over the same join. */
  function JoinRatingSum(reviews: seq<Review>, rows: seq<MissionAttempt>, t: MissionType): int {
    if |reviews| == 0 then 0
    else Matches(rows, reviews[0].attemptId, t) * reviews[0].rating + JoinRatingSum(reviews[1..], rows, t)
  }

  /** Each joined review contributes its rating once per joined row, so with
      ratings in 1..5 the joined sum lies between one and five times the
      joined count. */
  lemma {:induction false} JoinRatingBounds(reviews: seq<Review>, rows: seq<MissionAttempt>, t: MissionType)
    requires forall i :: 0 <= i < |reviews| ==> 1 <= reviews[i].rating <= 5
    ensures JoinCount(reviews, rows, t) <= JoinRatingSum(reviews, rows, t) <= 5 * JoinCount(reviews, rows, t)
  {
    if |reviews| > 0 {
      assert forall i :: 0 <= i < |reviews[1..]| ==> reviews[1..][i] == reviews[i + 1];
      JoinRatingBounds(reviews[1..], rows, t);
      ScaledRatingBounds(Matches(rows, reviews[0].attemptId, t), reviews[0].rating);
    }
  }

  /** A rating in 1..5 counted `k` times adds between `k` and `5 * k`. */
  lemma ScaledRatingBounds(k: nat, rating: int)
    requires 1 <= rating <= 5
    ensures k <= k * rating <= 5 * k
  {
    assert k * rating == k + k * (rating - 1);
    assert k * (rating - 1) >= 0;
    assert k * rating == 5 * k - k * (5 - rating);
    assert k * (5 - rating) >= 0;
  }

  /** The analytics of one mission type. Rates and averages are held in
      hundredths: `completionRate` of a percent, `avgDuration` of a second,
      `avgRating` of a star; each is 0 where SQL's average is null. */
  datatype MissionAnalytics = MissionAnalytics(
    totalAttempts: nat,
    completedAttempts: nat,
    completionRate: int,
    avgDuration: int,
    avgRating: int,
    reviewCount: nat)

  /** `calculateAverageDuration`: `AVG(total_duration)` of the completed
      attempts with a duration, in seconds, at scale 2; 0 when there is none.
      The column holds milliseconds / 1000, so hundredths of a second are
      the millisecond sum over ten times the count. */
  function AverageDuration(rows: seq<MissionAttempt>): (r: int)
    ensures Count(rows, IsCompletedWithDuration) == 0 ==> r == 0
  {
    var done := Filter(rows, IsCompletedWithDuration);
    if |done| == 0 then 0 else RoundHalfUp(Sum(done, DurationMillis), 10 * |done|)
  }

  /** The average is the hundredth of a second nearest to the mean
      duration (millisecond sum / (1000 n)). */
  lemma AverageDurationNearest(rows: seq<MissionAttempt>)
    requires Count(rows, IsCompletedWithDuration) > 0
    ensures IsHalfUpOf(AverageDuration(rows), Sum(Filter(rows, IsCompletedWithDuration), DurationMillis),
                       10 * Count(rows, IsCompletedWithDuration))
  {
    var done := Filter(rows, IsCompletedWithDuration);
    RoundHalfUpNearest(Sum(done, DurationMillis), 10 * |done|);
  }

  /** `getMissionAnalytics`: the type's attempts of every status, the
      COMPLETED ones among them, and the HALF_UP rate, average duration and
      average joined rating. */
  function GetMissionAnalytics(rows: seq<MissionAttempt>, reviews: seq<Review>, t: MissionType): (r: MissionAnalytics)
    ensures r.totalAttempts == |OfType(rows, t)|
    ensures r.completedAttempts == Count(OfType(rows, t), IsCompleted)
    ensures r.completedAttempts <= r.totalAttempts
    ensures 0 <= r.completionRate <= 10000
    ensures r.totalAttempts == 0 ==> r.completionRate == 0 && r.avgDuration == 0
    ensures r.totalAttempts > 0 ==> IsHalfUpOf(r.completionRate, r.completedAttempts * 10000, r.totalAttempts)
    ensures Count(OfType(rows, t), IsCompletedWithDuration) == 0 ==> r.avgDuration == 0
    ensures Count(OfType(rows, t), IsCompletedWithDuration) > 0 ==>
      IsHalfUpOf(r.avgDuration, Sum(Filter(OfType(rows, t), IsCompletedWithDuration), DurationMillis),
                 10 * Count(OfType(rows, t), IsCompletedWithDuration))
    ensures r.reviewCount == JoinCount(reviews, rows, t)
    ensures r.reviewCount == 0 ==> r.avgRating == 0
    ensures r.reviewCount > 0 ==> IsHalfUpOf(r.avgRating, JoinRatingSum(reviews, rows, t) * 100, r.reviewCount)
    ensures (forall i :: 0 <= i < |reviews| ==> 1 <= reviews[i].rating <= 5) && r.reviewCount > 0 ==>
      100 <= r.avgRating <= 500
  {
    var typed := OfType(rows, t);
    var total := |typed|;
    var completed := Count(typed, IsCompleted);
    var reviewCount := JoinCount(reviews, rows, t);
    var ratingSum := JoinRatingSum(reviews, rows, t);
    var avgRating := AvgHundredths(ratingSum, reviewCount).GetOr(0);
    CompletionRateBounds(total, completed);
    assert total > 0 ==> IsHalfUpOf(CompletionRate(total, completed), completed * 10000, total) by {
      if total > 0 { CompletionRateNearest(total, completed); }
    }
    assert Count(typed, IsCompletedWithDuration) > 0 ==>
      IsHalfUpOf(AverageDuration(typed), Sum(Filter(typed, IsCompletedWithDuration), DurationMillis),
                 10 * Count(typed, IsCompletedWithDuration)) by {
      if Count(typed, IsCompletedWithDuration) > 0 { AverageDurationNearest(typed); }
    }
    assert reviewCount > 0 ==> IsHalfUpOf(avgRating, ratingSum * 100, reviewCount) by {
      if reviewCount > 0 { AvgHundredthsNearest(ratingSum, reviewCount); }
    }
    assert (forall i :: 0 <= i < |reviews| ==> 1 <= reviews[i].rating <= 5) && reviewCount > 0 ==>
      100 <= avgRating <= 500 by {
      if (forall i :: 0 <= i < |reviews| ==> 1 <= reviews[i].rating <= 5) && reviewCount > 0 {
        JoinRatingBounds(reviews, rows, t);
        AvgHundredthsBetween(ratingSum, reviewCount, 1, 5);
      }
    }
    MissionAnalytics(total, completed, CompletionRate(total, completed), AverageDuration(typed), avgRating, reviewCount)
  }

  /** The numerator counts completed attempts only while the denominator
      counts every status, so an attempt still in progress lowers the rate. */
  lemma InProgressLowersRate(rows: seq<MissionAttempt>, a: MissionAttempt)
    requires a.status == IN_PROGRESS
    requires |OfType(rows, a.missionType)| > 0
    ensures var t := a.missionType;
            var before := Count(OfType(rows, t), IsCompleted);
            GetMissionAnalytics(rows + [a], [], t).totalAttempts == |OfType(rows, t)| + 1
            && GetMissionAnalytics(rows + [a], [], t).completedAttempts == before
  {
    var t := a.missionType;
    OfTypeAppend(rows, [a], t);
    assert OfType([a], t) == [a] by {
      assert [a][1..] == [];
    }
    CountAppendOne(OfType(rows, t), a);
  }

  lemma {:induction false} CountAppendOne(xs: seq<MissionAttempt>, a: MissionAttempt)
    requires !IsCompleted(a)
    ensures Count(xs + [a], IsCompleted) == Count(xs, IsCompleted)
  {
    if |xs| > 0 {
      assert (xs + [a])[1..] == xs[1..] + [a];
      CountAppendOne(xs[1..], a);
    } else {
      assert Count([a][1..], IsCompleted) == 0;
    }
  }
}

=== FILE: common.dfy ===
/** Failure-compatible wrappers shared by every module of the model:
    `Option` stands for a Java reference that may be null, `Result` for a
    call that either returns a value or throws. */
module Common {

  /** A value that may be absent (a nullable Java reference). */
  datatype Option<+T> = None | Some(value: T) {

    /** The wrapped value, or `default` when absent. */
    function GetOr(default: T): T {
      match this
      case Some(v) => v
      case None => default
    }
  }

  /** The outcome of an operation that may throw: `Ok` carries the return
      value, `Err` the exception. */
  datatype Result<+T, +E> = Ok(value: T) | Err(error: E) {

    predicate IsFailure() {
      Err?
    }

    function PropagateFailure<U>(): Result<U, E>
      requires Err?
    {
      Err(error)
    }

    function Extract(): T
      requires Ok?
    {
      value
    }
  }
}

=== FILE: dashboard.dfy ===
/** The dashboard's aggregate queries (the mission analysis service):
    overview, completion rate per type, three-hour start distribution and
    review statistics, each a function of the table rows. */
module Dashboard {

  import opened Common
  import opened Text
  import opened Numeric
  import opened Entities
  import opened Tables
  import opened Formatting
  import Analytics

  /** `ROUND(completed::numeric / NULLIF(total, 0) * 100, 2)` in hundredths
      of a percent; null when there are no rows. */
  function SqlCompletionRate(total: nat, completed: nat): (r: Option<int>)
    ensures r.None? <==> total == 0
    ensures r.Some? ==> r.value >= 0
  {
    if total == 0 then None else Some(RoundHalfUp(completed * 10000, total))
  }

  /** The SQL rate and the analytics service's rate (four-place division,
      times 100) name the same hundredth, and both read 0 without rows. */
  lemma RatesAgree(total: nat, completed: nat)
    ensures SqlCompletionRate(total, completed).GetOr(0) == Analytics.CompletionRate(total, completed)
  {
  }

  /** `AVG(total_duration)` in seconds over the given rows, nulls skipped;
      null when no row has a duration. */
  function AverageSeconds(rows: seq<MissionAttempt>): (r: Option<Ratio>)
    ensures r.None? <==> Count(rows, HasDuration) == 0
    ensures r.Some? ==> r.value.den == 1000 * Count(rows, HasDuration)
    ensures r.Some? ==> r.value.num == Sum(Filter(rows, HasDuration), DurationMillis)
  {
    var timed := Filter(rows, HasDuration);
    if |timed| == 0 then None else Some(Ratio(Sum(timed, DurationMillis), 1000 * |timed|))
  }

  /** The average lies between the shortest and the longest duration. */
  lemma AverageSecondsBetween(rows: seq<MissionAttempt>, lo: int, hi: int)
    requires forall i :: 0 <= i < |rows| && HasDuration(rows[i]) ==> lo <= DurationMillis(rows[i]) <= hi
    requires Count(rows, HasDuration) > 0
    ensures var avg := AverageSeconds(rows).value;
            lo * avg.den <= 1000 * avg.num <= hi * avg.den
  {
    var timed := Filter(rows, HasDuration);
    TimedBounds(rows, lo, hi);
    SumBounds(timed, DurationMillis, lo, hi);
    ScaleBounds(lo, hi, |timed|, Sum(timed, DurationMillis));
  }

  lemma TimedBounds(rows: seq<MissionAttempt>, lo: int, hi: int)
    requires forall i :: 0 <= i < |rows| && HasDuration(rows[i]) ==> lo <= DurationMillis(rows[i]) <= hi
    ensures forall i :: 0 <= i < |Filter(rows, HasDuration)| ==> lo <= DurationMillis(Filter(rows, HasDuration)[i]) <= hi
  {
    var timed := Filter(rows, HasDuration);
    forall i | 0 <= i < |timed|
      ensures lo <= DurationMillis(timed[i]) <= hi
    {
      var j :| 0 <= j < |rows| && rows[j] == timed[i];
    }
  }

  lemma ScaleBounds(lo: int, hi: int, n: nat, sum: int)
    requires lo * n <= sum <= hi * n
    ensures lo * (1000 * n) <= 1000 * sum <= hi * (1000 * n)
  {
    assert lo * (1000 * n) == 1000 * (lo * n);
    assert hi * (1000 * n) == 1000 * (hi * n);
  }

  const ZERO: Ratio := Ratio(0, 1)

  datatype OverviewStats = OverviewStats(
    totalAttempts: nat,
    completedAttempts: nat,
    quittedAttempts: nat,
    overallCompletionRate: int,       // hundredths of a percent
    avgCompletionTime: Ratio,         // seconds
    avgCompletionTimeFormatted: string,
    avgRating: int)                   // hundredths of a star

  /** `getOverviewStats`: only completed and quitted attempts are counted;
      expired, pending and running ones are left out of both numerator and
      denominator. Nulls read as 0, except in the formatted time, which
      shows "-". */
  function Overview(rows: seq<MissionAttempt>, reviews: seq<Review>): (r: OverviewStats)
    ensures r.totalAttempts == Count(rows, IsFinished)
    ensures r.completedAttempts == Count(rows, IsCompleted)
    ensures r.quittedAttempts == Count(rows, IsQuitted)
    ensures r.totalAttempts == r.completedAttempts + r.quittedAttempts
    ensures 0 <= r.overallCompletionRate <= 10000
    ensures r.overallCompletionRate == SqlCompletionRate(r.totalAttempts, r.completedAttempts).GetOr(0)
    ensures r.totalAttempts == 0 ==> r.overallCompletionRate == 0
    ensures r.totalAttempts > 0 ==>
      IsHalfUpOf(r.overallCompletionRate, r.completedAttempts * 10000, r.totalAttempts)
    ensures r.avgCompletionTimeFormatted == FormatDuration(AverageSeconds(Filter(rows, IsCompleted)))
    ensures Count(Filter(rows, IsCompleted), HasDuration) == 0 ==>
      r.avgCompletionTime == ZERO && r.avgCompletionTimeFormatted == DASH
    ensures Count(Filter(rows, IsCompleted), HasDuration) > 0 ==>
      r.avgCompletionTime == AverageSeconds(Filter(rows, IsCompleted)).value
    ensures |reviews| == 0 ==> r.avgRating == 0
    ensures |reviews| > 0 ==> IsHalfUpOf(r.avgRating, Sum(reviews, Rating) * 100, |reviews|)
    ensures |reviews| > 0 && (forall i :: 0 <= i < |reviews| ==> 1 <= reviews[i].rating <= 5) ==>
      100 <= r.avgRating <= 500
  {
    var finished := Filter(rows, IsFinished);
    var completed := Count(finished, IsCompleted);
    var quitted := Count(finished, IsQuitted);
    CountPartition(finished, IsCompleted, IsQuitted);
    FilterNarrow(rows, IsFinished, IsCompleted);
    FilterNarrow(rows, IsFinished, IsQuitted);
    Analytics.CompletionRateBounds(|finished|, completed);
    assert |finished| > 0 ==> IsHalfUpOf(SqlCompletionRate(|finished|, completed).value, completed * 10000, |finished|) by {
      if |finished| > 0 { RoundHalfUpNearest(completed * 10000, |finished|); }
    }
    var avgDuration := AverageSeconds(Filter(finished, IsCompleted));
    var avgRating := AvgHundredths(Sum(reviews, Rating), |reviews|);
    assert |reviews| > 0 ==> IsHalfUpOf(avgRating.value, Sum(reviews, Rating) * 100, |reviews|) by {
      if |reviews| > 0 { AvgHundredthsNearest(Sum(reviews, Rating), |reviews|); }
    }
    assert |reviews| > 0 && (forall i :: 0 <= i < |reviews| ==> 1 <= reviews[i].rating <= 5) ==>
      100 <= avgRating.value <= 500 by {
      if |reviews| > 0 && (forall i :: 0 <= i < |reviews| ==> 1 <= reviews[i].rating <= 5) {
        SumBounds(reviews, Rating, 1, 5);
        AvgHundredthsBetween(Sum(reviews, Rating), |reviews|, 1, 5);
      }
    }
    OverviewStats(|finished|, completed, quitted, SqlCompletionRate(|finished|, completed).GetOr(0),
                  avgDuration.GetOr(ZERO), FormatDuration(avgDuration), avgRating.GetOr(0))
  }

  /** One row of `getCompletionRates`. */
  datatype TypeRate = TypeRate(
    missionType: MissionType,
    totalAttempts: nat,
    completedCount: nat,
    quittedCount: nat,
    avgDuration: Option<Ratio>)       // seconds, over completed and quitted attempts
  {
    /** The row's `completion_rate` column, in hundredths of a percent: a
        function of the row's own counts. */
    function CompletionRate(): int {
      SqlCompletionRate(totalAttempts, completedCount).GetOr(0)
    }

    /** The row's `avgDurationFormatted`. */
    function AvgDurationFormatted(): string {
      FormatDuration(avgDuration)
    }
  }

  /** The completed and quitted attempts of one type. */
  function FinishedOfType(rows: seq<MissionAttempt>, t: MissionType): seq<MissionAttempt> {
    OfType(Filter(rows, IsFinished), t)
  }

  /** The row of one type's group; none when the group is empty. */
  function GroupRow(rows: seq<MissionAttempt>, t: MissionType): (r: Option<TypeRate>)
    ensures r.Some? <==> |FinishedOfType(rows, t)| > 0
    ensures r.Some? ==>
      var group := FinishedOfType(rows, t);
      && r.value.missionType == t
      && r.value.totalAttempts == |group|
      && r.value.totalAttempts == r.value.completedCount + r.value.quittedCount
      && r.value.completedCount == Count(group, IsCompleted)
      && r.value.avgDuration == AverageSeconds(group)
  {
    var group := FinishedOfType(rows, t);
    if |group| == 0 then None
    else
      var completed := Count(group, IsCompleted);
      assert forall i :: 0 <= i < |group| ==> IsFinished(group[i]);
      CountPartition(group, IsCompleted, IsQuitted);
      Some(TypeRate(t, |group|, completed, Count(group, IsQuitted), AverageSeconds(group)))
  }

  function RowsOf(o: Option<TypeRate>): (r: seq<TypeRate>)
    ensures |r| == (if o.Some? then 1 else 0)
  {
    if o.Some? then [o.value] else []
  }

  /** `getCompletionRates`: one row per type that has completed or quitted
      attempts, PORTFOLIO's first. Unlike the overview, the average duration
      here also covers quitted attempts. */
  function CompletionRates(rows: seq<MissionAttempt>): (r: seq<TypeRate>)
    ensures |r| == (if |FinishedOfType(rows, PORTFOLIO)| > 0 then 1 else 0)
                 + (if |FinishedOfType(rows, VOCABULARY)| > 0 then 1 else 0)
  {
    RowsOf(GroupRow(rows, PORTFOLIO)) + RowsOf(GroupRow(rows, VOCABULARY))
  }

  /** The rows are the types' group rows: PORTFOLIO's first when it has
      one, VOCABULARY's last when it has one. */
  lemma CompletionRatesRows(rows: seq<MissionAttempt>)
    ensures |FinishedOfType(rows, PORTFOLIO)| > 0 ==>
      CompletionRates(rows)[0] == GroupRow(rows, PORTFOLIO).value
    ensures |FinishedOfType(rows, VOCABULARY)| > 0 ==>
      CompletionRates(rows)[|CompletionRates(rows)| - 1] == GroupRow(rows, VOCABULARY).value
  {
  }

  /** Each completed or quitted attempt is counted in exactly one type's
      row. */
  lemma CompletionRatesCoverFinished(rows: seq<MissionAttempt>)
    ensures TotalOf(CompletionRates(rows)) == Count(rows, IsFinished)
  {
    TypesPartition(Filter(rows, IsFinished));
    GroupRowTotal(rows, PORTFOLIO);
    GroupRowTotal(rows, VOCABULARY);
    TotalOfAppend(RowsOf(GroupRow(rows, PORTFOLIO)), RowsOf(GroupRow(rows, VOCABULARY)));
  }

  lemma GroupRowTotal(rows: seq<MissionAttempt>, t: MissionType)
    ensures TotalOf(RowsOf(GroupRow(rows, t))) == |FinishedOfType(rows, t)|
  {
    var a := RowsOf(GroupRow(rows, t));
    if |a| == 1 {
      assert a[1..] == [];
    }
  }

  lemma {:induction false} TotalOfAppend(a: seq<TypeRate>, b: seq<TypeRate>)
    ensures TotalOf(a + b) == TotalOf(a) + TotalOf(b)
  {
    if |a| == 0 {
      assert a + b == b;
    } else {
      assert (a + b)[1..] == a[1..] + b;
      TotalOfAppend(a[1..], b);
    }
  }

  function TotalOf(r: seq<TypeRate>): nat {
    if |r| == 0 then 0 else r[0].totalAttempts + TotalOf(r[1..])
  }

  /** The first hours of the eight three-hour ranges. */
  predicate IsRangeStart(b: int) {
    b == 0 || b == 3 || b == 6 || b == 9 || b == 12 || b == 15 || b == 18 || b == 21
  }

  /** The start of the three-hour range holding `hour`. */
  function Bucket(hour: int): (b: int)
    requires 0 <= hour < 24
    ensures IsRangeStart(b)
    ensures b <= hour < b + 3
  {
    if hour < 3 then 0 else if hour < 6 then 3 else if hour < 9 then 6
    else if hour < 12 then 9 else if hour < 15 then 12 else if hour < 18 then 15
    else if hour < 21 then 18 else 21
  }

  /** The range start is `FLOOR(hour / 3) * 3`. */
  lemma BucketIsFloorDivision(hour: int)
    requires 0 <= hour < 24
    ensures Bucket(hour) == (hour / 3) * 3
  {
  }

  function BucketOf(a: MissionAttempt): int {
    Bucket(HourOf(a.startTime))
  }

  /** Attempts started in the range beginning at hour `b`. */
  function InBucket(rows: seq<MissionAttempt>, b: int): nat {
    if |rows| == 0 then 0 else (if BucketOf(rows[0]) == b then 1 else 0) + InBucket(rows[1..], b)
  }

  /** Completed attempts started in the range beginning at hour `b`. */
  function CompletedInBucket(rows: seq<MissionAttempt>, b: int): (n: nat)
    ensures n <= InBucket(rows, b)
  {
    if |rows| == 0 then 0
    else (if BucketOf(rows[0]) == b && rows[0].status == COMPLETED then 1 else 0) + CompletedInBucket(rows[1..], b)
  }

  /** The eight range labels, in order of their first hour. */
  const HOUR_LABELS: seq<string> := [
    "00:00-03:00", "03:00-06:00", "06:00-09:00", "09:00-12:00",
    "12:00-15:00", "15:00-18:00", "18:00-21:00", "21:00-24:00"]

  /** The label of the range starting at hour `start`. */
  function HourLabel(start: int): (s: string)
    requires IsRangeStart(start)
    ensures |s| == 11
  {
    if start == 0 then HOUR_LABELS[0] else if start == 3 then HOUR_LABELS[1]
    else if start == 6 then HOUR_LABELS[2] else if start == 9 then HOUR_LABELS[3]
    else if start == 12 then HOUR_LABELS[4] else if start == 15 then HOUR_LABELS[5]
    else if start == 18 then HOUR_LABELS[6] else HOUR_LABELS[7]
  }

  /** The table is `String.format("%02d:00-%02d:00", start, start + 3)`:
      the label shows the range's first hour and the hour after its last,
      each as two digits. */
  lemma HourLabelFormat(start: int)
    requires IsRangeStart(start)
    ensures HourLabel(start) == Pad2(start) + ":00-" + Pad2(start + 3) + ":00"
    ensures DigitsValue(HourLabel(start)[..2]) == start
    ensures DigitsValue(HourLabel(start)[6..8]) == start + 3
  {
    var s := Pad2(start) + ":00-" + Pad2(start + 3) + ":00";
    assert s[..2] == Pad2(start);
    assert s[6..8] == Pad2(start + 3);
    if start <= 9 {
      EarlyLabelFormat(start);
    } else {
      LateLabelFormat(start);
    }
  }

  lemma EarlyLabelFormat(start: int)
    requires start == 0 || start == 3 || start == 6 || start == 9
    ensures HourLabel(start) == Pad2(start) + ":00-" + Pad2(start + 3) + ":00"
  {
    var s := Pad2(start) + ":00-" + Pad2(start + 3) + ":00";
    if start == 0 {
      assert s == "00:00-03:00";
    } else if start == 3 {
      assert s == "03:00-06:00";
    } else if start == 6 {
      assert s == "06:00-09:00";
    } else {
      assert s == "09:00-12:00";
    }
  }

  lemma LateLabelFormat(start: int)
    requires start == 12 || start == 15 || start == 18 || start == 21
    ensures HourLabel(start) == Pad2(start) + ":00-" + Pad2(start + 3) + ":00"
  {
    var s := Pad2(start) + ":00-" + Pad2(start + 3) + ":00";
    if start == 12 {
      assert s == "12:00-15:00";
    } else if start == 15 {
      assert s == "15:00-18:00";
    } else if start == 18 {
      assert s == "18:00-21:00";
    } else {
      assert s == "21:00-24:00";
    }
  }

  datatype HourlyRow = HourlyRow(
    hourRangeStart: int,
    hourRange: string,
    totalAttempts: nat,
    completedCount: nat)
  {
    /** The row's `completion_rate` column, in hundredths of a percent. */
    function CompletionRate(): int {
      SqlCompletionRate(totalAttempts, completedCount).GetOr(0)
    }
  }

  /** A rate of counts with completed <= total lies between 0.00 and 100.00
      percent. */
  lemma SqlRateBounds(total: nat, completed: nat)
    requires completed <= total
    ensures 0 <= SqlCompletionRate(total, completed).GetOr(0) <= 10000
  {
    Analytics.CompletionRateBounds(total, completed);
  }

  /** Attempts in the ranges starting at 3k, 3(k+1), ..., 21. */
  function BucketsFrom(rows: seq<MissionAttempt>, k: nat): nat
    requires k <= 8
    decreases 8 - k
  {
    if k == 8 then 0 else InBucket(rows, 3 * k) + BucketsFrom(rows, k + 1)
  }

  /** The rows for the ranges from 3k on, ascending, empty ranges skipped. */
  function HourlyFrom(rows: seq<MissionAttempt>, k: nat): (r: seq<HourlyRow>)
    requires k <= 8
    ensures forall i :: 0 <= i < |r| ==> 3 * k <= r[i].hourRangeStart && IsRangeStart(r[i].hourRangeStart)
    ensures forall i :: 0 <= i < |r| ==>
      && r[i].totalAttempts == InBucket(rows, r[i].hourRangeStart) > 0
      && r[i].completedCount == CompletedInBucket(rows, r[i].hourRangeStart)
      && r[i].hourRange == HourLabel(r[i].hourRangeStart)
    decreases 8 - k
  {
    if k == 8 then []
    else
      var start := 3 * k;
      var total := InBucket(rows, start);
      var rest := HourlyFrom(rows, k + 1);
      if total == 0 then rest
      else
        var completed := CompletedInBucket(rows, start);
        var row := HourlyRow(start, HourLabel(start), total, completed);
        var r := [row] + rest;
        assert forall i :: 1 <= i < |r| ==> r[i] == rest[i - 1];
        r
  }

  /** The rows come in ascending order of their ranges. */
  lemma {:induction false} HourlyFromAscending(rows: seq<MissionAttempt>, k: nat)
    requires k <= 8
    ensures forall i, j :: 0 <= i < j < |HourlyFrom(rows, k)| ==>
      HourlyFrom(rows, k)[i].hourRangeStart < HourlyFrom(rows, k)[j].hourRangeStart
    decreases 8 - k
  {
    if k < 8 {
      HourlyFromAscending(rows, k + 1);
      var r := HourlyFrom(rows, k);
      var rest := HourlyFrom(rows, k + 1);
      if InBucket(rows, 3 * k) > 0 {
        assert r[1..] == rest;
        assert forall j :: 0 < j < |r| ==> r[j] == rest[j - 1];
      }
    }
  }

  lemma {:induction false} HourlyFromTotals(rows: seq<MissionAttempt>, k: nat)
    requires k <= 8
    ensures TotalHours(HourlyFrom(rows, k)) == BucketsFrom(rows, k)
    decreases 8 - k
  {
    if k < 8 {
      HourlyFromTotals(rows, k + 1);
      var r := HourlyFrom(rows, k);
      if InBucket(rows, 3 * k) > 0 {
        assert r[1..] == HourlyFrom(rows, k + 1);
      }
    }
  }

  /** The range starting at hour 3j, when it has attempts, has a row among
      the rows from 3k on, for k <= j. */
  lemma {:induction false} HourlyFromCovers(rows: seq<MissionAttempt>, k: nat, j: nat)
    requires k <= j < 8 && InBucket(rows, 3 * j) > 0
    ensures exists i :: 0 <= i < |HourlyFrom(rows, k)| && HourlyFrom(rows, k)[i].hourRangeStart == 3 * j
    decreases 8 - k
  {
    var r := HourlyFrom(rows, k);
    if j == k {
      HourlyFromHead(rows, k);
      assert 0 < |r| && r[0].hourRangeStart == 3 * j;
    } else {
      HourlyFromCovers(rows, k + 1, j);
      var rest := HourlyFrom(rows, k + 1);
      var i :| 0 <= i < |rest| && rest[i].hourRangeStart == 3 * j;
      if InBucket(rows, 3 * k) > 0 {
        HourlyFromHead(rows, k);
        assert r[i + 1] == r[1..][i] == rest[i];
        assert 0 <= i + 1 < |r| && r[i + 1].hourRangeStart == 3 * j;
      } else {
        HourlyFromSkip(rows, k);
        assert 0 <= i < |r| && r[i].hourRangeStart == 3 * j;
      }
    }
  }

  /** A non-empty range leads the rows from its index on. */
  lemma HourlyFromHead(rows: seq<MissionAttempt>, k: nat)
    requires k < 8 && InBucket(rows, 3 * k) > 0
    ensures |HourlyFrom(rows, k)| > 0 && HourlyFrom(rows, k)[0].hourRangeStart == 3 * k
    ensures HourlyFrom(rows, k)[1..] == HourlyFrom(rows, k + 1)
  {
  }

  /** An empty range adds no row. */
  lemma HourlyFromSkip(rows: seq<MissionAttempt>, k: nat)
    requires k < 8 && InBucket(rows, 3 * k) == 0
    ensures HourlyFrom(rows, k) == HourlyFrom(rows, k + 1)
  {
  }

  function TotalHours(r: seq<HourlyRow>): nat {
    if |r| == 0 then 0 else r[0].totalAttempts + TotalHours(r[1..])
  }

  /** `getHourlyDistribution`: the non-empty three-hour ranges of attempt
      start times, in ascending order. */
  function HourlyDistribution(rows: seq<MissionAttempt>): (r: seq<HourlyRow>)
    ensures forall i :: 0 <= i < |r| ==> IsRangeStart(r[i].hourRangeStart)
    ensures forall i, j :: 0 <= i < j < |r| ==> r[i].hourRangeStart < r[j].hourRangeStart
    ensures forall i :: 0 <= i < |r| ==>
      && r[i].totalAttempts == InBucket(rows, r[i].hourRangeStart) > 0
      && r[i].completedCount == CompletedInBucket(rows, r[i].hourRangeStart)
      && r[i].hourRange == HourLabel(r[i].hourRangeStart)
  {
    HourlyFromAscending(rows, 0);
    HourlyFrom(rows, 0)
  }

  /** Every attempt's range has a row. */
  lemma HourlyHasEveryRange(rows: seq<MissionAttempt>, a: MissionAttempt)
    requires a in rows
    ensures exists i :: 0 <= i < |HourlyDistribution(rows)| && HourlyDistribution(rows)[i].hourRangeStart == BucketOf(a)
  {
    InBucketMember(rows, a);
    HourlyFromCovers(rows, 0, BucketOf(a) / 3);
    assert HourlyDistribution(rows) == HourlyFrom(rows, 0);
  }

  lemma {:induction false} InBucketMember(rows: seq<MissionAttempt>, a: MissionAttempt)
    requires a in rows
    ensures InBucket(rows, BucketOf(a)) > 0
  {
    if rows[0] != a {
      InBucketMember(rows[1..], a);
    }
  }

  /** Every attempt is counted in exactly one range: the row totals add up
      to the number of attempts. */
  lemma HourlyCoversAll(rows: seq<MissionAttempt>)
    ensures TotalHours(HourlyDistribution(rows)) == |rows|
  {
    BucketsCoverAll(rows);
    HourlyFromTotals(rows, 0);
  }

  lemma {:induction false} BucketsCoverAll(rows: seq<MissionAttempt>)
    ensures BucketsFrom(rows, 0) == |rows|
  {
    if |rows| > 0 {
      BucketsCoverAll(rows[1..]);
      BucketsStep(rows, 0);
    }
  }

  /** Peeling the first attempt off the table takes one away from the
      ranges at or above its own. */
  lemma {:induction false} BucketsStep(rows: seq<MissionAttempt>, k: nat)
    requires |rows| > 0 && k <= 8
    ensures BucketsFrom(rows, k) == BucketsFrom(rows[1..], k) + (if BucketOf(rows[0]) >= 3 * k then 1 else 0)
    decreases 8 - k
  {
    if k < 8 {
      BucketsStep(rows, k + 1);
    }
  }

  predicate HasFeedback(r: Review) {
    r.hasFeedback
  }

  /** Reviews with rating `k`. */
  function RatingCount(reviews: seq<Review>, k: int): (n: nat)
    ensures n <= |reviews|
    ensures n == 0 <==> forall i :: 0 <= i < |reviews| ==> reviews[i].rating != k
  {
    if |reviews| == 0 then 0
    else
      var n := (if reviews[0].rating == k then 1 else 0) + RatingCount(reviews[1..], k);
      assert forall i :: 1 <= i < |reviews| ==> reviews[1..][i - 1] == reviews[i];
      n
  }

  predicate OutOfScale(r: Review) {
    r.rating < 1 || r.rating > 5
  }

  /** The five histogram bars and the out-of-scale reviews cover every
      review exactly once. */
  lemma {:induction false} HistogramCoversAll(reviews: seq<Review>)
    ensures RatingCount(reviews, 5) + RatingCount(reviews, 4) + RatingCount(reviews, 3)
          + RatingCount(reviews, 2) + RatingCount(reviews, 1) + Count(reviews, OutOfScale) == |reviews|
  {
    if |reviews| > 0 {
      HistogramCoversAll(reviews[1..]);
    }
  }

  datatype ReviewStatistics = ReviewStatistics(
    totalReviews: nat,
    rating5Count: nat,
    rating4Count: nat,
    rating3Count: nat,
    rating2Count: nat,
    rating1Count: nat,
    withFeedbackCount: nat,
    avgRating: Option<int>)           // hundredths of a star; null without reviews

  /** `getReviewStatistics`. A rating outside 1..5 (which the event path
      can store) is in the total but in no bar. */
  function GetReviewStatistics(reviews: seq<Review>): (r: ReviewStatistics)
    ensures r.totalReviews == |reviews|
    ensures r.rating5Count == RatingCount(reviews, 5) && r.rating4Count == RatingCount(reviews, 4)
    ensures r.rating3Count == RatingCount(reviews, 3) && r.rating2Count == RatingCount(reviews, 2)
    ensures r.rating1Count == RatingCount(reviews, 1)
    ensures r.rating5Count + r.rating4Count + r.rating3Count + r.rating2Count + r.rating1Count
            == r.totalReviews - Count(reviews, OutOfScale)
    ensures r.withFeedbackCount == Count(reviews, HasFeedback)
    ensures r.avgRating.None? <==> |reviews| == 0
    ensures r.avgRating.Some? ==> IsHalfUpOf(r.avgRating.value, Sum(reviews, Rating) * 100, |reviews|)
    ensures |reviews| > 0 && Count(reviews, OutOfScale) == 0 ==> 100 <= r.avgRating.value <= 500
  {
    HistogramCoversAll(reviews);
    var avg := AvgHundredths(Sum(reviews, Rating), |reviews|);
    assert avg.Some? ==> IsHalfUpOf(avg.value, Sum(reviews, Rating) * 100, |reviews|) by {
      if avg.Some? { AvgHundredthsNearest(Sum(reviews, Rating), |reviews|); }
    }
    assert |reviews| > 0 && Count(reviews, OutOfScale) == 0 ==> 100 <= avg.value <= 500 by {
      if |reviews| > 0 && Count(reviews, OutOfScale) == 0 {
        assert forall i :: 0 <= i < |reviews| ==> 1 <= Rating(reviews[i]) <= 5 by {
          assert forall i :: 0 <= i < |reviews| ==> !OutOfScale(reviews[i]);
        }
        SumBounds(reviews, Rating, 1, 5);
        AvgHundredthsBetween(Sum(reviews, Rating), |reviews|, 1, 5);
      }
    }
    ReviewStatistics(|reviews|, RatingCount(reviews, 5), RatingCount(reviews, 4), RatingCount(reviews, 3),
                     RatingCount(reviews, 2), RatingCount(reviews, 1), Count(reviews, HasFeedback), avg)
  }
}

=== FILE: entities.dfy ===
/** The persisted records (attempt, event, review), the two enumerations, and
    the untyped event payload. */
module Entities {

  import opened Common
  import opened Text
  import opened Numeric
  import opened Failures

  /** A `LocalDateTime`, as milliseconds on the local time line. */
  type Timestamp = int

  const MILLIS_PER_HOUR: int := 3_600_000

  /** Hour of day (0..23) of a timestamp: `EXTRACT(HOUR FROM t)`, the hour
      whose sixty minutes hold the time of day of `t`. */
  function HourOf(t: Timestamp): (h: int)
    ensures 0 <= h < 24
    ensures h * MILLIS_PER_HOUR <= t % (24 * MILLIS_PER_HOUR) < (h + 1) * MILLIS_PER_HOUR
  {
    (t / MILLIS_PER_HOUR) % 24
  }

  datatype MissionType = PORTFOLIO | VOCABULARY

  datatype MissionStatus = PENDING | IN_PROGRESS | COMPLETED | QUITTED | EXPIRED

  /** `Enum.name()`. */
  function TypeName(t: MissionType): string {
    match t
    case PORTFOLIO => "PORTFOLIO"
    case VOCABULARY => "VOCABULARY"
  }

  /** The constants in declaration order (`MissionType.values()`). */
  const ALL_TYPES: seq<MissionType> := [PORTFOLIO, VOCABULARY]

  /** `Character`-level case folding of `String.equalsIgnoreCase` against an
      upper-case ASCII letter `u`: the letter itself, its lower case, and for
      'I' also the dotless i (U+0131, whose upper case is 'I') and the dotted
      capital I (U+0130, whose lower case is 'i'). No other character folds
      onto a letter of the two constant names. */
  predicate FoldsTo(c: char, u: char)
    requires 'A' <= u <= 'Z'
  {
    c == u || c as int == u as int + 32 || (u == 'I' && (c == 'ı' || c == 'İ'))
  }

  predicate UpperAscii(s: string) {
    forall i :: 0 <= i < |s| ==> 'A' <= s[i] <= 'Z'
  }

  /** `name.equalsIgnoreCase(value)` for an upper-case ASCII `name`. */
  predicate EqualsIgnoreCase(value: string, name: string)
    requires UpperAscii(name)
  {
    |value| == |name| && forall i :: 0 <= i < |name| ==> FoldsTo(value[i], name[i])
  }

  function InvalidTypeMessage(value: string): string {
    "Invalid MissionType: " + value + ". Allowed values: PORTFOLIO, VOCABULARY"
  }

  /** `MissionType.fromString`: null stays null; otherwise the first constant
      whose name matches ignoring case; otherwise `IllegalArgumentException`. */
  function FromString(value: Option<string>): (r: Result<Option<MissionType>, Failure>)
    ensures value.None? ==> r == Ok(None)
    ensures value.Some? && r.Ok? ==> r.value.Some? && EqualsIgnoreCase(value.value, TypeName(r.value.value))
    ensures value.Some? && r.Err? ==>
      r.error == IllegalArgument(InvalidTypeMessage(value.value))
      && forall t: MissionType :: !EqualsIgnoreCase(value.value, TypeName(t))
  {
    match value
    case None => Ok(None)
    case Some(v) =>
      if EqualsIgnoreCase(v, "PORTFOLIO") then Ok(Some(PORTFOLIO))
      else if EqualsIgnoreCase(v, "VOCABULARY") then Ok(Some(VOCABULARY))
      else Err(IllegalArgument(InvalidTypeMessage(v)))
  }

  /** `toValue`: the constant's name, which `fromString` reads back. */
  function ToValue(t: MissionType): (s: string)
    ensures FromString(Some(s)) == Ok(Some(t))
    ensures UpperAscii(s)
  {
    TypeName(t)
  }

  /** No string names both constants. */
  lemma NamesDisjoint(v: string)
    ensures !(EqualsIgnoreCase(v, "PORTFOLIO") && EqualsIgnoreCase(v, "VOCABULARY"))
  {
  }

  /** Lower-case and mixed-case spellings are accepted. */
  lemma FromStringIgnoresCase()
    ensures FromString(Some("portfolio")) == Ok(Some(PORTFOLIO))
    ensures FromString(Some("Vocabulary")) == Ok(Some(VOCABULARY))
    ensures FromString(Some("portfolıo")) == Ok(Some(PORTFOLIO))
    ensures FromString(Some("quiz")).Err?
  {
    assert EqualsIgnoreCase("portfolio", "PORTFOLIO");
    assert EqualsIgnoreCase("Vocabulary", "VOCABULARY");
    assert EqualsIgnoreCase("portfolıo", "PORTFOLIO");
  }

  /** One untyped JSON value of an event payload, as Jackson hands it over. */
  datatype Value =
    | JNull
    | JBool(b: bool)
    | JIntegral(n: int)                          // Integer, Long or BigInteger
    | JFractional(whole: int, rendered: string)  // Double: integer part toward zero, and its text
    | JString(s: string)
    | JComposite(rendered: string)               // nested object or array, with its toString text

  type Entry = (string, Value)

  predicate DistinctKeys(p: seq<Entry>) {
    forall i, j :: 0 <= i < j < |p| ==> p[i].0 != p[j].0
  }

  /** A parsed JSON object: its entries in iteration order, keys distinct. */
  type Payload = p: seq<Entry> | DistinctKeys(p) witness []

  /** `Map.get`: `JNull` both for an absent key and for an explicit null. */
  function Get(p: seq<Entry>, key: string): (v: Value)
    ensures v != JNull ==> exists i :: 0 <= i < |p| && p[i] == (key, v)
    ensures (forall i :: 0 <= i < |p| ==> p[i].0 != key) ==> v == JNull
  {
    if |p| == 0 then JNull
    else if p[0].0 == key then p[0].1
    else Get(p[1..], key)
  }

  /** `Get` finds the value stored under a key, wherever its entry is. */
  lemma {:induction false} GetFinds(p: seq<Entry>, key: string, v: Value)
    requires DistinctKeys(p)
    requires (key, v) in p
    ensures Get(p, key) == v
  {
    if p[0] != (key, v) {
      assert (key, v) in p[1..];
      assert DistinctKeys(p[1..]) by {
        assert forall i :: 0 <= i < |p[1..]| ==> p[1..][i] == p[i + 1];
      }
      var k :| 1 <= k < |p| && p[k] == (key, v);
      assert p[0].0 != key;
      GetFinds(p[1..], key, v);
    }
  }

  /** Two payloads with the same entries answer every lookup alike, whatever
      their key order. */
  lemma GetIgnoresOrder(p: seq<Entry>, q: seq<Entry>, key: string)
    requires DistinctKeys(p) && DistinctKeys(q)
    requires forall e :: e in p <==> e in q
    ensures Get(p, key) == Get(q, key)
  {
    var v, w := Get(p, key), Get(q, key);
    if v != JNull {
      GetFinds(q, key, v);
    } else if w != JNull {
      GetFinds(p, key, w);
    }
  }

  /** PostgreSQL's `jsonb` key order: shorter keys (in UTF-8 bytes) first,
      keys of equal length byte-wise. */
  predicate JsonbKeyBefore(a: string, b: string) {
    Utf8Length(a) < Utf8Length(b) || (Utf8Length(a) == Utf8Length(b) && LexLess(a, b))
  }

  /** Each key comes before the next in `jsonb` order. */
  predicate JsonbOrdered(p: seq<Entry>) {
    forall i :: 0 < i < |p| ==> JsonbKeyBefore(p[i - 1].0, p[i].0)
  }

  /** One entry put in its `jsonb` place: before the first key it precedes. */
  function InsertEntry(x: Entry, ys: seq<Entry>): (r: seq<Entry>)
    ensures multiset(r) == multiset(ys) + multiset{x}
    ensures r[0] == x || (|ys| > 0 && r[0] == ys[0])
  {
    if |ys| == 0 || JsonbKeyBefore(x.0, ys[0].0) then [x] + ys
    else
      assert ys == [ys[0]] + ys[1..];
      [ys[0]] + InsertEntry(x, ys[1..])
  }

  /** Inserting a new key keeps the keys in `jsonb` order. */
  lemma {:induction false} InsertKeepsOrder(x: Entry, ys: seq<Entry>)
    requires JsonbOrdered(ys)
    requires forall e :: e in ys ==> e.0 != x.0
    ensures JsonbOrdered(InsertEntry(x, ys))
  {
    if |ys| > 0 && !JsonbKeyBefore(x.0, ys[0].0) {
      assert ys[0] in ys;
      assert JsonbKeyBefore(ys[0].0, x.0) by {
        if Utf8Length(ys[0].0) == Utf8Length(x.0) {
          LexTotal(ys[0].0, x.0);
        }
      }
      assert forall e :: e in ys[1..] ==> e in ys;
      InsertKeepsOrder(x, ys[1..]);
    }
  }

  /** Sequences with the same multiset have the same members. */
  lemma SameMembers(a: seq<Entry>, b: seq<Entry>)
    requires multiset(a) == multiset(b)
    ensures forall e :: e in a <==> e in b
  {
    forall e ensures e in a <==> e in b {
      assert e in a <==> multiset(a)[e] > 0;
      assert e in b <==> multiset(b)[e] > 0;
    }
  }

  /** The first key of a payload is not among the later ones. */
  lemma FirstKeyFresh(p: seq<Entry>)
    requires |p| > 0 && DistinctKeys(p)
    ensures DistinctKeys(p[1..])
    ensures forall e :: e in p[1..] ==> e.0 != p[0].0
  {
    assert forall i :: 0 <= i < |p[1..]| ==> p[1..][i] == p[i + 1];
  }

  /** Inserting a new key keeps the keys distinct. */
  lemma {:induction false} InsertKeepsDistinct(x: Entry, ys: seq<Entry>)
    requires DistinctKeys(ys)
    requires forall e :: e in ys ==> e.0 != x.0
    ensures DistinctKeys(InsertEntry(x, ys))
  {
    if |ys| > 0 && !JsonbKeyBefore(x.0, ys[0].0) {
      var tail := ys[1..];
      FirstKeyFresh(ys);
      assert forall e :: e in tail ==> e in ys;
      InsertKeepsDistinct(x, tail);
      var rest := InsertEntry(x, tail);
      SameMembers(rest, tail + [x]);
      assert ys[0] in ys;
      assert forall e :: e in rest ==> e.0 != ys[0].0;
      assert InsertEntry(x, ys) == [ys[0]] + rest;
    }
  }

  /** A payload as the `jsonb` column gives it back: the same entries, keys
      in `jsonb` order. */
  function JsonbOrder(p: Payload): (r: Payload)
    ensures JsonbOrdered(r)
    ensures multiset(r) == multiset(p)
  {
    if |p| == 0 then []
    else
      FirstKeyFresh(p);
      var rest := JsonbOrder(p[1..]);
      SameMembers(rest, p[1..]);
      InsertKeepsOrder(p[0], rest);
      InsertKeepsDistinct(p[0], rest);
      assert p == [p[0]] + p[1..];
      InsertEntry(p[0], rest)
  }

  /** Reading a payload back from `jsonb` changes no lookup. */
  lemma JsonbOrderKeepsValues(p: Payload, key: string)
    ensures Get(JsonbOrder(p), key) == Get(p, key)
  {
    SameMembers(JsonbOrder(p), p);
    GetIgnoresOrder(JsonbOrder(p), p, key);
  }

  /** A `(String)` cast of a payload value. */
  function StringField(data: Payload, key: string): (r: Result<Option<string>, Failure>)
    ensures Get(data, key).JNull? ==> r == Ok(None)
    ensures Get(data, key).JString? ==> r == Ok(Some(Get(data, key).s))
    ensures !(Get(data, key).JNull? || Get(data, key).JString?) ==> r == Err(ClassCast(key))
  {
    match Get(data, key)
    case JNull => Ok(None)
    case JString(text) => Ok(Some(text))
    case _ => Err(ClassCast(key))
  }

  /** A `(Boolean)` cast of a payload value. */
  function BoolField(data: Payload, key: string): (r: Result<Option<bool>, Failure>)
    ensures Get(data, key).JNull? ==> r == Ok(None)
    ensures Get(data, key).JBool? ==> r == Ok(Some(Get(data, key).b))
    ensures !(Get(data, key).JNull? || Get(data, key).JBool?) ==> r == Err(ClassCast(key))
  {
    match Get(data, key)
    case JNull => Ok(None)
    case JBool(b) => Ok(Some(b))
    case _ => Err(ClassCast(key))
  }

  /** `Number.intValue()` of a number value: an integer keeps its low 32
      bits, a double is truncated toward zero and saturates at the bounds. */
  function IntValue(v: Value): (r: Int32)
    requires v.JIntegral? || v.JFractional?
    ensures v.JIntegral? ==> (InInt32(v.n) ==> r == v.n) && (r - v.n) % TWO_32 == 0
    ensures v.JFractional? ==>
      && (InInt32(v.whole) ==> r == v.whole)
      && (v.whole < -0x8000_0000 ==> r == -0x8000_0000)
      && (v.whole >= 0x8000_0000 ==> r == 0x7FFF_FFFF)
  {
    if v.JIntegral? then WrapInt32(v.n) else SaturateInt32(v.whole)
  }

  /** `Number.longValue()` of a number value: an integer keeps its low 64
      bits, a double is truncated toward zero and saturates at the bounds. */
  function LongValue(v: Value): (r: int)
    requires v.JIntegral? || v.JFractional?
    ensures InInt64(r)
    ensures v.JIntegral? ==> (InInt64(v.n) ==> r == v.n) && (r - v.n) % TWO_64 == 0
    ensures v.JFractional? ==>
      && (InInt64(v.whole) ==> r == v.whole)
      && (v.whole < -0x8000_0000_0000_0000 ==> r == -0x8000_0000_0000_0000)
      && (v.whole >= 0x8000_0000_0000_0000 ==> r == 0x7FFF_FFFF_FFFF_FFFF)
  {
    if v.JIntegral? then WrapInt64(v.n) else SaturateInt64(v.whole)
  }

  /** `String.valueOf(Object)` of a non-null value. */
  function Render(v: Value): string {
    match v
    case JNull => "null"
    case JBool(b) => if b then "true" else "false"
    case JIntegral(n) => IntToString(n)
    case JFractional(_, text) => text
    case JString(s) => s
    case JComposite(text) => text
  }

  /** A row of `mission_attempts`. The total duration is held in whole
      milliseconds: the column keeps seconds at scale 3. */
  datatype MissionAttempt = MissionAttempt(
    attemptId: string,
    sessionId: string,
    missionType: MissionType,
    missionName: string,
    startTime: Timestamp,
    endTime: Option<Timestamp>,
    totalDurationMillis: Option<int>,
    status: MissionStatus)
  {
    /** The `total_duration` column in seconds. */
    function TotalDuration(): Option<Ratio> {
      match totalDurationMillis
      case None => None
      case Some(ms) => Some(Ratio(ms, 1000))
    }
  }

  /** A row of `mission_events`. */
  datatype MissionEvent = MissionEvent(
    eventId: string,
    attemptId: string,
    sessionId: string,
    eventType: string,
    timestamp: Timestamp,
    data: Payload,
    processingTime: int)

  /** A row of `reviews`; `rating` is a non-null `Integer` column. */
  datatype Review = Review(
    reviewId: string,
    attemptId: string,
    rating: Int32,
    ratingText: string,
    feedback: Option<string>,
    hasFeedback: bool,
    submittedAt: Timestamp)

  predicate IsTerminal(s: MissionStatus) {
    s == COMPLETED || s == QUITTED || s == EXPIRED
  }
}

=== FILE: events.dfy ===
/** Event ingestion (the event service): validate the attempt id, resolve
    the attempt, store the event, then end the mission on a terminal event
    and derive a review, best effort, from a rating event. */
module Events {

  import opened Common
  import opened Text
  import opened Numeric
  import opened Failures
  import opened Entities
  import opened Requests
  import opened Stores
  import opened Missions
  import opened Reviews

  const MISSION_COMPLETED: string := "mission_completed"
  const MISSION_QUITTED: string := "mission_quitted"
  const MISSION_EXPIRED: string := "mission_expired"
  const MISSION_RATING_SUBMITTED: string := "mission_rating_submitted"

  const ATTEMPT_ID_REQUIRED: string := "attemptId is required"

  /** What the ingestion call receives from outside: the UUIDs it draws, the
      milliseconds spent before the event row is built, and the wall clock. */
  datatype Env = Env(eventUuid: string, reviewUuid: string, elapsedMillis: int, now: Timestamp)

  function GenerateEventId(uuid: string): (id: string)
    ensures "event_" <= id && '-' !in id
  {
    GenerateId("event_", uuid)
  }

  /** `isMissionEndEvent`: the three event types that end an attempt. A
      rating event is never one of them, and among them only an expiry gets
      the EXPIRED status that `EndStatus` gives every unknown type. */
  function IsMissionEndEvent(eventType: string): (b: bool)
    ensures b ==> eventType != MISSION_RATING_SUBMITTED
    ensures b ==> (EndStatus(eventType) == EXPIRED <==> eventType == MISSION_EXPIRED)
  {
    eventType == MISSION_COMPLETED || eventType == MISSION_QUITTED || eventType == MISSION_EXPIRED
  }

  /** The status a terminal event leads to; any type other than completed
      and quitted falls to EXPIRED. */
  function EndStatus(eventType: string): (st: MissionStatus)
    ensures IsTerminal(st)
    ensures st == COMPLETED <==> eventType == MISSION_COMPLETED
    ensures st == QUITTED <==> eventType == MISSION_QUITTED
    ensures st == EXPIRED <==> eventType != MISSION_COMPLETED && eventType != MISSION_QUITTED
  {
    if eventType == MISSION_COMPLETED then COMPLETED
    else if eventType == MISSION_QUITTED then QUITTED
    else EXPIRED
  }

  /** The attempt after a terminal event: end time, duration in milliseconds
      (negative if the event predates the start) and status are overwritten,
      whatever they held; nothing else changes. */
  function EndAttempt(a: MissionAttempt, eventType: string, endTime: Timestamp): (b: MissionAttempt)
    ensures b.endTime == Some(endTime)
    ensures b.totalDurationMillis == Some(endTime - a.startTime)
    ensures b.status == EndStatus(eventType)
    ensures b.(endTime := a.endTime, totalDurationMillis := a.totalDurationMillis, status := a.status) == a
  {
    a.(endTime := Some(endTime), totalDurationMillis := Some(endTime - a.startTime), status := EndStatus(eventType))
  }

  /** `handleMissionEnd`: no guard against an attempt that has already ended. */
  function HandleMissionEnd(s: Store, attemptId: string, eventType: string, endTime: Timestamp): (r: Result<Store, Failure>)
    ensures r.Ok? <==> attemptId in s.attempts
    ensures r.Err? ==> r.error == MissionNotFound(NotFoundMessage(attemptId))
    ensures r.Ok? ==>
      && r.value.attempts == s.attempts[attemptId := EndAttempt(s.attempts[attemptId], eventType, endTime)]
      && r.value.events == s.events && r.value.reviews == s.reviews
  {
    var attempt :- GetMissionAttempt(s, attemptId);
    Ok(s.(attempts := s.attempts[attemptId := EndAttempt(attempt, eventType, endTime)]))
  }

  /** The fields a rating event's payload is read into. */
  datatype RatingFields = RatingFields(
    rating: Option<Int32>, ratingText: Option<string>, feedback: Option<string>, hasFeedback: Option<bool>)

  /** The rating: any number, narrowed with `intValue()`; anything else
      (absent, null, text, boolean) counts as missing. */
  function RatingOf(data: Payload): (r: Option<Int32>)
    ensures r.Some? <==> Get(data, "rating").JIntegral? || Get(data, "rating").JFractional?
    ensures r.Some? ==> r.value == IntValue(Get(data, "rating"))
    ensures Get(data, "rating").JIntegral? && InInt32(Get(data, "rating").n) ==> r == Some(Get(data, "rating").n)
    ensures Get(data, "rating").JFractional? && InInt32(Get(data, "rating").whole) ==>
      r == Some(Get(data, "rating").whole)
  {
    var v := Get(data, "rating");
    if v.JIntegral? || v.JFractional? then Some(IntValue(v)) else None
  }

  /** A rating of 4.7 is stored as 4, and a long rating keeps its low 32
      bits. */
  lemma RatingNarrowing()
    ensures RatingOf([("rating", JFractional(4, "4.7"))]) == Some(4)
    ensures RatingOf([("rating", JFractional(-4, "-4.7"))]) == Some(-4)
    ensures RatingOf([("rating", JIntegral(0x1_0000_0005))]) == Some(5)
  {
  }

  /** The payload read in source order; the first failed cast ends it. */
  function ReadRatingFields(data: Payload): Result<RatingFields, Failure> {
    var ratingText :- StringField(data, "ratingText");
    var feedback :- StringField(data, "feedback");
    var hasFeedback :- BoolField(data, "hasFeedback");
    Ok(RatingFields(RatingOf(data), ratingText, feedback, hasFeedback))
  }

  /** What became of a rating event's review. The ingestion call looks at
      none of these: every outcome lets the event stand. */
  datatype RatingOutcome =
    | Saved(review: Review)
    | AlreadyReviewed
    | Incomplete              // rating or rating text missing
    | Swallowed(cause: Failure)

  /** The body of `handleMissionRating`'s try block. */
  function DeriveReview(s: Store, attemptId: string, data: Payload, uuid: string, now: Timestamp): RatingOutcome {
    if HasReview(s, attemptId) then AlreadyReviewed
    else
      match ReadRatingFields(data)
      case Err(e) => Swallowed(e)
      case Ok(f) =>
        if f.rating.None? || f.ratingText.None? then Incomplete
        else
          var review := Review(GenerateReviewId(uuid), attemptId, f.rating.value, f.ratingText.value,
                               f.feedback, f.hasFeedback.GetOr(false), now);
          match SaveReviewDirectly(s, review)
          case Err(e) => Swallowed(e)
          case Ok(_) => Saved(review)
  }

  /** `handleMissionRating`: at most one review is added, only when the
      attempt had none, and no failure escapes. */
  function HandleMissionRating(s: Store, attemptId: string, data: Payload, uuid: string, now: Timestamp)
    : (r: (Store, RatingOutcome))
    ensures HasReview(s, attemptId) ==> r == (s, AlreadyReviewed)
    ensures !r.1.Saved? ==> r.0 == s
    ensures r.1.Saved? ==>
      var review := r.1.review;
      && !HasReview(s, attemptId)
      && r.0 == s.(reviews := s.reviews + [review])
      && review.reviewId == GenerateReviewId(uuid)
      && review.attemptId == attemptId
      && Some(review.rating) == RatingOf(data)
      && Get(data, "ratingText") == JString(review.ratingText)
      && (review.feedback.Some? <==> Get(data, "feedback").JString?)
      && (review.feedback.Some? ==> Get(data, "feedback") == JString(review.feedback.value))
      && review.hasFeedback == (Get(data, "hasFeedback") == JBool(true))
      && review.submittedAt == now
    ensures RatingOf(data).None? || Get(data, "ratingText").JNull? ==> !r.1.Saved?
  {
    var outcome := DeriveReview(s, attemptId, data, uuid, now);
    if outcome.Saved? then (s.(reviews := s.reviews + [outcome.review]), outcome) else (s, outcome)
  }

  /** `processEvent`. Effects in order: the attempt id must be present and
      non-empty; the attempt must exist; the event row is stored (its
      non-null columns and unique id can refuse it); a terminal event ends
      the attempt; a rating event may add a review. A failure leaves every
      table as it was. */
  function ProcessEvent(s: Store, msg: WebSocketMessage, env: Env): (r: Result<(Store, MissionEvent), Failure>)
    ensures (msg.attemptId.None? || msg.attemptId == Some("")) ==> r == Err(InvalidEvent(ATTEMPT_ID_REQUIRED))
    ensures msg.attemptId.Some? && msg.attemptId != Some("") && msg.attemptId.value !in s.attempts ==>
      r == Err(MissionNotFound(NotFoundMessage(msg.attemptId.value)))
    ensures r.Ok? <==>
      && msg.attemptId.Some? && msg.attemptId.value != "" && msg.attemptId.value in s.attempts
      && msg.eventType.Some? && msg.sessionId.Some? && msg.timestamp.Some? && msg.data.Some?
      && !EventIdTaken(s.events, GenerateEventId(env.eventUuid))
    ensures r.Ok? ==>
      var (s', ev) := r.value;
      var id := msg.attemptId.value;
      && s'.events == s.events + [ev]
      && ev.eventId == GenerateEventId(env.eventUuid)
      && ev.attemptId == id
      && Some(ev.sessionId) == msg.sessionId
      && Some(ev.eventType) == msg.eventType
      && Some(ev.timestamp) == msg.timestamp
      && Some(ev.data) == msg.data
      && ev.processingTime == env.elapsedMillis
      && (!IsMissionEndEvent(ev.eventType) ==> s'.attempts == s.attempts)
      && (IsMissionEndEvent(ev.eventType) ==>
            s'.attempts == s.attempts[id := EndAttempt(s.attempts[id], ev.eventType, ev.timestamp)])
      && (ev.eventType != MISSION_RATING_SUBMITTED ==> s'.reviews == s.reviews)
      && (HasReview(s, id) ==> s'.reviews == s.reviews)
      && (s'.reviews == s.reviews
          || (exists review :: s'.reviews == s.reviews + [review] && review.attemptId == id
                               && ev.eventType == MISSION_RATING_SUBMITTED))
  {
    if msg.attemptId.None? || msg.attemptId.value == "" then Err(InvalidEvent(ATTEMPT_ID_REQUIRED))
    else
      var id := msg.attemptId.value;
      var _ :- GetMissionAttempt(s, id);
      var eventId := GenerateEventId(env.eventUuid);
      if msg.eventType.None? then Err(StoreRejected(NullColumn("event_type")))
      else if msg.sessionId.None? then Err(StoreRejected(NullColumn("session_id")))
      else if msg.timestamp.None? then Err(StoreRejected(NullColumn("timestamp")))
      else if msg.data.None? then Err(StoreRejected(NullColumn("data")))
      else if EventIdTaken(s.events, eventId) then Err(StoreRejected(DuplicateKey("event_id")))
      else
        var ev := MissionEvent(eventId, id, msg.sessionId.value, msg.eventType.value, msg.timestamp.value,
                               msg.data.value, env.elapsedMillis);
        var s1 := s.(events := s.events + [ev]);
        // the attempt was found above, so ending it cannot fail
        var s2 := if !IsMissionEndEvent(ev.eventType) then s1
                  else match HandleMissionEnd(s1, id, ev.eventType, ev.timestamp)
                       case Ok(ended) => ended
                       case Err(_) => s1;
        var s3 := if ev.eventType == MISSION_RATING_SUBMITTED
                  then HandleMissionRating(s2, id, ev.data, env.reviewUuid, env.now).0
                  else s2;
        Ok((s3, ev))
  }

  /** Ingestion keeps the tables consistent: the event and any derived
      review point at a stored attempt, ids stay unique and an attempt never
      gains a second review. */
  lemma ProcessEventKeepsConsistent(s: Store, msg: WebSocketMessage, env: Env)
    requires Consistent(s)
    requires ProcessEvent(s, msg, env).Ok?
    ensures Consistent(ProcessEvent(s, msg, env).value.0)
  {
    var (s', ev) := ProcessEvent(s, msg, env).value;
    assert s'.attempts.Keys == s.attempts.Keys;
    forall i, j | 0 <= i < j < |s'.events|
      ensures s'.events[i].eventId != s'.events[j].eventId
    {
      if j == |s.events| {
        assert s'.events[i] == s.events[i];
      }
    }
    if s'.reviews != s.reviews {
      RatingKeepsReviewsUnique(s, msg, env);
    }
  }

  /** A review that ingestion adds is new: its id is fresh and its attempt
      had no review before. */
  lemma RatingKeepsReviewsUnique(s: Store, msg: WebSocketMessage, env: Env)
    requires Consistent(s)
    requires ProcessEvent(s, msg, env).Ok?
    requires ProcessEvent(s, msg, env).value.0.reviews != s.reviews
    ensures var s' := ProcessEvent(s, msg, env).value.0;
            && (forall i, j :: 0 <= i < j < |s'.reviews| ==> s'.reviews[i].reviewId != s'.reviews[j].reviewId)
            && (forall i, j :: 0 <= i < j < |s'.reviews| ==> s'.reviews[i].attemptId != s'.reviews[j].attemptId)
  {
    var (s', ev) := ProcessEvent(s, msg, env).value;
    var id := msg.attemptId.value;
    var review :| s'.reviews == s.reviews + [review] && review.attemptId == id
                  && ev.eventType == MISSION_RATING_SUBMITTED;
    var s2 := s.(events := s.events + [ev]);  // a rating event is not terminal
    var (s3, outcome) := HandleMissionRating(s2, id, ev.data, env.reviewUuid, env.now);
    assert s3 == s';
    assert s2.reviews == s.reviews;
    assert outcome.Saved?;
    assert s'.reviews[|s.reviews|] == review;
    assert outcome.review == review by {
      assert s3.reviews[|s2.reviews|] == outcome.review;
    }
    assert !ReviewIdTaken(s.reviews, review.reviewId);
    forall i, j | 0 <= i < j < |s'.reviews|
      ensures s'.reviews[i].reviewId != s'.reviews[j].reviewId
      ensures s'.reviews[i].attemptId != s'.reviews[j].attemptId
    {
      if j == |s.reviews| {
        assert s'.reviews[i] == s.reviews[i];
      }
    }
  }

  /** A terminal event on an attempt that has already ended is applied
      again: the later event's time, duration and status replace the
      earlier ones. */
  lemma RepeatedTerminalEventOverwrites(s: Store, first: WebSocketMessage, second: WebSocketMessage, env1: Env, env2: Env)
    requires ProcessEvent(s, first, env1).Ok?
    requires first.eventType.Some? && IsMissionEndEvent(first.eventType.value)
    requires second.attemptId == first.attemptId
    requires second.eventType.Some? && IsMissionEndEvent(second.eventType.value)
    requires ProcessEvent(ProcessEvent(s, first, env1).value.0, second, env2).Ok?
    ensures
      var id := first.attemptId.value;
      var s2 := ProcessEvent(ProcessEvent(s, first, env1).value.0, second, env2).value.0;
      && s2.attempts[id] == EndAttempt(s.attempts[id], second.eventType.value, second.timestamp.value)
      && s2.attempts[id].status == EndStatus(second.eventType.value)
  {
  }

  /** A well-formed rating event on an attempt without a review yields
      exactly one review carrying the payload's values. */
  lemma RatingEventFilesReview(s: Store, msg: WebSocketMessage, env: Env, rating: Int32, ratingText: string)
    requires msg.eventType == Some(MISSION_RATING_SUBMITTED)
    requires msg.data.Some?
    requires Get(msg.data.value, "rating") == JIntegral(rating)
    requires Get(msg.data.value, "ratingText") == JString(ratingText)
    requires Get(msg.data.value, "feedback").JNull? || Get(msg.data.value, "feedback").JString?
    requires Get(msg.data.value, "hasFeedback").JNull? || Get(msg.data.value, "hasFeedback").JBool?
    requires ProcessEvent(s, msg, env).Ok?
    requires !HasReview(s, msg.attemptId.value)
    requires !ReviewIdTaken(s.reviews, GenerateReviewId(env.reviewUuid))
    ensures
      var s' := ProcessEvent(s, msg, env).value.0;
      && |s'.reviews| == |s.reviews| + 1
      && s'.reviews[|s.reviews|].attemptId == msg.attemptId.value
      && s'.reviews[|s.reviews|].rating == rating
      && s'.reviews[|s.reviews|].ratingText == ratingText
      && s'.reviews[|s.reviews|].submittedAt == env.now
  {
    var id := msg.attemptId.value;
    var data := msg.data.value;
    var (s', ev) := ProcessEvent(s, msg, env).value;
    var s2 := s.(events := s.events + [ev]);
    assert HandleMissionRating(s2, id, data, env.reviewUuid, env.now).0 == s';
    assert ReadRatingFields(data).Ok?;
    assert DeriveReview(s2, id, data, env.reviewUuid, env.now).Saved?;
  }

  /** A rating event whose payload cannot be read is still stored, and
      leaves the reviews alone. */
  lemma BadRatingPayloadKeepsEvent(s: Store, msg: WebSocketMessage, env: Env)
    requires msg.eventType == Some(MISSION_RATING_SUBMITTED)
    requires msg.attemptId.Some? && msg.attemptId.value != "" && msg.attemptId.value in s.attempts
    requires msg.sessionId.Some? && msg.timestamp.Some? && msg.data.Some?
    requires !EventIdTaken(s.events, GenerateEventId(env.eventUuid))
    requires Get(msg.data.value, "feedback").JBool?
    ensures ProcessEvent(s, msg, env).Ok?
    ensures ProcessEvent(s, msg, env).value.0.reviews == s.reviews
    ensures |ProcessEvent(s, msg, env).value.0.events| == |s.events| + 1
  {
    var id := msg.attemptId.value;
    var data := msg.data.value;
    var ev := ProcessEvent(s, msg, env).value.1;
    var s2 := s.(events := s.events + [ev]);
    assert StringField(data, "feedback").Err?;
    assert !DeriveReview(s2, id, data, env.reviewUuid, env.now).Saved?;
  }
}

=== FILE: failures.dfy ===
/** The exceptions the core throws, as data. The first three are the
    application's own exception classes; the rest are the framework and
    runtime exceptions that reach the REST error handler. */
module Failures {

  /** Why the data store refused a write. */
  datatype StoreRejection =
    | NullColumn(column: string)      // a `nullable = false` column received null
    | DuplicateKey(column: string)    // a `unique = true` column received a taken value

  datatype Failure =
    | MissionNotFound(message: string)
    | InvalidEvent(message: string)
    | InvalidRequest(message: string)
    | IllegalArgument(message: string)
    | ValidationFailed(fieldMessages: seq<string>)
    | ResourceNotFound(resourcePath: string)
    | StoreRejected(rejection: StoreRejection)
    | NullPointer(what: string)       // a null dereferenced
    | ClassCast(key: string)          // a payload value of the wrong type cast
    | Unexpected(message: string)     // any other runtime exception

  /** Exceptions with no handler of their own: the catch-all answers them. */
  predicate IsInternal(f: Failure) {
    f.StoreRejected? || f.NullPointer? || f.ClassCast? || f.Unexpected?
  }
}

=== FILE: formatting.dfy ===
/** The dashboard's text helpers: durations in minutes and seconds, the
    one-line preview of an event payload, the extra label of a portfolio
    step and the star string of a rating. */
module Formatting {

  import opened Common
  import opened Text
  import opened Numeric
  import opened Failures
  import opened Entities

  const DASH: string := "-"
  const SECONDS: char := '초'
  const MINUTES: char := '분'

  /** The whole seconds `formatDuration` shows: `BigDecimal.longValue()`,
      truncated toward zero and kept to 64 bits. */
  function WholeSeconds(d: Ratio): (s: int)
    ensures InInt64(s)
    ensures InInt64(d.IntegerPart()) ==> s == d.IntegerPart()
    ensures (s - d.IntegerPart()) % TWO_64 == 0
    ensures d.num >= 0 && d.num < d.den ==> s == 0
  {
    assert d.num >= 0 && d.num < d.den ==> d.IntegerPart() == 0 by {
      if d.num >= 0 && d.num < d.den { TruncDivProper(d.num, d.den); }
    }
    WrapInt64(d.IntegerPart())
  }

  /** The fields a formatted duration shows: its minutes and its seconds,
      each absent when the text has none. */
  datatype ShownDuration = ShownDuration(minutes: Option<int>, seconds: Option<int>)

  /** The whole seconds the shown fields stand for. */
  function ShownSeconds(p: ShownDuration): int {
    p.minutes.GetOr(0) * 60 + p.seconds.GetOr(0)
  }

  /** `formatDuration`: "-" for a null or zero duration; else "N초" under a
      minute, "M분" for whole minutes, "M분 S초" otherwise. A sub-second
      duration shows as "0초" and a negative one as "-N초". Read back, the
      text gives the minutes `N / 60` and, only when they are not whole,
      the seconds `N % 60` between 1 and 59. */
  function FormatDuration(d: Option<Ratio>): (r: string)
    ensures r == DASH <==> d.None? || d.value.IsZero()
    ensures r != DASH ==> (WholeSeconds(d.value) < 60 <==> MINUTES !in r)
    ensures r != DASH ==> |r| >= 2 && (r[|r| - 1] == SECONDS || r[|r| - 1] == MINUTES)
    ensures r != DASH ==> ParseDuration(r).Some?
    ensures r != DASH && WholeSeconds(d.value) < 60 ==>
      ParseDuration(r) == Some(ShownDuration(None, Some(WholeSeconds(d.value))))
    ensures r != DASH && WholeSeconds(d.value) >= 60 ==>
      var p := ParseDuration(r).value;
      && p.minutes == Some(WholeSeconds(d.value) / 60)
      && (p.seconds.None? <==> WholeSeconds(d.value) % 60 == 0)
      && (p.seconds.Some? ==> p.seconds.value == WholeSeconds(d.value) % 60 && 1 <= p.seconds.value <= 59)
  {
    if d.None? || d.value.IsZero() then DASH
    else
      var seconds := WholeSeconds(d.value);
      if seconds < 60 then
        NotInIntToString(seconds, MINUTES);
        SecondsRoundTrip(seconds);
        IntToString(seconds) + [SECONDS]
      else
        var minutes := seconds / 60;
        var remaining := seconds % 60;
        if remaining == 0 then
          MinutesRoundTrip(minutes);
          IntToString(minutes) + [MINUTES]
        else
          MixedRoundTrip(minutes, remaining);
          IntToString(minutes) + [MINUTES, ' '] + IntToString(remaining) + [SECONDS]
  }

  /** Reads the shown fields back out of a formatted duration; `None` for
      "-" and for text no duration formats to. */
  function ParseDuration(s: string): Option<ShownDuration> {
    if |s| == 0 then None
    else
      var body := s[..|s| - 1];
      if s[|s| - 1] == MINUTES then
        match ParseInt(body)
        case Some(m) => Some(ShownDuration(Some(m), None))
        case None => None
      else if s[|s| - 1] == SECONDS then
        match IndexOf(body, MINUTES)
        case None =>
          (match ParseInt(body)
           case Some(sec) => Some(ShownDuration(None, Some(sec)))
           case None => None)
        case Some(k) =>
          if k + 2 <= |body| && body[k + 1] == ' ' then
            match (ParseInt(body[..k]), ParseInt(body[k + 2..]))
            case (Some(m), Some(sec)) => Some(ShownDuration(Some(m), Some(sec)))
            case _ => None
          else None
      else None
  }

  /** The one text that shows the given fields. */
  function DurationText(p: ShownDuration): string {
    match p
    case ShownDuration(Some(m), None) => IntToString(m) + [MINUTES]
    case ShownDuration(None, Some(sec)) => IntToString(sec) + [SECONDS]
    case ShownDuration(Some(m), Some(sec)) => IntToString(m) + [MINUTES, ' '] + IntToString(sec) + [SECONDS]
    case ShownDuration(None, None) => ""
  }

  /** Only canonical text reads back: a text that parses is the rendering
      of its fields, so no padded digits, "-0" or stray spacing pass. */
  lemma ParseDurationCanonical(t: string)
    requires ParseDuration(t).Some?
    ensures t == DurationText(ParseDuration(t).value)
  {
    var body := t[..|t| - 1];
    assert t == body + [t[|t| - 1]];
    if t[|t| - 1] == MINUTES || IndexOf(body, MINUTES).None? {
      ParseIntCanonical(body, ParseInt(body).value);
    } else {
      MixedTextCanonical(body, IndexOf(body, MINUTES).value);
    }
  }

  /** The body of a "M분 S초" text that reads back is the rendering of both
      numbers around the unit and the space. */
  lemma MixedTextCanonical(body: string, k: nat)
    requires k + 2 <= |body| && body[k] == MINUTES && body[k + 1] == ' '
    requires ParseInt(body[..k]).Some? && ParseInt(body[k + 2..]).Some?
    ensures body == IntToString(ParseInt(body[..k]).value) + [MINUTES, ' '] + IntToString(ParseInt(body[k + 2..]).value)
  {
    ParseIntCanonical(body[..k], ParseInt(body[..k]).value);
    ParseIntCanonical(body[k + 2..], ParseInt(body[k + 2..]).value);
    assert body == body[..k] + [MINUTES, ' '] + body[k + 2..];
  }

  /** Two texts that read back the same fields are the same text, so the
      fields `FormatDuration` promises fix its text exactly. */
  lemma ParseDurationInjective(t: string, u: string)
    requires ParseDuration(t).Some? && ParseDuration(t) == ParseDuration(u)
    ensures t == u
  {
    ParseDurationCanonical(t);
    ParseDurationCanonical(u);
  }

  /** A zero-padded count does not read back. */
  lemma PaddedSecondsRejected()
    ensures ParseDuration("05초") == None
  {
    var t := "05초";
    assert t[..|t| - 1] == "05";
    assert MINUTES !in "05";
  }

  /** Every formatted duration other than "-" reads back as the whole
      seconds it was made from. */
  lemma FormatDurationRoundTrip(d: Option<Ratio>)
    requires FormatDuration(d) != DASH
    ensures ParseDuration(FormatDuration(d)).Some?
    ensures ShownSeconds(ParseDuration(FormatDuration(d)).value) == WholeSeconds(d.value)
  {
    var seconds := WholeSeconds(d.value);
    if seconds >= 60 {
      assert (seconds / 60) * 60 + seconds % 60 == seconds;
    }
  }

  /** Distinct whole-second counts never share a text. */
  lemma FormatDurationInjective(d1: Option<Ratio>, d2: Option<Ratio>)
    requires FormatDuration(d1) != DASH && FormatDuration(d2) != DASH
    requires WholeSeconds(d1.value) != WholeSeconds(d2.value)
    ensures FormatDuration(d1) != FormatDuration(d2)
  {
    FormatDurationRoundTrip(d1);
    FormatDurationRoundTrip(d2);
  }

  /** An average of 90.7 seconds shows its 90 whole seconds: "1분 30초". */
  lemma NinetySecondsShown()
    ensures WholeSeconds(Ratio(907, 10)) == 90
    ensures FormatDuration(Some(Ratio(907, 10))) == "1분 30초"
    ensures ParseDuration(FormatDuration(Some(Ratio(907, 10)))) == Some(ShownDuration(Some(1), Some(30)))
  {
    var d := Ratio(907, 10);
    assert d.IntegerPart() == 90;
    assert WholeSeconds(d) == 90;
    FormatMixed(Some(d));
    assert 90 / 60 == 1 && 90 % 60 == 30;
    assert IntToString(1) == "1";
    assert IntToString(30) == NatToString(3) + [DigitChar(0)] == "30";
    assert "1" + [MINUTES, ' '] + "30" + [SECONDS] == "1분 30초";
  }

  /** A duration of some minutes and some seconds more shows both fields. */
  lemma FormatMixed(d: Option<Ratio>)
    requires d.Some? && !d.value.IsZero()
    requires WholeSeconds(d.value) >= 60 && WholeSeconds(d.value) % 60 != 0
    ensures FormatDuration(d) == IntToString(WholeSeconds(d.value) / 60) + [MINUTES, ' ']
                                 + IntToString(WholeSeconds(d.value) % 60) + [SECONDS]
  {
  }

  lemma SecondsRoundTrip(seconds: int)
    ensures ParseDuration(IntToString(seconds) + [SECONDS]) == Some(ShownDuration(None, Some(seconds)))
  {
    var r := IntToString(seconds) + [SECONDS];
    assert r[..|r| - 1] == IntToString(seconds);
    NotInIntToString(seconds, MINUTES);
    IntToStringRoundTrip(seconds);
  }

  lemma MinutesRoundTrip(minutes: int)
    ensures ParseDuration(IntToString(minutes) + [MINUTES]) == Some(ShownDuration(Some(minutes), None))
  {
    var r := IntToString(minutes) + [MINUTES];
    assert r[..|r| - 1] == IntToString(minutes);
    IntToStringRoundTrip(minutes);
  }

  lemma MixedRoundTrip(minutes: int, remaining: int)
    ensures ParseDuration(IntToString(minutes) + [MINUTES, ' '] + IntToString(remaining) + [SECONDS])
            == Some(ShownDuration(Some(minutes), Some(remaining)))
  {
    IntToStringRoundTrip(minutes);
    IntToStringRoundTrip(remaining);
    NotInIntToString(minutes, MINUTES);
    ParseMixed(IntToString(minutes), IntToString(remaining));
  }

  /** "M분 S초" splits at its first '분' when M has none. */
  lemma ParseMixed(a: string, b: string)
    requires MINUTES !in a && ParseInt(a).Some? && ParseInt(b).Some?
    ensures ParseDuration(a + [MINUTES, ' '] + b + [SECONDS]) == Some(ShownDuration(ParseInt(a), ParseInt(b)))
  {
    var r := a + [MINUTES, ' '] + b + [SECONDS];
    var body := r[..|r| - 1];
    assert body == a + [MINUTES, ' '] + b;
    assert body[|a|] == MINUTES;
    var k := IndexOf(body, MINUTES).value;
    assert body[..k] == a;
    assert body[k + 2..] == b;
  }

  /** An entry the preview shows: any key but "page", with a non-null value. */
  predicate Shown(e: Entry) {
    e.0 != "page" && e.1 != JNull
  }

  /** The "key: value" texts of the shown entries, in iteration order. */
  function PreviewParts(p: seq<Entry>): (parts: seq<string>)
    ensures |parts| <= |p|
    ensures |parts| == 0 <==> forall i :: 0 <= i < |p| ==> !Shown(p[i])
  {
    if |p| == 0 then []
    else
      var parts := (if Shown(p[0]) then [p[0].0 + ": " + Render(p[0].1)] else []) + PreviewParts(p[1..]);
      assert forall i :: 1 <= i < |p| ==> p[1..][i - 1] == p[i];
      parts
  }

  const PREVIEW_LIMIT: nat := 100
  const ELLIPSIS: string := "..."

  /** `createDataPreview`: null for a missing or empty payload and when no
      entry is shown; otherwise the shown entries joined by ", ", cut to
      100 characters plus "..." when longer. */
  function CreateDataPreview(data: Option<Payload>): (r: Option<string>)
    ensures r.None? <==> data.None? || forall i :: 0 <= i < |data.value| ==> !Shown(data.value[i])
    ensures r.Some? ==> |r.value| <= PREVIEW_LIMIT + |ELLIPSIS|
    ensures r.Some? ==>
      var full := Join(", ", PreviewParts(data.value));
      && (|full| <= PREVIEW_LIMIT ==> r.value == full)
      && (|full| > PREVIEW_LIMIT ==> full[..PREVIEW_LIMIT] < r.value && r.value[PREVIEW_LIMIT..] == ELLIPSIS)
  {
    if data.None? || |data.value| == 0 then None
    else
      var parts := PreviewParts(data.value);
      if |parts| == 0 then None
      else
        var full := Join(", ", parts);
        if |full| > PREVIEW_LIMIT then Some(full[..PREVIEW_LIMIT] + ELLIPSIS) else Some(full)
  }

  lemma {:induction false} PreviewPartsAppend(p: seq<Entry>, q: seq<Entry>)
    ensures PreviewParts(p + q) == PreviewParts(p) + PreviewParts(q)
  {
    if |p| > 0 {
      assert (p + q)[1..] == p[1..] + q;
      PreviewPartsAppend(p[1..], q);
    } else {
      assert p + q == q;
    }
  }

  /** Dropping one entry keeps the remaining keys distinct. */
  lemma DistinctWithout(p1: seq<Entry>, e: Entry, p2: seq<Entry>)
    requires DistinctKeys(p1 + [e] + p2)
    ensures DistinctKeys(p1 + p2)
  {
    var whole := p1 + [e] + p2;
    forall i, j | 0 <= i < j < |p1 + p2|
      ensures (p1 + p2)[i].0 != (p1 + p2)[j].0
    {
      var i' := if i < |p1| then i else i + 1;
      var j' := if j < |p1| then j else j + 1;
      assert (p1 + p2)[i] == whole[i'] && (p1 + p2)[j] == whole[j'];
    }
  }

  /** The "page" entry and null values never reach the preview: dropping
      such an entry anywhere in the payload leaves the preview as it was. */
  lemma PreviewIgnoresHiddenEntry(p1: seq<Entry>, e: Entry, p2: seq<Entry>)
    requires DistinctKeys(p1 + [e] + p2)
    requires !Shown(e)
    ensures DistinctKeys(p1 + p2)
    ensures CreateDataPreview(Some(p1 + [e] + p2)) == CreateDataPreview(Some(p1 + p2))
  {
    DistinctWithout(p1, e, p2);
    HiddenEntryParts(p1, e, p2);
    PreviewFollowsParts(p1 + [e] + p2, p1 + p2);
  }

  lemma HiddenEntryParts(p1: seq<Entry>, e: Entry, p2: seq<Entry>)
    requires !Shown(e)
    ensures PreviewParts(p1 + [e] + p2) == PreviewParts(p1 + p2)
  {
    var q := p1 + [e];
    assert PreviewParts([e]) == [] by {
      assert [e][1..] == [];
    }
    assert PreviewParts(q) == PreviewParts(p1) by {
      PreviewPartsAppend(p1, [e]);
    }
    assert PreviewParts(q + p2) == PreviewParts(p1) + PreviewParts(p2) by {
      PreviewPartsAppend(q, p2);
    }
    PreviewPartsAppend(p1, p2);
  }

  /** The preview depends on the shown entries only. */
  lemma PreviewFollowsParts(p: Payload, q: Payload)
    requires PreviewParts(p) == PreviewParts(q)
    ensures CreateDataPreview(Some(p)) == CreateDataPreview(Some(q))
  {
    if |p| == 0 {
      assert PreviewParts(q) == [];
    }
    if |q| == 0 {
      assert PreviewParts(p) == [];
    }
  }

  const STEP3_LABEL: string := "비중 조정 "
  const STEP3_UNIT: string := "회"
  const STEP4_LABEL: string := "이름 길이: "
  const STEP4_UNIT: string := "자"
  const STEP5_LABEL: string := "목표 수익률: "
  const STEP5_UNIT: string := "%"

  function Label(step: int): string {
    if step == 3 then STEP3_LABEL else if step == 4 then STEP4_LABEL else STEP5_LABEL
  }

  function Unit(step: int): string {
    if step == 3 then STEP3_UNIT else if step == 4 then STEP4_UNIT else STEP5_UNIT
  }

  /** `buildAdditionalInfo`: step 3 shows the adjustment count, step 4 the
      name length, step 5 the target percentage, each as the query's text;
      any other step, or a missing field, has no extra label. */
  function BuildAdditionalInfo(step: int, adjustmentCount: Option<string>, nameLength: Option<string>,
                               finalPercentage: Option<string>): (r: Option<string>)
    ensures r.Some? <==>
      (step == 3 && adjustmentCount.Some?) || (step == 4 && nameLength.Some?) || (step == 5 && finalPercentage.Some?)
    ensures r.Some? ==> Label(step) <= r.value
  {
    var field := if step == 3 then adjustmentCount else if step == 4 then nameLength
                 else if step == 5 then finalPercentage else None;
    match field
    case None => None
    case Some(x) => Some(Label(step) + x + Unit(step))
  }

  /** Strips a step's label and unit off its extra text. */
  function InfoField(step: int, info: string): Option<string> {
    var prefix := Label(step);
    var suffix := Unit(step);
    if |info| >= |prefix| + |suffix| && info[..|prefix|] == prefix && info[|info| - |suffix|..] == suffix
    then Some(info[|prefix|..|info| - |suffix|])
    else None
  }

  /** The extra label carries the field's text unchanged. */
  lemma AdditionalInfoRoundTrip(step: int, adjustmentCount: Option<string>, nameLength: Option<string>,
                                finalPercentage: Option<string>)
    requires BuildAdditionalInfo(step, adjustmentCount, nameLength, finalPercentage).Some?
    ensures var info := BuildAdditionalInfo(step, adjustmentCount, nameLength, finalPercentage).value;
            InfoField(step, info) == (if step == 3 then adjustmentCount else if step == 4 then nameLength
                                     else finalPercentage)
  {
    var info := BuildAdditionalInfo(step, adjustmentCount, nameLength, finalPercentage).value;
    var x := (if step == 3 then adjustmentCount else if step == 4 then nameLength else finalPercentage).value;
    assert info == Label(step) + x + Unit(step);
    assert info[..|Label(step)|] == Label(step);
    assert info[|info| - |Unit(step)|..] == Unit(step);
    assert info[|Label(step)|..|info| - |Unit(step)|] == x;
  }

  const STAR: char := '⭐'

  /** `getStarRating`: "" for a null rating, the star repeated `rating`
      times otherwise; `String.repeat` refuses a negative count. */
  function StarRating(rating: Option<Int32>): (r: Result<string, Failure>)
    ensures r.Err? <==> rating.Some? && rating.value < 0
    ensures r.Err? ==> r.error == IllegalArgument("count is negative: " + IntToString(rating.value))
    ensures r.Ok? ==> forall i :: 0 <= i < |r.value| ==> r.value[i] == STAR
    ensures r.Ok? && rating.None? ==> r.value == ""
  {
    match rating
    case None => Ok("")
    case Some(n) =>
      if n < 0 then Err(IllegalArgument("count is negative: " + IntToString(n)))
      else Ok(RepeatChar(STAR, n))
  }

  /** Counting the stars gives the rating back. */
  lemma StarRatingCounts(n: Int32)
    requires n >= 0
    ensures Occurrences(StarRating(Some(n)).value, STAR) == n
  {
    RepeatCount(n);
  }

  lemma {:induction false} RepeatCount(n: nat)
    ensures Occurrences(RepeatChar(STAR, n), STAR) == n
  {
    if n > 0 {
      assert RepeatChar(STAR, n)[1..] == RepeatChar(STAR, n - 1);
      RepeatCount(n - 1);
    }
  }
}

=== FILE: missions.dfy ===
/** Mission attempt creation, lookup and status change (the mission
    service). */
module Missions {

  import opened Common
  import opened Text
  import opened Failures
  import opened Entities
  import opened Requests
  import opened Stores

  /** Configuration defaults of the start response. */
  const WEBSOCKET_URL: string := "ws://localhost:8080/ws"
  const EXPIRES_IN_MILLIS: int := 3_600_000

  datatype StartResponse = StartResponse(attemptId: string, wsUrl: string, expiresIn: int)

  /** The display name of a mission type. */
  function MissionName(t: MissionType): string {
    match t
    case PORTFOLIO => "Portfolio Mission"
    case VOCABULARY => "Vocabulary Mission"
  }

  /** The name is derived one-to-one from the type, so the type can be read
      back from the name. */
  lemma MissionNameOneToOne(t: MissionType, u: MissionType)
    ensures MissionName(t) == MissionName(u) ==> t == u
    ensures MissionName(PORTFOLIO) == "Portfolio Mission"
    ensures MissionName(VOCABULARY) == "Vocabulary Mission"
  {
  }

  function GenerateAttemptId(uuid: string): (id: string)
    ensures "attempt_" <= id && '-' !in id
  {
    GenerateId("attempt_", uuid)
  }

  function NotFoundMessage(attemptId: string): string {
    "Mission attempt not found: " + attemptId
  }

  /** The new-attempt record built from a start request whose fields are
      present. */
  function NewAttempt(attemptId: string, req: MissionStartRequest): MissionAttempt
    requires req.sessionId.Some? && req.missionType.Some? && req.timestamp.Some?
  {
    MissionAttempt(
      attemptId, req.sessionId.value, req.missionType.value, MissionName(req.missionType.value),
      req.timestamp.value, None, None, IN_PROGRESS)
  }

  /** `startMission`: a fresh IN_PROGRESS attempt under "attempt_" + the UUID
      without hyphens. A null mission type fails on the name lookup, a null
      session id or timestamp is refused by the table, and so is a generated
      id that is already taken; nothing is stored in those cases. */
  function StartMission(s: Store, req: MissionStartRequest, uuid: string): (r: Result<(Store, StartResponse), Failure>)
    ensures r.Err? <==>
      req.missionType.None? || req.sessionId.None? || req.timestamp.None? || GenerateAttemptId(uuid) in s.attempts
    ensures req.missionType.None? ==> r.Err? && r.error.NullPointer?
    ensures r.Err? ==> IsInternal(r.error)
    ensures r.Ok? ==>
      var (s', resp) := r.value;
      var id := resp.attemptId;
      && id == GenerateAttemptId(uuid)
      && id !in s.attempts
      && s'.attempts.Keys == s.attempts.Keys + {id}
      && (forall other :: other in s.attempts ==> s'.attempts[other] == s.attempts[other])
      && s'.attempts[id].attemptId == id
      && s'.attempts[id].status == IN_PROGRESS
      && s'.attempts[id].startTime == req.timestamp.value
      && s'.attempts[id].endTime.None? && s'.attempts[id].totalDurationMillis.None?
      && s'.attempts[id].sessionId == req.sessionId.value
      && s'.attempts[id].missionType == req.missionType.value
      && s'.attempts[id].missionName == MissionName(req.missionType.value)
      && s'.events == s.events && s'.reviews == s.reviews
      && resp.wsUrl == WEBSOCKET_URL && resp.expiresIn == EXPIRES_IN_MILLIS
  {
    var id := GenerateAttemptId(uuid);
    if req.missionType.None? then Err(NullPointer("missionType"))
    else if req.sessionId.None? then Err(StoreRejected(NullColumn("session_id")))
    else if req.timestamp.None? then Err(StoreRejected(NullColumn("start_time")))
    else if id in s.attempts then Err(StoreRejected(DuplicateKey("attempt_id")))
    else
      var attempt := NewAttempt(id, req);
      Ok((s.(attempts := s.attempts[id := attempt]), StartResponse(id, WEBSOCKET_URL, EXPIRES_IN_MILLIS)))
  }

  /** `getMissionAttempt`: the stored attempt, or MissionNotFound. */
  function GetMissionAttempt(s: Store, attemptId: string): (r: Result<MissionAttempt, Failure>)
    ensures r.Ok? <==> attemptId in s.attempts
    ensures r.Ok? ==> r.value == s.attempts[attemptId]
    ensures r.Err? ==> r.error == MissionNotFound(NotFoundMessage(attemptId))
  {
    if attemptId in s.attempts then Ok(s.attempts[attemptId])
    else Err(MissionNotFound(NotFoundMessage(attemptId)))
  }

  /** `updateMissionStatus`: only the status of the one attempt changes. */
  function UpdateMissionStatus(s: Store, attemptId: string, status: MissionStatus): (r: Result<Store, Failure>)
    ensures r.Ok? <==> attemptId in s.attempts
    ensures r.Err? ==> r.error == MissionNotFound(NotFoundMessage(attemptId))
    ensures r.Ok? ==>
      && r.value.attempts.Keys == s.attempts.Keys
      && r.value.attempts[attemptId] == s.attempts[attemptId].(status := status)
      && (forall other :: other in s.attempts && other != attemptId ==> r.value.attempts[other] == s.attempts[other])
      && r.value.events == s.events && r.value.reviews == s.reviews
  {
    var attempt :- GetMissionAttempt(s, attemptId);
    Ok(s.(attempts := s.attempts[attemptId := attempt.(status := status)]))
  }

  /** `listMissionAttempts`: the type, status and date filters are accepted
      but not applied; the result is every stored attempt. */
  function ListMissionAttempts(
    s: Store, missionType: Option<MissionType>, status: Option<MissionStatus>,
    startDate: Option<Timestamp>, endDate: Option<Timestamp>): (r: set<MissionAttempt>)
    ensures forall id :: id in s.attempts ==> s.attempts[id] in r
    ensures forall a :: a in r ==> exists id :: id in s.attempts && s.attempts[id] == a
  {
    s.attempts.Values
  }

  /** The filters make no difference to the listing. */
  lemma ListingIgnoresFilters(
    s: Store,
    t1: Option<MissionType>, st1: Option<MissionStatus>, from1: Option<Timestamp>, to1: Option<Timestamp>,
    t2: Option<MissionType>, st2: Option<MissionStatus>, from2: Option<Timestamp>, to2: Option<Timestamp>)
    ensures ListMissionAttempts(s, t1, st1, from1, to1) == ListMissionAttempts(s, t2, st2, from2, to2)
  {
  }

  /** Starting a mission keeps the tables consistent. */
  lemma StartMissionKeepsConsistent(s: Store, req: MissionStartRequest, uuid: string)
    requires Consistent(s)
    requires StartMission(s, req, uuid).Ok?
    ensures Consistent(StartMission(s, req, uuid).value.0)
  {
  }

  /** Changing a status keeps the tables consistent. */
  lemma UpdateStatusKeepsConsistent(s: Store, attemptId: string, status: MissionStatus)
    requires Consistent(s)
    requires UpdateMissionStatus(s, attemptId, status).Ok?
    ensures Consistent(UpdateMissionStatus(s, attemptId, status).value)
  {
  }
}

=== FILE: numeric.dfy ===
/** Integer widths and decimal rounding as the Java runtime and PostgreSQL
    perform them: `intValue()`/`longValue()` narrowing, truncating division
    (`BigDecimal.longValue`, `Duration.getSeconds` on non-negative spans) and
    `RoundingMode.HALF_UP`. Exact rationals stand for `BigDecimal`/`numeric`
    values. */
module Numeric {

  const TWO_32: int := 0x1_0000_0000
  const TWO_64: int := 0x1_0000_0000_0000_0000

  type Pos = n: int | n > 0 witness 1

  predicate InInt32(i: int) {
    -0x8000_0000 <= i < 0x8000_0000
  }

  predicate InInt64(i: int) {
    -0x8000_0000_0000_0000 <= i < 0x8000_0000_0000_0000
  }

  type Int32 = i: int | InInt32(i)

  /** Two's-complement narrowing (`Long.intValue`, `BigInteger.intValue`):
      keep the low 32 bits. */
  function WrapInt32(i: int): (r: Int32)
    ensures InInt32(i) ==> r == i
    ensures (r - i) % TWO_32 == 0
  {
    (i + 0x8000_0000) % TWO_32 - 0x8000_0000
  }

  /** Two's-complement narrowing to 64 bits (`BigInteger.longValue`). */
  function WrapInt64(i: int): (r: int)
    ensures InInt64(r)
    ensures InInt64(i) ==> r == i
    ensures (r - i) % TWO_64 == 0
  {
    (i + 0x8000_0000_0000_0000) % TWO_64 - 0x8000_0000_0000_0000
  }

  /** Narrowing of an integral double (`Double.intValue`): saturates at the
      bounds of `int`. */
  function SaturateInt32(i: int): (r: Int32)
    ensures InInt32(i) ==> r == i
    ensures i < -0x8000_0000 ==> r == -0x8000_0000
    ensures i >= 0x8000_0000 ==> r == 0x7FFF_FFFF
  {
    if i < -0x8000_0000 then -0x8000_0000
    else if i >= 0x8000_0000 then 0x7FFF_FFFF
    else i
  }

  /** Narrowing of an integral double (`Double.longValue`). */
  function SaturateInt64(i: int): (r: int)
    ensures InInt64(r)
    ensures InInt64(i) ==> r == i
    ensures i < -0x8000_0000_0000_0000 ==> r == -0x8000_0000_0000_0000
    ensures i >= 0x8000_0000_0000_0000 ==> r == 0x7FFF_FFFF_FFFF_FFFF
  {
    if i < -0x8000_0000_0000_0000 then -0x8000_0000_0000_0000
    else if i >= 0x8000_0000_0000_0000 then 0x7FFF_FFFF_FFFF_FFFF
    else i
  }

  /** Division truncating toward zero, as Java's `/` on integers and
      `BigDecimal.longValue()` of a quotient. */
  function TruncDiv(a: int, b: Pos): (q: int)
    ensures a >= 0 ==> q >= 0 && q * b <= a < q * b + b
    ensures a < 0 ==> q <= 0 && q * b - b < a <= q * b
  {
    if a >= 0 then
      TruncDivUp(a, b);
      a / b
    else
      TruncDivDown(a, b);
      -((-a) / b)
  }

  lemma TruncDivUp(a: nat, b: Pos)
    ensures a / b >= 0 && (a / b) * b <= a < (a / b) * b + b
  {
  }

  lemma TruncDivDown(a: int, b: Pos)
    requires a < 0
    ensures -((-a) / b) <= 0 && (-((-a) / b)) * b - b < a <= (-((-a) / b)) * b
  {
    var q := (-a) / b;
    assert q * b <= -a < q * b + b;
    assert (-q) * b == -(q * b);
  }

  /** A non-negative numerator below the denominator has no integer part. */
  lemma TruncDivProper(a: int, b: Pos)
    requires 0 <= a < b
    ensures TruncDiv(a, b) == 0
  {
  }

  /** `RoundingMode.HALF_UP` of num/den to an integer: the nearest integer,
      ties rounded away from zero (`RoundHalfUpNearest` states this, and
      `RoundHalfUpUnique` that it pins the result down). */
  function RoundHalfUp(num: int, den: Pos): (r: int)
    ensures num >= 0 ==> r >= 0
    ensures num < 0 ==> r <= 0
  {
    if num >= 0 then (2 * num + den) / (2 * den)
    else -((2 * (-num) + den) / (2 * den))
  }

  /** The rounded value is within half a unit of num/den; an exact half
      goes away from zero. */
  predicate IsHalfUpOf(r: int, num: int, den: Pos) {
    if num >= 0 then 2 * r * den - den <= 2 * num < 2 * r * den + den
    else 2 * r * den - den < 2 * num <= 2 * r * den + den
  }

  lemma RoundHalfUpNearest(num: int, den: Pos)
    ensures IsHalfUpOf(RoundHalfUp(num, den), num, den)
  {
    var q := (2 * num + den) / (2 * den);
    if num >= 0 {
      assert (2 * num + den) == q * (2 * den) + (2 * num + den) % (2 * den);
      assert 2 * q * den == q * (2 * den);
    } else {
      var p := (2 * (-num) + den) / (2 * den);
      assert (2 * (-num) + den) == p * (2 * den) + (2 * (-num) + den) % (2 * den);
      assert 2 * (-p) * den == -(p * (2 * den));
    }
  }

  /** At most one integer is the HALF_UP rounding of num/den. */
  lemma RoundHalfUpUnique(r: int, num: int, den: Pos)
    requires IsHalfUpOf(r, num, den)
    ensures r == RoundHalfUp(num, den)
  {
    var s := RoundHalfUp(num, den);
    RoundHalfUpNearest(num, den);
    assert 2 * r * den - 2 * s * den == 2 * ((r - s) * den);
    if r > s {
      MulAtLeast(r - s, den);
    } else if r < s {
      MulAtLeast(s - r, den);
    }
  }

  /** x * d >= d for x >= 1 and d > 0. */
  lemma MulAtLeast(x: int, d: Pos)
    requires x >= 1
    ensures x * d >= d
  {
    assert x * d == (x - 1) * d + d;
    assert (x - 1) * d >= 0;
  }

  /** Rounding is monotone. */
  lemma RoundHalfUpMonotone(a: int, b: int, den: Pos)
    requires a <= b
    ensures RoundHalfUp(a, den) <= RoundHalfUp(b, den)
  {
    var ra, rb := RoundHalfUp(a, den), RoundHalfUp(b, den);
    RoundHalfUpNearest(a, den);
    RoundHalfUpNearest(b, den);
    if ra > rb {
      // the rounding bounds squeeze 2 * (ra - rb) * den to at most 2 * den,
      // with equality ruled out by the strict side of each bound
      assert 2 * ra * den - 2 * rb * den == 2 * ((ra - rb) * den);
      MulAtLeast(ra - rb, den);
      assert false;
    }
  }

  /** An exact integer quotient needs no rounding. */
  lemma RoundHalfUpExact(k: int, den: Pos)
    ensures RoundHalfUp(k * den, den) == k
  {
    assert 2 * k * den == 2 * (k * den);
    assert IsHalfUpOf(k, k * den, den);
    RoundHalfUpUnique(k, k * den, den);
  }

  /** An exact rational: `BigDecimal` and PostgreSQL `numeric` values. */
  datatype Ratio = Ratio(num: int, den: Pos) {

    predicate IsZero() {
      num == 0
    }

    /** `BigDecimal.longValue()`: the integer part, truncated toward zero. */
    function IntegerPart(): int {
      TruncDiv(num, den)
    }
  }

  /** `a.compareTo(b) > 0`. */
  predicate Greater(a: Ratio, b: Ratio) {
    a.num * b.den > b.num * a.den
  }

  function FromInt(i: int): Ratio {
    Ratio(i, 1)
  }

  function Scale(a: Ratio, k: int): Ratio {
    Ratio(a.num * k, a.den)
  }
}

=== FILE: requests.dfy ===
/** The inbound request records and the Bean-Validation constraints that the
    REST layer enforces on two of them (`@Valid` at the controller). The
    WebSocket message carries constraint annotations too, but its handler
    does not ask for validation, so no validator is modelled for it. */
module Requests {

  import opened Common
  import opened Text
  import opened Numeric
  import opened Entities

  /** The inbound event envelope; every field may be null. */
  datatype WebSocketMessage = WebSocketMessage(
    eventType: Option<string>,
    timestamp: Option<Timestamp>,
    sessionId: Option<string>,
    attemptId: Option<string>,
    data: Option<Payload>)

  datatype MissionStartRequest = MissionStartRequest(
    sessionId: Option<string>,
    missionType: Option<MissionType>,
    timestamp: Option<Timestamp>)

  datatype ReviewSubmitRequest = ReviewSubmitRequest(
    rating: Option<Int32>,
    ratingText: Option<string>,
    feedback: Option<string>,
    hasFeedback: Option<bool>)

  const MSG_SESSION_REQUIRED: string := "sessionId는 필수입니다"
  const MSG_TYPE_REQUIRED: string := "missionType은 필수입니다"
  const MSG_TIMESTAMP_REQUIRED: string := "timestamp는 필수입니다"
  const MSG_RATING_REQUIRED: string := "rating은 필수입니다"
  const MSG_RATING_MIN: string := "rating은 1 이상이어야 합니다"
  const MSG_RATING_MAX: string := "rating은 5 이하여야 합니다"
  const MSG_TEXT_REQUIRED: string := "ratingText는 필수입니다"
  const MSG_TEXT_SIZE: string := "ratingText는 20자 이하여야 합니다"
  const MSG_FEEDBACK_FLAG_REQUIRED: string := "hasFeedback은 필수입니다"

  const RATING_TEXT_MAX: nat := 20

  /** `@NotBlank`: present and not all whitespace. */
  predicate NotBlank(s: Option<string>) {
    s.Some? && !IsBlank(s.value)
  }

  /** The constraints of the mission-start request, read field by field. */
  predicate ValidStart(req: MissionStartRequest) {
    && NotBlank(req.sessionId)
    && req.missionType.Some?
    && req.timestamp.Some?
  }

  /** The messages of the violated constraints, listed in one admissible
      order (field order; the validator's own set has none): empty exactly
      when the request is valid, one message per missing field. */
  function StartViolations(req: MissionStartRequest): (v: seq<string>)
    ensures |v| == 0 <==> ValidStart(req)
    ensures MSG_SESSION_REQUIRED in v <==> !NotBlank(req.sessionId)
    ensures MSG_TYPE_REQUIRED in v <==> req.missionType.None?
    ensures MSG_TIMESTAMP_REQUIRED in v <==> req.timestamp.None?
  {
    (if NotBlank(req.sessionId) then [] else [MSG_SESSION_REQUIRED])
    + (if req.missionType.Some? then [] else [MSG_TYPE_REQUIRED])
    + (if req.timestamp.Some? then [] else [MSG_TIMESTAMP_REQUIRED])
  }

  /** The constraints of the review request, read field by field: `@Min` and
      `@Max` pass a null, `@Size` counts UTF-16 units and passes a null;
      `feedback` is unconstrained. */
  predicate ValidReview(req: ReviewSubmitRequest) {
    && req.rating.Some? && 1 <= req.rating.value <= 5
    && NotBlank(req.ratingText) && Utf16Length(req.ratingText.value) <= RATING_TEXT_MAX
    && req.hasFeedback.Some?
  }

  /** The messages of the violated constraints, listed in one admissible
      order (field order; the validator's own set has none): empty exactly
      when the request is valid. */
  function ReviewViolations(req: ReviewSubmitRequest): (v: seq<string>)
    ensures |v| == 0 <==> ValidReview(req)
  {
    (if req.rating.None? then [MSG_RATING_REQUIRED] else [])
    + (if req.rating.Some? && req.rating.value < 1 then [MSG_RATING_MIN] else [])
    + (if req.rating.Some? && req.rating.value > 5 then [MSG_RATING_MAX] else [])
    + (if NotBlank(req.ratingText) then [] else [MSG_TEXT_REQUIRED])
    + (if req.ratingText.Some? && Utf16Length(req.ratingText.value) > RATING_TEXT_MAX then [MSG_TEXT_SIZE] else [])
    + (if req.hasFeedback.Some? then [] else [MSG_FEEDBACK_FLAG_REQUIRED])
  }

  /** Each rating message is reported exactly when its constraint is
      violated. */
  lemma RatingMessages(req: ReviewSubmitRequest)
    ensures MSG_RATING_REQUIRED in ReviewViolations(req) <==> req.rating.None?
    ensures MSG_RATING_MIN in ReviewViolations(req) <==> req.rating.Some? && req.rating.value < 1
    ensures MSG_RATING_MAX in ReviewViolations(req) <==> req.rating.Some? && req.rating.value > 5
  {
  }

  /** Each rating-text and feedback-flag message is reported exactly when
      its constraint is violated. */
  lemma TextMessages(req: ReviewSubmitRequest)
    ensures MSG_TEXT_REQUIRED in ReviewViolations(req) <==> !NotBlank(req.ratingText)
    ensures MSG_TEXT_SIZE in ReviewViolations(req) <==>
      req.ratingText.Some? && Utf16Length(req.ratingText.value) > RATING_TEXT_MAX
    ensures MSG_FEEDBACK_FLAG_REQUIRED in ReviewViolations(req) <==> req.hasFeedback.None?
  {
  }

  /** The feedback text never influences the verdict. */
  lemma FeedbackUnconstrained(req: ReviewSubmitRequest, f: Option<string>)
    ensures ValidReview(req.(feedback := f)) <==> ValidReview(req)
    ensures ReviewViolations(req.(feedback := f)) == ReviewViolations(req)
  {
  }
}

=== FILE: responses.dfy ===
/** The REST response envelope and the table that turns each exception into
    an HTTP status and an error envelope. */
module Responses {

  import opened Common
  import opened Text
  import opened Failures

  datatype ErrorInfo = ErrorInfo(code: string, message: string, details: Option<string>)

  /** `ApiResponse<T>`: `data` and `error` are nullable. */
  datatype ApiResponse<T> = ApiResponse(success: bool, data: Option<T>, error: Option<ErrorInfo>)

  /** An envelope as the three factories build it: an error is present
      exactly when the call failed. */
  predicate WellFormed<T>(r: ApiResponse<T>) {
    r.error.Some? <==> !r.success
  }

  /** `ApiResponse.success(data)`. */
  function Success<T>(data: Option<T>): (r: ApiResponse<T>)
    ensures r.success && r.data == data && r.error.None?
    ensures WellFormed(r)
  {
    ApiResponse(true, data, None)
  }

  /** `ApiResponse.error(code, message)`. */
  function Error<T>(code: string, message: string): (r: ApiResponse<T>)
    ensures !r.success && r.data.None?
    ensures r.error == Some(ErrorInfo(code, message, None))
    ensures WellFormed(r)
  {
    ApiResponse(false, None, Some(ErrorInfo(code, message, None)))
  }

  /** `ApiResponse.error(code, message, details)`. */
  function ErrorWithDetails<T>(code: string, message: string, details: string): (r: ApiResponse<T>)
    ensures !r.success && r.data.None?
    ensures r.error == Some(ErrorInfo(code, message, Some(details)))
    ensures r == Error<T>(code, message).(error := Some(ErrorInfo(code, message, Some(details))))
    ensures WellFormed(r)
  {
    ApiResponse(false, None, Some(ErrorInfo(code, message, Some(details))))
  }

  const HTTP_BAD_REQUEST: int := 400
  const HTTP_NOT_FOUND: int := 404
  const HTTP_INTERNAL_SERVER_ERROR: int := 500

  const GENERIC_MESSAGE: string := "An unexpected error occurred. Please try again later."

  /** The status and body the handler answers with. */
  datatype HttpReply = HttpReply(status: int, body: ApiResponse<()>)

  /** The HTTP status a failure kind maps to. */
  function StatusOf(f: Failure): int {
    match f
    case MissionNotFound(_) => HTTP_NOT_FOUND
    case ResourceNotFound(_) => HTTP_NOT_FOUND
    case InvalidEvent(_) => HTTP_BAD_REQUEST
    case InvalidRequest(_) => HTTP_BAD_REQUEST
    case ValidationFailed(_) => HTTP_BAD_REQUEST
    case IllegalArgument(_) => HTTP_BAD_REQUEST
    case _ => HTTP_INTERNAL_SERVER_ERROR
  }

  /** The machine-readable code a failure kind maps to. */
  function CodeOf(f: Failure): string {
    match f
    case MissionNotFound(_) => "MISSION_NOT_FOUND"
    case InvalidEvent(_) => "INVALID_EVENT"
    case InvalidRequest(_) => "INVALID_REQUEST"
    case ValidationFailed(_) => "VALIDATION_ERROR"
    case IllegalArgument(_) => "INVALID_ARGUMENT"
    case ResourceNotFound(_) => "RESOURCE_NOT_FOUND"
    case _ => "INTERNAL_SERVER_ERROR"
  }

  /** The exception handler: one answer per exception kind. The application
      exceptions and `IllegalArgumentException` carry their own message;
      validation failures carry a fixed message and the field messages as
      details; everything else hides its text behind a fixed message. */
  function Handle(f: Failure): (reply: HttpReply)
    ensures reply.status == StatusOf(f)
    ensures !reply.body.success && reply.body.data.None? && WellFormed(reply.body)
    ensures reply.body.error.Some? && reply.body.error.value.code == CodeOf(f)
    ensures (f.MissionNotFound? || f.InvalidEvent? || f.InvalidRequest? || f.IllegalArgument?) ==>
      reply.body.error.value.message == f.message && reply.body.error.value.details.None?
    ensures f.ValidationFailed? ==>
      reply.body.error.value.message == "Validation failed"
      && reply.body.error.value.details == Some(Join(", ", f.fieldMessages))
    ensures f.ResourceNotFound? ==>
      reply.body.error.value.message == "Resource not found" && reply.body.error.value.details.None?
    ensures IsInternal(f) ==>
      reply.body.error.value.message == GENERIC_MESSAGE && reply.body.error.value.details.None?
  {
    match f
    case MissionNotFound(m) => HttpReply(HTTP_NOT_FOUND, Error("MISSION_NOT_FOUND", m))
    case InvalidEvent(m) => HttpReply(HTTP_BAD_REQUEST, Error("INVALID_EVENT", m))
    case InvalidRequest(m) => HttpReply(HTTP_BAD_REQUEST, Error("INVALID_REQUEST", m))
    case ValidationFailed(ms) =>
      HttpReply(HTTP_BAD_REQUEST, ErrorWithDetails("VALIDATION_ERROR", "Validation failed", Join(", ", ms)))
    case IllegalArgument(m) => HttpReply(HTTP_BAD_REQUEST, Error("INVALID_ARGUMENT", m))
    case ResourceNotFound(_) => HttpReply(HTTP_NOT_FOUND, Error("RESOURCE_NOT_FOUND", "Resource not found"))
    case _ => HttpReply(HTTP_INTERNAL_SERVER_ERROR, Error("INTERNAL_SERVER_ERROR", GENERIC_MESSAGE))
  }

  /** The internal-error answer never depends on which exception it was or
      on its text: all of them look alike to the client. */
  lemma InternalFailuresLookAlike(f: Failure, g: Failure)
    requires IsInternal(f) && IsInternal(g)
    ensures Handle(f) == Handle(g)
  {
  }

  /** Distinct failure kinds with a client-visible message get distinct codes,
      so the code alone tells the client which check failed. */
  lemma CodesDistinguishKinds(f: Failure, g: Failure)
    requires CodeOf(f) == CodeOf(g)
    requires !IsInternal(f)
    ensures f.MissionNotFound? == g.MissionNotFound?
    ensures f.InvalidEvent? == g.InvalidEvent?
    ensures f.InvalidRequest? == g.InvalidRequest?
    ensures f.ValidationFailed? == g.ValidationFailed?
    ensures f.IllegalArgument? == g.IllegalArgument?
    ensures f.ResourceNotFound? == g.ResourceNotFound?
  {
  }
}

=== FILE: reviews.dfy ===
/** Review lookup and storage (the review service): the explicit submission
    path, which checks the attempt and refuses a second review, and the
    direct save used by the event path, which checks nothing. */
module Reviews {

  import opened Common
  import opened Text
  import opened Numeric
  import opened Failures
  import opened Entities
  import opened Requests
  import opened Stores
  import opened Missions

  function GenerateReviewId(uuid: string): (id: string)
    ensures "review_" <= id && '-' !in id
  {
    GenerateId("review_", uuid)
  }

  /** `hasReview` (`existsByAttemptId`): holds exactly when `findByAttemptId`
      finds a review of the attempt. */
  function HasReview(s: Store, attemptId: string): (b: bool)
    ensures b <==> FindReview(s.reviews, attemptId).Some?
  {
    HasReviewFor(s.reviews, attemptId)
  }

  /** `getReview`: the review filed for the attempt, if any. */
  function GetReview(s: Store, attemptId: string): (r: Option<Review>)
    ensures r.Some? <==> HasReview(s, attemptId)
    ensures r.Some? ==> r.value in s.reviews && r.value.attemptId == attemptId
  {
    FindReview(s.reviews, attemptId)
  }

  /** `saveReviewDirectly`: the row is appended as given; only the unique
      review-id column can refuse it. Whether the attempt already has a
      review is not looked at. */
  function SaveReviewDirectly(s: Store, review: Review): (r: Result<Store, Failure>)
    ensures r.Err? <==> ReviewIdTaken(s.reviews, review.reviewId)
    ensures r.Err? ==> r.error == StoreRejected(DuplicateKey("review_id"))
    ensures r.Ok? ==> r.value == s.(reviews := s.reviews + [review])
  {
    if ReviewIdTaken(s.reviews, review.reviewId) then Err(StoreRejected(DuplicateKey("review_id")))
    else Ok(s.(reviews := s.reviews + [review]))
  }

  function DuplicateMessage(attemptId: string): string {
    "Review already exists for attemptId: " + attemptId
  }

  /** `submitReview`: the attempt must exist (checked first), it must not have
      a review yet, and the request's fields are copied into a new review
      dated `now`. A null rating, rating text or feedback flag is refused by
      the non-null columns. */
  function SubmitReview(s: Store, attemptId: string, req: ReviewSubmitRequest, uuid: string, now: Timestamp)
    : (r: Result<(Store, Review), Failure>)
    ensures attemptId !in s.attempts ==> r == Err(MissionNotFound(NotFoundMessage(attemptId)))
    ensures attemptId in s.attempts && HasReview(s, attemptId) ==>
      r == Err(InvalidRequest(DuplicateMessage(attemptId)))
    ensures r.Ok? <==>
      && attemptId in s.attempts && !HasReview(s, attemptId)
      && req.rating.Some? && req.ratingText.Some? && req.hasFeedback.Some?
      && !ReviewIdTaken(s.reviews, GenerateReviewId(uuid))
    ensures r.Ok? ==>
      var (s', review) := r.value;
      && s'.reviews == s.reviews + [review]
      && s'.attempts == s.attempts && s'.events == s.events
      && review.reviewId == GenerateReviewId(uuid)
      && review.attemptId == attemptId
      && Some(review.rating) == req.rating
      && Some(review.ratingText) == req.ratingText
      && review.feedback == req.feedback
      && Some(review.hasFeedback) == req.hasFeedback
      && review.submittedAt == now
      && HasReview(s', attemptId) && GetReview(s', attemptId) == Some(review)
  {
    var _ :- GetMissionAttempt(s, attemptId);
    if HasReview(s, attemptId) then Err(InvalidRequest(DuplicateMessage(attemptId)))
    else if req.rating.None? then Err(StoreRejected(NullColumn("rating")))
    else if req.ratingText.None? then Err(StoreRejected(NullColumn("rating_text")))
    else if req.hasFeedback.None? then Err(StoreRejected(NullColumn("has_feedback")))
    else
      var review := Review(GenerateReviewId(uuid), attemptId, req.rating.value, req.ratingText.value,
                           req.feedback, req.hasFeedback.value, now);
      var s' :- SaveReviewDirectly(s, review);
      FindAfterAppend(s.reviews, review);
      Ok((s', review))
  }

  /** Appending a review for an attempt that had none makes it the one found. */
  lemma FindAfterAppend(reviews: seq<Review>, review: Review)
    requires !HasReviewFor(reviews, review.attemptId)
    ensures FindReview(reviews + [review], review.attemptId) == Some(review)
  {
    var all := reviews + [review];
    assert all[|reviews|] == review;
    if |reviews| > 0 {
      assert all[1..] == reviews[1..] + [review];
      FindAfterAppend(reviews[1..], review);
    }
  }

  /** A successful explicit submission keeps the tables consistent, in
      particular at most one review per attempt. */
  lemma SubmitReviewKeepsConsistent(s: Store, attemptId: string, req: ReviewSubmitRequest, uuid: string, now: Timestamp)
    requires Consistent(s)
    requires SubmitReview(s, attemptId, req, uuid, now).Ok?
    ensures Consistent(SubmitReview(s, attemptId, req, uuid, now).value.0)
  {
    var (s', review) := SubmitReview(s, attemptId, req, uuid, now).value;
    forall i, j | 0 <= i < j < |s'.reviews|
      ensures s'.reviews[i].reviewId != s'.reviews[j].reviewId
      ensures s'.reviews[i].attemptId != s'.reviews[j].attemptId
    {
      if j == |s.reviews| {
        assert s'.reviews[i] == s.reviews[i];
      }
    }
  }

  /** The direct save has no duplicate guard: a second review for an attempt
      is stored next to the first, so the one-review-per-attempt rule rests
      on the caller's `hasReview` test. */
  lemma SaveDirectlyAllowsSecondReview(s: Store, first: Review, second: Review)
    requires first in s.reviews
    requires second.attemptId == first.attemptId
    requires !ReviewIdTaken(s.reviews, second.reviewId)
    ensures SaveReviewDirectly(s, second).Ok?
    ensures !Consistent(SaveReviewDirectly(s, second).value)
  {
    var s' := SaveReviewDirectly(s, second).value;
    var i :| 0 <= i < |s.reviews| && s.reviews[i] == first;
    assert s'.reviews[i] == first && s'.reviews[|s.reviews|] == second;
  }
}

=== FILE: scenarios.dfy ===
/** One attempt followed from start to dashboard: a portfolio mission is
    started, finished a minute later and rated, and the analytics read the
    resulting rows. */
module Scenarios {

  import opened Common
  import opened Text
  import opened Numeric
  import opened Failures
  import opened Entities
  import opened Requests
  import opened Stores
  import opened Missions
  import opened Reviews
  import opened Events
  import opened Tables
  import opened Analytics

  const START: Timestamp := 1_700_000_000_000
  const MINUTE: int := 60_000

  function StartRequest(): MissionStartRequest {
    MissionStartRequest(Some("session-1"), Some(PORTFOLIO), Some(START))
  }

  function EventMessage(attemptId: string, eventType: string, at: Timestamp, data: Payload): WebSocketMessage {
    WebSocketMessage(Some(eventType), Some(at), Some("session-1"), Some(attemptId), Some(data))
  }

  const RATING_DATA: Payload := [("rating", JIntegral(5)), ("ratingText", JString("최고예요"))]

  /** The tables after the start request. */
  function AfterStart(): Store {
    var r := StartMission(EMPTY, StartRequest(), "ab-12");
    if r.Ok? then r.value.0 else EMPTY
  }

  /** The attempt is stored in progress under "attempt_" + the UUID without
      hyphens. */
  lemma StartStoresAttempt()
    ensures var r := StartMission(EMPTY, StartRequest(), "ab-12");
      && r.Ok?
      && r.value.1.attemptId == "attempt_ab12"
      && r.value.0.attempts.Keys == {"attempt_ab12"}
      && r.value.0.attempts["attempt_ab12"].status == IN_PROGRESS
      && r.value.0.attempts["attempt_ab12"].startTime == START
      && r.value.0.attempts["attempt_ab12"].missionName == "Portfolio Mission"
      && r.value.0.events == [] && r.value.0.reviews == []
  {
    assert RemoveChar("ab-12", '-') == "ab12";
  }

  /** A completion event one minute after the start ends the fresh attempt
      as COMPLETED with a duration of 60000 ms, next to the stored event. */
  lemma CompletionEndsAttempt(msg: WebSocketMessage, env: Env)
    requires msg.attemptId == Some("attempt_ab12")
    requires msg.eventType == Some(MISSION_COMPLETED) && msg.timestamp == Some(START + MINUTE)
    requires msg.sessionId.Some? && msg.data.Some?
    ensures var r := ProcessEvent(AfterStart(), msg, env);
      && r.Ok?
      && r.value.0.attempts["attempt_ab12"].status == COMPLETED
      && r.value.0.attempts["attempt_ab12"].totalDurationMillis == Some(MINUTE)
      && r.value.0.attempts["attempt_ab12"].endTime == Some(START + MINUTE)
      && r.value.0.events == [r.value.1]
      && r.value.0.reviews == []
  {
    StartStoresAttempt();
  }

  /** A rating event on the completed attempt files one review with the
      payload's rating and text, and leaves the attempt as it was. */
  lemma RatingFilesOneReview(s: Store, msg: WebSocketMessage, env: Env)
    requires "attempt_ab12" in s.attempts && s.reviews == []
    requires msg.attemptId == Some("attempt_ab12")
    requires msg.eventType == Some(MISSION_RATING_SUBMITTED) && msg.data == Some(RATING_DATA)
    requires msg.sessionId.Some? && msg.timestamp.Some?
    requires !EventIdTaken(s.events, GenerateEventId(env.eventUuid))
    ensures var r := ProcessEvent(s, msg, env);
      && r.Ok?
      && |r.value.0.reviews| == 1
      && r.value.0.reviews[0].attemptId == "attempt_ab12"
      && r.value.0.reviews[0].rating == 5
      && r.value.0.reviews[0].ratingText == "최고예요"
      && r.value.0.attempts == s.attempts
  {
    assert Get(RATING_DATA, "rating") == JIntegral(5);
    assert Get(RATING_DATA, "ratingText") == JString("최고예요");
    assert Get(RATING_DATA, "feedback") == JNull;
    assert Get(RATING_DATA, "hasFeedback") == JNull;
    RatingEventFilesReview(s, msg, env, 5, "최고예요");
  }

  /** An event for an attempt that was never started is refused with
      MissionNotFound, whose message is the error text the socket client is
      sent. */
  lemma UnknownAttemptIsNotFound()
    ensures var r := ProcessEvent(EMPTY, EventMessage("attempt_zz", MISSION_COMPLETED, START, []),
                                  Env("ev-1", "rv-1", 3, START));
      r == Err(MissionNotFound("Mission attempt not found: attempt_zz"))
  {
    assert NotFoundMessage("attempt_zz") == "Mission attempt not found: attempt_zz";
  }

  /** The completed attempt and its review, read by the analytics query:
      one attempt, all completed (100.00 %), 60.00 s on average, 5.00 stars. */
  lemma AnalyticsOfTheAttempt(a: MissionAttempt, review: Review)
    requires a.attemptId == "attempt_ab12" && a.missionType == PORTFOLIO
    requires a.status == COMPLETED && a.totalDurationMillis == Some(MINUTE)
    requires review.attemptId == "attempt_ab12" && review.rating == 5
    ensures var r := Analytics.GetMissionAnalytics([a], [review], PORTFOLIO);
      && r.totalAttempts == 1
      && r.completedAttempts == 1
      && r.completionRate == 10000
      && r.avgDuration == 6000
      && r.reviewCount == 1
      && r.avgRating == 500
  {
    assert OfType([a], PORTFOLIO) == [a] by {
      assert [a][1..] == [];
    }
    assert Filter([a], IsCompletedWithDuration) == [a] by {
      assert [a][1..] == [];
    }
    assert Sum([a], DurationMillis) == MINUTE by {
      assert [a][1..] == [];
    }
    RoundHalfUpExact(6000, 10);
    RoundHalfUpExact(100, 1);
    RoundHalfUpExact(500, 1);
    assert [review][1..] == [];
    assert Matches([a], review.attemptId, PORTFOLIO) == 1 by {
      assert [a][1..] == [];
    }
    assert Analytics.JoinCount([review], [a], PORTFOLIO) == 1;
    assert Analytics.JoinRatingSum([review], [a], PORTFOLIO) == 5;
  }
}

=== FILE: stores.dfy ===
/** The three tables the services read and write, the identifiers generated
    for new rows, and the consistency the services keep between the tables. */
module Stores {

  import opened Common
  import opened Text
  import opened Entities

  /** `mission_attempts` keyed by attempt id, `mission_events` in insertion
      order, `reviews` in insertion order. */
  datatype Store = Store(
    attempts: map<string, MissionAttempt>,
    events: seq<MissionEvent>,
    reviews: seq<Review>)

  const EMPTY: Store := Store(map[], [], [])

  /** `existsByAttemptId` on the reviews table. */
  predicate HasReviewFor(reviews: seq<Review>, attemptId: string) {
    exists i :: 0 <= i < |reviews| && reviews[i].attemptId == attemptId
  }

  /** `findByAttemptId` on the reviews table: the first review of the attempt. */
  function FindReview(reviews: seq<Review>, attemptId: string): (r: Option<Review>)
    ensures r.Some? <==> HasReviewFor(reviews, attemptId)
    ensures r.Some? ==> r.value in reviews && r.value.attemptId == attemptId
  {
    if |reviews| == 0 then None
    else if reviews[0].attemptId == attemptId then Some(reviews[0])
    else
      var rest := FindReview(reviews[1..], attemptId);
      assert HasReviewFor(reviews, attemptId) <==> HasReviewFor(reviews[1..], attemptId) by {
        if HasReviewFor(reviews, attemptId) {
          var i :| 0 <= i < |reviews| && reviews[i].attemptId == attemptId;
          assert reviews[1..][i - 1] == reviews[i];
        }
        if HasReviewFor(reviews[1..], attemptId) {
          var i :| 0 <= i < |reviews[1..]| && reviews[1..][i].attemptId == attemptId;
          assert reviews[i + 1] == reviews[1..][i];
        }
      }
      rest
  }

  predicate EventIdTaken(events: seq<MissionEvent>, eventId: string) {
    exists i :: 0 <= i < |events| && events[i].eventId == eventId
  }

  predicate ReviewIdTaken(reviews: seq<Review>, reviewId: string) {
    exists i :: 0 <= i < |reviews| && reviews[i].reviewId == reviewId
  }

  /** What the services keep true of the tables: every attempt is filed under
      its own id; every event and every review points at a stored attempt;
      event ids and review ids are unique; and no attempt has two reviews. */
  predicate Consistent(s: Store) {
    && (forall id :: id in s.attempts ==> s.attempts[id].attemptId == id)
    && (forall i :: 0 <= i < |s.events| ==> s.events[i].attemptId in s.attempts)
    && (forall i :: 0 <= i < |s.reviews| ==> s.reviews[i].attemptId in s.attempts)
    && (forall i, j :: 0 <= i < j < |s.events| ==> s.events[i].eventId != s.events[j].eventId)
    && (forall i, j :: 0 <= i < j < |s.reviews| ==> s.reviews[i].reviewId != s.reviews[j].reviewId)
    && (forall i, j :: 0 <= i < j < |s.reviews| ==> s.reviews[i].attemptId != s.reviews[j].attemptId)
  }

  lemma EmptyIsConsistent()
    ensures Consistent(EMPTY)
  {
  }

  predicate IsHexDigit(c: char) {
    '0' <= c <= '9' || 'a' <= c <= 'f' || 'A' <= c <= 'F'
  }

  /** The text of `UUID.toString()`: 8-4-4-4-12 hexadecimal digits. */
  predicate CanonicalUuid(u: string) {
    && |u| == 36
    && u[8] == '-' && u[13] == '-' && u[18] == '-' && u[23] == '-'
    && (forall i :: 0 <= i < 36 && i != 8 && i != 13 && i != 18 && i != 23 ==> IsHexDigit(u[i]))
  }

  /** `prefix + uuid.toString().replace("-", "")`: the shape shared by the
      attempt, event and review identifiers. */
  function GenerateId(prefix: string, uuid: string): (id: string)
    ensures prefix <= id
    ensures '-' !in prefix ==> '-' !in id
    ensures |id| == |prefix| + |uuid| - Occurrences(uuid, '-')
  {
    prefix + RemoveChar(uuid, '-')
  }

  lemma RemoveCharConcat(a: string, b: string, c: char)
    ensures RemoveChar(a + b, c) == RemoveChar(a, c) + RemoveChar(b, c)
  {
    if |a| > 0 {
      assert (a + b)[1..] == a[1..] + b;
      RemoveCharConcat(a[1..], b, c);
    } else {
      assert a + b == b;
    }
  }

  /** Removing `c` from a `c`-free head, the separator `c`, and a tail. */
  lemma RemoveAfterSeparator(head: string, c: char, tail: string)
    requires c !in head
    ensures RemoveChar(head + [c] + tail, c) == head + RemoveChar(tail, c)
  {
    RemoveCharConcat(head + [c], tail, c);
    RemoveCharConcat(head, [c], c);
  }

  /** A stretch of a canonical UUID between hyphen positions has no hyphen. */
  lemma HyphenFreeStretch(u: string, a: int, b: int)
    requires CanonicalUuid(u)
    requires 0 <= a <= b <= 36
    requires b <= 8 || (9 <= a && b <= 13) || (14 <= a && b <= 18) || (19 <= a && b <= 23) || 24 <= a
    ensures '-' !in u[a..b]
  {
    forall k | 0 <= k < b - a ensures u[a..b][k] != '-' {
      assert u[a..b][k] == u[a + k];
      assert IsHexDigit(u[a + k]);
    }
  }

  /** Removing the four hyphens of a canonical UUID keeps its 32 digits. */
  lemma StripCanonical(u: string)
    requires CanonicalUuid(u)
    ensures RemoveChar(u, '-') == u[..8] + u[9..13] + u[14..18] + u[19..23] + u[24..]
  {
    HyphenFreeStretch(u, 0, 8);
    HyphenFreeStretch(u, 9, 13);
    HyphenFreeStretch(u, 14, 18);
    HyphenFreeStretch(u, 19, 23);
    HyphenFreeStretch(u, 24, 36);
    StripShape(u);
  }

  /** The same, from the positions of the hyphens alone. */
  lemma StripShape(u: string)
    requires |u| == 36 && u[8] == '-' && u[13] == '-' && u[18] == '-' && u[23] == '-'
    requires '-' !in u[0..8] && '-' !in u[9..13] && '-' !in u[14..18] && '-' !in u[19..23] && '-' !in u[24..36]
    ensures RemoveChar(u, '-') == u[..8] + u[9..13] + u[14..18] + u[19..23] + u[24..]
  {
    assert u[0..] == u;
    assert u[24..36] == u[24..];
    StripFrom(u, 0, 8);
    StripFrom(u, 9, 13);
    StripFrom(u, 14, 18);
    StripFrom(u, 19, 23);
  }

  /** From position `a` up to the hyphen at `b`, removing hyphens keeps the
      digits before `b` and goes on after it. */
  lemma StripFrom(u: string, a: int, b: int)
    requires 0 <= a <= b < |u| && u[b] == '-' && '-' !in u[a..b]
    ensures RemoveChar(u[a..], '-') == u[a..b] + RemoveChar(u[b + 1..], '-')
  {
    assert u[a..] == u[a..b] + ['-'] + u[b + 1..];
    RemoveAfterSeparator(u[a..b], '-', u[b + 1..]);
  }

  /** A canonical UUID yields an identifier of the prefix plus 32 digits, and
      distinct UUIDs yield distinct identifiers. */
  lemma {:induction false} GenerateIdInjective(prefix: string, u: string, v: string)
    requires CanonicalUuid(u) && CanonicalUuid(v)
    ensures |GenerateId(prefix, u)| == |prefix| + 32
    ensures GenerateId(prefix, u) == GenerateId(prefix, v) ==> u == v
  {
    StripCanonical(u);
    StripCanonical(v);
    if GenerateId(prefix, u) == GenerateId(prefix, v) {
      var su, sv := RemoveChar(u, '-'), RemoveChar(v, '-');
      assert su == GenerateId(prefix, u)[|prefix|..];
      assert su == sv;
      forall i | 0 <= i < 36 ensures u[i] == v[i] {
        if i < 8 { assert u[i] == su[i] && v[i] == sv[i]; }
        else if i == 8 || i == 13 || i == 18 || i == 23 { }
        else if i < 13 { assert u[i] == su[i - 1] && v[i] == sv[i - 1]; }
        else if i < 18 { assert u[i] == su[i - 2] && v[i] == sv[i - 2]; }
        else if i < 23 { assert u[i] == su[i - 3] && v[i] == sv[i - 3]; }
        else { assert u[i] == su[i - 4] && v[i] == sv[i - 4]; }
      }
    }
  }
}

=== FILE: tables.dfy ===
/** The aggregate queries read whole tables; a table is a sequence of rows
    in no particular order. These are the `WHERE`, `COUNT` and `SUM`
    building blocks the dashboard and analytics queries share. */
module Tables {

  import opened Common
  import opened Numeric
  import opened Entities

  /** The rows satisfying `p`, in their original order (a `WHERE` clause). */
  function Filter<T(!new)>(xs: seq<T>, p: T -> bool): (ys: seq<T>)
    ensures |ys| <= |xs|
    ensures forall i :: 0 <= i < |ys| ==> p(ys[i])
    ensures forall x :: x in ys <==> x in xs && p(x)
  {
    if |xs| == 0 then [] else (if p(xs[0]) then [xs[0]] else []) + Filter(xs[1..], p)
  }

  /** `COUNT(CASE WHEN p THEN 1 END)`. */
  function Count<T(!new)>(xs: seq<T>, p: T -> bool): (n: nat)
    ensures n <= |xs|
    ensures n == |Filter(xs, p)|
    ensures n == 0 <==> forall i :: 0 <= i < |xs| ==> !p(xs[i])
  {
    if |xs| == 0 then 0
    else
      var n := (if p(xs[0]) then 1 else 0) + Count(xs[1..], p);
      assert forall i :: 1 <= i < |xs| ==> xs[1..][i - 1] == xs[i];
      n
  }

  /** `SUM(f)` over all rows. */
  function Sum<T>(xs: seq<T>, f: T -> int): int {
    if |xs| == 0 then 0 else f(xs[0]) + Sum(xs[1..], f)
  }

  /** When every row satisfies exactly one of `p` and `q`, the two counts
      add up to the number of rows. */
  lemma {:induction false} CountPartition<T(!new)>(xs: seq<T>, p: T -> bool, q: T -> bool)
    requires forall i :: 0 <= i < |xs| ==> (p(xs[i]) <==> !q(xs[i]))
    ensures Count(xs, p) + Count(xs, q) == |xs|
  {
    if |xs| > 0 {
      assert forall i :: 0 <= i < |xs[1..]| ==> xs[1..][i] == xs[i + 1];
      CountPartition(xs[1..], p, q);
    }
  }

  /** Narrowing a filter: selecting `q` among the `p` rows is selecting `q`
      when `q` implies `p`. */
  lemma {:induction false} FilterNarrow<T(!new)>(xs: seq<T>, p: T -> bool, q: T -> bool)
    requires forall i :: 0 <= i < |xs| ==> q(xs[i]) ==> p(xs[i])
    ensures Filter(Filter(xs, p), q) == Filter(xs, q)
  {
    if |xs| > 0 {
      assert forall i :: 0 <= i < |xs[1..]| ==> xs[1..][i] == xs[i + 1];
      FilterNarrow(xs[1..], p, q);
      var head := if p(xs[0]) then [xs[0]] else [];
      assert Filter(head + Filter(xs[1..], p), q) == Filter(head, q) + Filter(Filter(xs[1..], p), q) by {
        FilterAppend(head, Filter(xs[1..], p), q);
      }
    }
  }

  lemma {:induction false} FilterAppend<T(!new)>(xs: seq<T>, ys: seq<T>, p: T -> bool)
    ensures Filter(xs + ys, p) == Filter(xs, p) + Filter(ys, p)
  {
    if |xs| > 0 {
      assert (xs + ys)[1..] == xs[1..] + ys;
      FilterAppend(xs[1..], ys, p);
    } else {
      assert xs + ys == ys;
    }
  }

  /** A sum of per-row values bounded by `lo` and `hi` lies between `lo` and
      `hi` times the number of rows, so an average lies between them. */
  lemma {:induction false} SumBounds<T>(xs: seq<T>, f: T -> int, lo: int, hi: int)
    requires forall i :: 0 <= i < |xs| ==> lo <= f(xs[i]) <= hi
    ensures lo * |xs| <= Sum(xs, f) <= hi * |xs|
  {
    if |xs| > 0 {
      assert forall i :: 0 <= i < |xs[1..]| ==> xs[1..][i] == xs[i + 1];
      SumBounds(xs[1..], f, lo, hi);
      assert lo * |xs| == lo + lo * (|xs| - 1);
      assert hi * |xs| == hi + hi * (|xs| - 1);
    }
  }

  /** `ROUND(AVG(x), 2)` / `AVG(x).setScale(2, HALF_UP)` of integer values,
      in hundredths; `None` is SQL's null average of no rows. */
  function AvgHundredths(sum: int, n: nat): (r: Option<int>)
    ensures r.None? <==> n == 0
  {
    if n == 0 then None else Some(RoundHalfUp(sum * 100, n))
  }

  /** The average is the hundredth nearest to sum / n. */
  lemma AvgHundredthsNearest(sum: int, n: nat)
    requires n > 0
    ensures IsHalfUpOf(AvgHundredths(sum, n).value, sum * 100, n)
  {
    RoundHalfUpNearest(sum * 100, n);
  }

  /** An average of values between `lo` and `hi` rounds to between them. */
  lemma AvgHundredthsBetween(sum: int, n: nat, lo: int, hi: int)
    requires n > 0
    requires lo * n <= sum <= hi * n
    ensures 100 * lo <= AvgHundredths(sum, n).value <= 100 * hi
  {
    RoundHalfUpMonotone(lo * n * 100, sum * 100, n);
    RoundHalfUpMonotone(sum * 100, hi * n * 100, n);
    assert lo * n * 100 == (100 * lo) * n;
    assert hi * n * 100 == (100 * hi) * n;
    RoundHalfUpExact(100 * lo, n);
    RoundHalfUpExact(100 * hi, n);
  }

  predicate IsCompleted(a: MissionAttempt) {
    a.status == COMPLETED
  }

  predicate IsQuitted(a: MissionAttempt) {
    a.status == QUITTED
  }

  /** `status IN ('COMPLETED', 'QUITTED')`. */
  predicate IsFinished(a: MissionAttempt) {
    a.status == COMPLETED || a.status == QUITTED
  }

  predicate HasDuration(a: MissionAttempt) {
    a.totalDurationMillis.Some?
  }

  predicate IsCompletedWithDuration(a: MissionAttempt) {
    a.status == COMPLETED && a.totalDurationMillis.Some?
  }

  /** The stored duration in milliseconds; zero stands in for null, which
      only rows that a `total_duration IS NOT NULL` filter removes have. */
  function DurationMillis(a: MissionAttempt): int {
    a.totalDurationMillis.GetOr(0)
  }

  function Rating(r: Review): int {
    r.rating
  }

  /** `WHERE mission_type = ?`. */
  function OfType(rows: seq<MissionAttempt>, t: MissionType): (r: seq<MissionAttempt>)
    ensures |r| <= |rows|
    ensures forall i :: 0 <= i < |r| ==> r[i].missionType == t
    ensures forall a :: a in r <==> a in rows && a.missionType == t
  {
    if |rows| == 0 then []
    else (if rows[0].missionType == t then [rows[0]] else []) + OfType(rows[1..], t)
  }

  lemma {:induction false} OfTypeAppend(xs: seq<MissionAttempt>, ys: seq<MissionAttempt>, t: MissionType)
    ensures OfType(xs + ys, t) == OfType(xs, t) + OfType(ys, t)
  {
    if |xs| > 0 {
      assert (xs + ys)[1..] == xs[1..] + ys;
      OfTypeAppend(xs[1..], ys, t);
    } else {
      assert xs + ys == ys;
    }
  }

  /** Every row has one of the two types. */
  lemma {:induction false} TypesPartition(xs: seq<MissionAttempt>)
    ensures |OfType(xs, PORTFOLIO)| + |OfType(xs, VOCABULARY)| == |xs|
  {
    if |xs| > 0 {
      TypesPartition(xs[1..]);
    }
  }
}

=== FILE: text.dfy ===
/** String helpers with the meaning the Java runtime gives them: decimal
    rendering of integers (`Long.toString`), `String.join`, `String.replace`
    of one character by nothing, `String.repeat`, `String.trim`-blankness and
    the UTF-16 length that `String.length()` reports. */
module Text {

  import opened Common

  predicate IsDigit(c: char) {
    '0' <= c <= '9'
  }

  predicate AllDigits(s: string) {
    forall i :: 0 <= i < |s| ==> IsDigit(s[i])
  }

  function DigitChar(d: int): (c: char)
    requires 0 <= d < 10
    ensures IsDigit(c)
    ensures (c as int) - ('0' as int) == d
  {
    (('0' as int) + d) as char
  }

  /** Decimal digits of `n`, most significant first, without leading zeros. */
  function NatToString(n: nat): (s: string)
    ensures |s| >= 1
    ensures AllDigits(s)
    ensures s[0] == '0' ==> n == 0
  {
    if n < 10 then [DigitChar(n)] else NatToString(n / 10) + [DigitChar(n % 10)]
  }

  /** `Long.toString`: a leading '-' for negative values. */
  function IntToString(i: int): (s: string)
    ensures |s| >= 1
    ensures i >= 0 ==> AllDigits(s)
    ensures i < 0 ==> s[0] == '-' && |s| >= 2 && AllDigits(s[1..])
  {
    if i < 0 then "-" + NatToString(-i) else NatToString(i)
  }

  /** The value of a string of decimal digits (the reference reading used to
      state that rendering is faithful). */
  function DigitsValue(s: string): nat
    requires AllDigits(s)
  {
    if |s| == 0 then 0
    else DigitsValue(s[..|s| - 1]) * 10 + ((s[|s| - 1] as int) - ('0' as int))
  }

  /** Digits as `NatToString` writes them: at least one, and no leading
      zero unless the text is "0". */
  predicate CanonicalDigits(s: string) {
    |s| >= 1 && AllDigits(s) && (s[0] == '0' ==> |s| == 1)
  }

  /** Reads back exactly what `IntToString` writes: canonical digits,
      optionally after a '-' that a nonzero digit follows; anything else
      (a leading zero, "-0", a sign alone) is `None`. */
  function ParseInt(s: string): (r: Option<int>)
    ensures r.Some? ==> |s| >= 1
    ensures r.Some? && r.value < 0 ==> s[0] == '-'
  {
    if |s| >= 2 && s[0] == '-' && s[1] != '0' && CanonicalDigits(s[1..]) then Some(-(DigitsValue(s[1..]) as int))
    else if CanonicalDigits(s) then Some(DigitsValue(s) as int)
    else None
  }

  /** Digits that do not start with '0' have a positive value. */
  lemma {:induction false} DigitsValuePositive(s: string)
    requires |s| >= 1 && AllDigits(s) && s[0] != '0'
    ensures DigitsValue(s) >= 1
    decreases |s|
  {
    if |s| > 1 {
      var p := s[..|s| - 1];
      assert p[0] == s[0];
      assert AllDigits(p) by { assert forall i :: 0 <= i < |p| ==> p[i] == s[i]; }
      DigitsValuePositive(p);
    }
  }

  /** Canonical digits are the rendering of their own value. */
  lemma {:induction false} CanonicalDigitsRender(s: string)
    requires CanonicalDigits(s)
    ensures NatToString(DigitsValue(s)) == s
    decreases |s|
  {
    var c := (s[|s| - 1] as int) - ('0' as int);
    assert DigitChar(c) == s[|s| - 1];
    if |s| > 1 {
      var p := s[..|s| - 1];
      assert p[0] == s[0];
      assert AllDigits(p) by { assert forall i :: 0 <= i < |p| ==> p[i] == s[i]; }
      DigitsValuePositive(p);
      CanonicalDigitsRender(p);
      var n := DigitsValue(s);
      assert n == DigitsValue(p) * 10 + c;
      assert n / 10 == DigitsValue(p) && n % 10 == c;
      assert s == p + [s[|s| - 1]];
    }
  }

  /** Only `IntToString`'s own text reads back: a parsed text is the
      rendering of the number it gives. */
  lemma ParseIntCanonical(s: string, n: int)
    requires ParseInt(s) == Some(n)
    ensures s == IntToString(n)
  {
    if |s| >= 2 && s[0] == '-' && s[1] != '0' && CanonicalDigits(s[1..]) {
      DigitsValuePositive(s[1..]);
      CanonicalDigitsRender(s[1..]);
      assert s == "-" + s[1..];
    } else {
      CanonicalDigitsRender(s);
    }
  }

  lemma {:induction false} NatToStringValue(n: nat)
    ensures DigitsValue(NatToString(n)) == n
    decreases n
  {
    if n >= 10 {
      var s := NatToString(n);
      NatToStringValue(n / 10);
      assert s[..|s| - 1] == NatToString(n / 10);
    }
  }

  /** Rendering an integer and reading it back gives the integer. */
  lemma IntToStringRoundTrip(i: int)
    ensures ParseInt(IntToString(i)) == Some(i)
  {
    var s := IntToString(i);
    if i < 0 {
      var t := NatToString(-i);
      assert s == "-" + t;
      assert s[1..] == t;
      NatToStringValue(-i);
    } else {
      NatToStringValue(i);
      assert IsDigit(s[0]);
    }
  }

  /** `IntToString` is injective: distinct numbers render differently. */
  lemma IntToStringInjective(a: int, b: int)
    requires IntToString(a) == IntToString(b)
    ensures a == b
  {
    IntToStringRoundTrip(a);
    IntToStringRoundTrip(b);
  }

  /** Two-digit zero-padded rendering, `%02d` for 0 <= n < 100. */
  function Pad2(n: nat): (s: string)
    requires n < 100
    ensures |s| == 2 && AllDigits(s)
    ensures DigitsValue(s) == n
  {
    var s := [DigitChar(n / 10), DigitChar(n % 10)];
    assert s[..1] == [DigitChar(n / 10)];
    assert s[..1][..0] == [];
    assert DigitsValue(s[..1]) == n / 10;
    s
  }

  /** A character that is neither a digit nor '-' never appears in a
      rendered integer. */
  lemma NotInIntToString(i: int, c: char)
    requires !IsDigit(c) && c != '-'
    ensures c !in IntToString(i)
  {
  }

  /** The position of the first `c` in `s` (`String.indexOf`). */
  function IndexOf(s: string, c: char): (r: Option<nat>)
    ensures r.None? <==> c !in s
    ensures r.Some? ==> r.value < |s| && s[r.value] == c && c !in s[..r.value]
  {
    if |s| == 0 then None
    else if s[0] == c then Some(0)
    else
      match IndexOf(s[1..], c)
      case None => None
      case Some(k) =>
        assert s[..k + 1] == [s[0]] + s[1..][..k];
        Some(k + 1)
  }

  /** Total length of a sequence of strings. */
  function SumLengths(xs: seq<string>): nat {
    if |xs| == 0 then 0 else |xs[0]| + SumLengths(xs[1..])
  }

  /** `String.join(sep, xs)`. */
  function Join(sep: string, xs: seq<string>): (r: string)
    ensures |xs| == 0 ==> r == ""
    ensures |xs| >= 1 ==> xs[0] <= r
    ensures |xs| == 1 ==> r == xs[0]
    ensures |xs| >= 1 ==> |r| == SumLengths(xs) + (|xs| - 1) * |sep|
  {
    if |xs| == 0 then ""
    else if |xs| == 1 then xs[0]
    else xs[0] + sep + Join(sep, xs[1..])
  }

  /** Joining one more part appends the separator and that part, so every
      later part follows its own separator in order. */
  lemma {:induction false} JoinAppend(sep: string, xs: seq<string>, x: string)
    requires |xs| >= 1
    ensures Join(sep, xs + [x]) == Join(sep, xs) + sep + x
  {
    if |xs| > 1 {
      assert (xs + [x])[1..] == xs[1..] + [x];
      JoinAppend(sep, xs[1..], x);
    } else {
      assert (xs + [x])[1..] == [x];
    }
  }

  /** Number of occurrences of `c` in `s`. */
  function Occurrences(s: string, c: char): nat {
    if |s| == 0 then 0 else (if s[0] == c then 1 else 0) + Occurrences(s[1..], c)
  }

  /** `s.replace(String.valueOf(c), "")`: every occurrence of `c` removed,
      every other character kept in order. */
  function RemoveChar(s: string, c: char): (r: string)
    ensures c !in r
    ensures |r| == |s| - Occurrences(s, c)
    ensures c !in s ==> r == s
  {
    if |s| == 0 then ""
    else if s[0] == c then RemoveChar(s[1..], c)
    else [s[0]] + RemoveChar(s[1..], c)
  }

  /** `String.valueOf(c).repeat(n)` for n >= 0. */
  function RepeatChar(c: char, n: nat): (r: string)
    ensures |r| == n
    ensures forall i :: 0 <= i < |r| ==> r[i] == c
  {
    if n == 0 then "" else [c] + RepeatChar(c, n - 1)
  }

  /** Hibernate's `@NotBlank` test: `s.trim()` is empty, i.e. every character
      is at most U+0020. */
  predicate IsBlank(s: string) {
    forall i :: 0 <= i < |s| ==> s[i] <= ' '
  }

  /** `String.length()`: UTF-16 code units, two for characters outside the
      Basic Multilingual Plane. */
  function Utf16Length(s: string): (n: nat)
    ensures |s| <= n <= 2 * |s|
    ensures (forall i :: 0 <= i < |s| ==> s[i] as int <= 0xFFFF) ==> n == |s|
    ensures |s| == 1 ==> n == (if s[0] as int > 0xFFFF then 2 else 1)
  {
    if |s| == 0 then 0
    else
      assert forall i :: 1 <= i < |s| ==> s[1..][i - 1] == s[i];
      (if s[0] as int > 0xFFFF then 2 else 1) + Utf16Length(s[1..])
  }

  /** The UTF-16 length of a concatenation is the sum of the lengths, so
      with the one-character case it counts each character's code units. */
  lemma {:induction false} Utf16LengthAppend(a: string, b: string)
    ensures Utf16Length(a + b) == Utf16Length(a) + Utf16Length(b)
  {
    if |a| > 0 {
      assert (a + b)[1..] == a[1..] + b;
      Utf16LengthAppend(a[1..], b);
    } else {
      assert a + b == b;
    }
  }

  /** Bytes of `c` in UTF-8. */
  function Utf8Width(c: char): (w: nat)
    ensures 1 <= w <= 4
  {
    if c as int < 0x80 then 1 else if c as int < 0x800 then 2 else if c as int < 0x1_0000 then 3 else 4
  }

  /** Length of `s` in UTF-8 bytes. */
  function Utf8Length(s: string): (n: nat)
    ensures |s| <= n <= 4 * |s|
  {
    if |s| == 0 then 0 else Utf8Width(s[0]) + Utf8Length(s[1..])
  }

  /** An ASCII string takes one byte per character. */
  lemma {:induction false} Utf8LengthAscii(s: string)
    requires forall i :: 0 <= i < |s| ==> s[i] as int < 0x80
    ensures Utf8Length(s) == |s|
  {
    if |s| > 0 {
      assert forall i :: 0 <= i < |s[1..]| ==> s[1..][i] == s[i + 1];
      Utf8LengthAscii(s[1..]);
    }
  }

  /** Byte-wise order of the UTF-8 encodings, which is the order of the code
      points: the first differing character decides, and a proper prefix
      comes first. */
  predicate LexLess(a: string, b: string) {
    if |a| == 0 then |b| > 0
    else if |b| == 0 then false
    else if a[0] != b[0] then a[0] < b[0]
    else LexLess(a[1..], b[1..])
  }

  /** Of two different strings, one comes first. */
  lemma {:induction false} LexTotal(a: string, b: string)
    requires a != b
    ensures LexLess(a, b) || LexLess(b, a)
  {
    if |a| > 0 && |b| > 0 && a[0] == b[0] {
      assert a == [a[0]] + a[1..] && b == [b[0]] + b[1..];
      LexTotal(a[1..], b[1..]);
    }
  }

  /** No string comes before itself, and never both ways. */
  lemma {:induction false} LexAsymmetric(a: string, b: string)
    ensures !(LexLess(a, b) && LexLess(b, a))
  {
    if |a| > 0 && |b| > 0 && a[0] == b[0] {
      LexAsymmetric(a[1..], b[1..]);
    }
  }
}

=== FILE: timeline.dfy ===
/** The event timeline of one attempt on the dashboard's detail page, and
    the slow-step test of its portfolio step table. */
module Timeline {

  import opened Common
  import opened Text
  import opened Numeric
  import opened Failures
  import opened Entities
  import opened Formatting

  /** `WHERE attempt_id = ?`. */
  function OfAttempt(events: seq<MissionEvent>, attemptId: string): (r: seq<MissionEvent>)
    ensures |r| <= |events|
    ensures forall i :: 0 <= i < |r| ==> r[i].attemptId == attemptId
    ensures forall e :: e in r <==> e in events && e.attemptId == attemptId
  {
    if |events| == 0 then []
    else (if events[0].attemptId == attemptId then [events[0]] else []) + OfAttempt(events[1..], attemptId)
  }

  /** `OfAttempt` keeps each matching event as often as the store holds it. */
  lemma {:induction false} OfAttemptMultiset(events: seq<MissionEvent>, attemptId: string, e: MissionEvent)
    ensures multiset(OfAttempt(events, attemptId))[e] == if e.attemptId == attemptId then multiset(events)[e] else 0
  {
    if |events| > 0 {
      assert multiset(events) == multiset{events[0]} + multiset(events[1..]) by {
        assert events == [events[0]] + events[1..];
      }
      var head := if events[0].attemptId == attemptId then [events[0]] else [];
      var rest := OfAttempt(events[1..], attemptId);
      OfAttemptMultiset(events[1..], attemptId, e);
      assert OfAttempt(events, attemptId) == head + rest;
      assert multiset(head + rest) == multiset(head) + multiset(rest);
    }
  }

  predicate SortedByTime(es: seq<MissionEvent>) {
    forall i, j :: 0 <= i < j < |es| ==> es[i].timestamp <= es[j].timestamp
  }

  /** Places `e` before the first event that is not earlier than it. */
  function Insert(e: MissionEvent, s: seq<MissionEvent>): (r: seq<MissionEvent>)
    requires SortedByTime(s)
    ensures SortedByTime(r)
    ensures forall x :: x in r ==> x == e || x in s
  {
    if |s| == 0 || e.timestamp <= s[0].timestamp then
      [e] + s
    else
      var rest := Insert(e, s[1..]);
      assert forall x :: x in rest ==> s[0].timestamp <= x.timestamp;
      assert forall j :: 0 <= j < |rest| ==> s[0].timestamp <= rest[j].timestamp;
      [s[0]] + rest
  }

  /** Inserting adds `e` and loses nothing. */
  lemma {:induction false} InsertPermutes(e: MissionEvent, s: seq<MissionEvent>)
    requires SortedByTime(s)
    ensures multiset(Insert(e, s)) == multiset(s) + multiset{e}
  {
    if |s| > 0 && e.timestamp > s[0].timestamp {
      InsertPermutes(e, s[1..]);
      assert s == [s[0]] + s[1..];
    }
  }

  /** `ORDER BY timestamp ASC`, events with equal timestamps kept in store
      order. */
  function SortByTime(es: seq<MissionEvent>): (r: seq<MissionEvent>)
    ensures SortedByTime(r)
  {
    if |es| == 0 then [] else Insert(es[0], SortByTime(es[1..]))
  }

  /** Sorting keeps every event, as often as it occurs. */
  lemma {:induction false} SortByTimePermutes(es: seq<MissionEvent>)
    ensures multiset(SortByTime(es)) == multiset(es)
  {
    if |es| > 0 {
      SortByTimePermutes(es[1..]);
      InsertPermutes(es[0], SortByTime(es[1..]));
      assert es == [es[0]] + es[1..];
    }
  }

  /** Sorting an already ascending timeline changes nothing. */
  lemma {:induction false} SortByTimeSorted(es: seq<MissionEvent>)
    requires SortedByTime(es)
    ensures SortByTime(es) == es
  {
    if |es| > 0 {
      SortByTimeSorted(es[1..]);
    }
  }

  /** `Duration.between(prev, t).getSeconds()`: whole seconds, rounded
      down, between two millisecond timestamps. */
  function GapSeconds(prev: Timestamp, t: Timestamp): (g: int)
    ensures g * 1000 <= t - prev < g * 1000 + 1000
  {
    (t - prev) / 1000
  }

  /** One `TimelineEventDto`. */
  datatype TimelineEntry = TimelineEntry(
    eventType: string,
    timestamp: Timestamp,
    page: Option<string>,
    timeDiff: Option<int>,            // whole seconds since the previous event
    dataPreview: Option<string>,
    data: Payload,
    isMissionRelevant: Option<bool>,
    duration: Option<int>,            // milliseconds
    scrollDepth: Option<Int32>,       // percent
    referrer: Option<string>)

  /** `isMissionRelevant`: only a boolean is taken. */
  function RelevanceOf(data: Payload): (r: Option<bool>)
    ensures r.Some? <==> Get(data, "isMissionRelevant").JBool?
    ensures r.Some? ==> r.value == Get(data, "isMissionRelevant").b
  {
    match Get(data, "isMissionRelevant")
    case JBool(b) => Some(b)
    case _ => None
  }

  /** `duration`: any number, as `longValue()`. */
  function DurationOf(data: Payload): (r: Option<int>)
    ensures r.Some? <==> Get(data, "duration").JIntegral? || Get(data, "duration").JFractional?
    ensures r.Some? ==> InInt64(r.value)
    ensures r.Some? ==> r.value == LongValue(Get(data, "duration"))
    ensures Get(data, "duration").JIntegral? && InInt64(Get(data, "duration").n) ==>
      r == Some(Get(data, "duration").n)
    ensures Get(data, "duration").JFractional? && InInt64(Get(data, "duration").whole) ==>
      r == Some(Get(data, "duration").whole)
  {
    var v := Get(data, "duration");
    if v.JIntegral? || v.JFractional? then Some(LongValue(v)) else None
  }

  /** `scrollDepth`: any number, as `intValue()`. */
  function ScrollDepthOf(data: Payload): (r: Option<Int32>)
    ensures r.Some? <==> Get(data, "scrollDepth").JIntegral? || Get(data, "scrollDepth").JFractional?
    ensures r.Some? ==> r.value == IntValue(Get(data, "scrollDepth"))
    ensures Get(data, "scrollDepth").JIntegral? && InInt32(Get(data, "scrollDepth").n) ==>
      r == Some(Get(data, "scrollDepth").n)
    ensures Get(data, "scrollDepth").JFractional? && InInt32(Get(data, "scrollDepth").whole) ==>
      r == Some(Get(data, "scrollDepth").whole)
  {
    var v := Get(data, "scrollDepth");
    if v.JIntegral? || v.JFractional? then Some(IntValue(v)) else None
  }

  /** A value a `(String)` cast accepts. */
  predicate TextOrNull(v: Value) {
    v.JNull? || v.JString?
  }

  /** A row whose `page` and `referrer` values are text or null, so that
      both casts succeed. */
  predicate Readable(e: MissionEvent) {
    TextOrNull(Get(e.data, "page")) && TextOrNull(Get(e.data, "referrer"))
  }

  /** A text field reads the same in the payload as sent and as `jsonb`
      returns it. */
  lemma ReorderedStringAgrees(d: Payload, key: string)
    ensures StringField(JsonbOrder(d), key) == StringField(d, key)
  {
    JsonbOrderKeepsValues(d, key);
  }

  /** So do the relevance flag, the duration and the scroll depth. */
  lemma ReorderedNumbersAgree(d: Payload)
    ensures RelevanceOf(JsonbOrder(d)) == RelevanceOf(d)
    ensures DurationOf(JsonbOrder(d)) == DurationOf(d)
    ensures ScrollDepthOf(JsonbOrder(d)) == ScrollDepthOf(d)
  {
    ReorderedRelevanceAgrees(d);
    ReorderedDurationAgrees(d);
    ReorderedScrollDepthAgrees(d);
  }

  lemma ReorderedRelevanceAgrees(d: Payload)
    ensures RelevanceOf(JsonbOrder(d)) == RelevanceOf(d)
  {
    JsonbOrderKeepsValues(d, "isMissionRelevant");
  }

  lemma ReorderedDurationAgrees(d: Payload)
    ensures DurationOf(JsonbOrder(d)) == DurationOf(d)
  {
    JsonbOrderKeepsValues(d, "duration");
  }

  lemma ReorderedScrollDepthAgrees(d: Payload)
    ensures ScrollDepthOf(JsonbOrder(d)) == ScrollDepthOf(d)
  {
    JsonbOrderKeepsValues(d, "scrollDepth");
  }

  /** One row mapped to its entry, given the previous row's timestamp (the
      `LAG` column). The payload comes back from the `jsonb` column with its
      keys in `jsonb` order, which the entry's data and preview show; the
      lookups do not depend on that order. The `page` cast comes first and
      the `referrer` cast last; a value of another type than text makes the
      cast throw. */
  function EntryOf(e: MissionEvent, prev: Option<Timestamp>): (r: Result<TimelineEntry, Failure>)
    ensures r.Ok? <==> Readable(e)
    ensures r.Err? ==> r.error == (if StringField(e.data, "page").Err? then ClassCast("page") else ClassCast("referrer"))
    ensures r.Ok? ==>
      && r.value.eventType == e.eventType
      && r.value.timestamp == e.timestamp
      && r.value.data == JsonbOrder(e.data)
      && multiset(r.value.data) == multiset(e.data)
      && r.value.page == StringField(e.data, "page").value
      && r.value.referrer == StringField(e.data, "referrer").value
      && (prev.None? <==> r.value.timeDiff.None?)
      && (prev.Some? ==> r.value.timeDiff == Some(GapSeconds(prev.value, e.timestamp)))
      && r.value.dataPreview == CreateDataPreview(Some(JsonbOrder(e.data)))
      && r.value.isMissionRelevant == RelevanceOf(e.data)
      && r.value.duration == DurationOf(e.data)
      && r.value.scrollDepth == ScrollDepthOf(e.data)
  {
    var data := JsonbOrder(e.data);
    ReorderedStringAgrees(e.data, "page");
    ReorderedStringAgrees(e.data, "referrer");
    ReorderedNumbersAgree(e.data);
    match StringField(data, "page")
    case Err(f) => Err(f)
    case Ok(page) =>
      match StringField(data, "referrer")
      case Err(f) => Err(f)
      case Ok(referrer) =>
        var gap := if prev.Some? then Some(GapSeconds(prev.value, e.timestamp)) else None;
        Ok(TimelineEntry(e.eventType, e.timestamp, page, gap, CreateDataPreview(Some(data)), data,
                         RelevanceOf(data), DurationOf(data), ScrollDepthOf(data), referrer))
  }

  /** Two keys out of `jsonb` order come back swapped. */
  lemma JsonbSwapsPair(a: Entry, b: Entry)
    requires a.0 != b.0 && !JsonbKeyBefore(a.0, b.0)
    ensures JsonbOrder([a, b]) == [b, a]
  {
    var empty: Payload := [];
    assert JsonbOrder([b]) == [b] by {
      assert [b][1..] == empty;
      assert JsonbOrder([b]) == InsertEntry(b, empty);
    }
    assert InsertEntry(a, [b]) == [b, a] by {
      assert [b][1..] == empty;
      assert InsertEntry(a, [b]) == [b] + InsertEntry(a, empty);
    }
    var pair: Payload := [a, b];
    assert JsonbOrder(pair) == InsertEntry(a, JsonbOrder([b])) by {
      assert pair[1..] == [b];
    }
  }

  /** Of two ASCII keys the longer comes after in `jsonb` order. */
  lemma AsciiLongerAfter(a: string, b: string)
    requires forall i :: 0 <= i < |a| ==> a[i] as int < 0x80
    requires forall i :: 0 <= i < |b| ==> b[i] as int < 0x80
    requires |a| > |b|
    ensures a != b && !JsonbKeyBefore(a, b)
  {
    Utf8LengthAscii(a);
    Utf8LengthAscii(b);
  }

  /** A payload sent as scrollDepth, duration comes back duration first:
      "duration" is the shorter key. */
  lemma JsonbReordersKeys()
    ensures JsonbOrder([("scrollDepth", JIntegral(50)), ("duration", JIntegral(1200))])
         == [("duration", JIntegral(1200)), ("scrollDepth", JIntegral(50))]
  {
    var scroll, dur := ("scrollDepth", JIntegral(50)), ("duration", JIntegral(1200));
    AsciiLongerAfter(scroll.0, dur.0);
    JsonbSwapsPair(scroll, dur);
  }

  /** The `LAG(timestamp)` column of row `i`: `prev` for the first row,
      else the timestamp of the row before. */
  function PrevStamp(es: seq<MissionEvent>, prev: Option<Timestamp>, i: nat): Option<Timestamp>
    requires i < |es|
  {
    if i == 0 then prev else Some(es[i - 1].timestamp)
  }

  /** The index of the first row whose casts fail, if any. */
  function FirstUnreadable(es: seq<MissionEvent>): (r: Option<nat>)
    ensures r.None? <==> forall i :: 0 <= i < |es| ==> Readable(es[i])
    ensures r.Some? ==> r.value < |es| && !Readable(es[r.value])
    ensures r.Some? ==> forall i :: 0 <= i < r.value ==> Readable(es[i])
  {
    if |es| == 0 then None
    else if !Readable(es[0]) then Some(0)
    else
      var tail := es[1..];
      var rest := FirstUnreadable(tail);
      assert forall i :: 0 < i < |es| ==> es[i] == tail[i - 1];
      if rest.None? then None else Some(rest.value + 1)
  }

  /** The rows of `es` mapped in order, `prev` being the timestamp of the
      row before them; the first row that fails ends the query with its
      cast's failure. */
  function EntriesFrom(es: seq<MissionEvent>, prev: Option<Timestamp>): (r: Result<seq<TimelineEntry>, Failure>)
    ensures r.Ok? <==> forall i :: 0 <= i < |es| ==> Readable(es[i])
    ensures r.Ok? ==> |r.value| == |es|
    ensures r.Ok? ==> forall i :: 0 <= i < |es| ==> EntryOf(es[i], PrevStamp(es, prev, i)) == Ok(r.value[i])
    ensures r.Err? ==> exists i :: 0 <= i < |es| && EntryOf(es[i], PrevStamp(es, prev, i)) == Err(r.error)
                                 && forall j :: 0 <= j < i ==> Readable(es[j])
    ensures r.Err? ==> r.error == ClassCast("page") || r.error == ClassCast("referrer")
  {
    match FirstUnreadable(es)
    case Some(i) => Err(EntryOf(es[i], PrevStamp(es, prev, i)).error)
    case None => Ok(seq(|es|, i requires 0 <= i < |es| => EntryOf(es[i], PrevStamp(es, prev, i)).value))
  }

  /** `getTimelineEvents`: the attempt's events in ascending time, each
      with the whole seconds since the one before. */
  function TimelineEvents(events: seq<MissionEvent>, attemptId: string): (r: Result<seq<TimelineEntry>, Failure>)
    ensures r.Ok? ==> |r.value| == |OfAttempt(events, attemptId)|
    ensures r.Err? ==> r.error == ClassCast("page") || r.error == ClassCast("referrer")
  {
    var sorted := SortByTime(OfAttempt(events, attemptId));
    SortByTimePermutes(OfAttempt(events, attemptId));
    assert |sorted| == |multiset(sorted)| == |OfAttempt(events, attemptId)|;
    EntriesFrom(sorted, None)
  }

  /** The timeline ascends in time; its first entry has no gap and every
      later one carries the whole, non-negative seconds since the entry
      before it. */
  lemma TimelineAscending(events: seq<MissionEvent>, attemptId: string)
    ensures var r := TimelineEvents(events, attemptId);
      r.Ok? ==>
        && (forall i, j :: 0 <= i < j < |r.value| ==> r.value[i].timestamp <= r.value[j].timestamp)
        && (|r.value| > 0 ==> r.value[0].timeDiff.None?)
        && (forall i :: 0 < i < |r.value| ==>
              r.value[i].timeDiff == Some(GapSeconds(r.value[i - 1].timestamp, r.value[i].timestamp))
              && GapSeconds(r.value[i - 1].timestamp, r.value[i].timestamp) >= 0)
  {
    var sorted := SortByTime(OfAttempt(events, attemptId));
    if EntriesFrom(sorted, None).Ok? {
      EntriesAscending(sorted);
    }
  }

  lemma EntriesAscending(es: seq<MissionEvent>)
    requires SortedByTime(es) && EntriesFrom(es, None).Ok?
    ensures var r := EntriesFrom(es, None).value;
      && (forall i, j :: 0 <= i < j < |r| ==> r[i].timestamp <= r[j].timestamp)
      && (|r| > 0 ==> r[0].timeDiff.None?)
      && (forall i :: 0 < i < |r| ==>
            r[i].timeDiff == Some(GapSeconds(r[i - 1].timestamp, r[i].timestamp))
            && GapSeconds(r[i - 1].timestamp, r[i].timestamp) >= 0)
  {
    var r := EntriesFrom(es, None).value;
    EntriesFollowRows(es, None);
    if |r| > 0 {
      assert EntryOf(es[0], PrevStamp(es, None, 0)) == Ok(r[0]);
    }
    forall i | 0 < i < |r|
      ensures r[i].timeDiff == Some(GapSeconds(r[i - 1].timestamp, r[i].timestamp))
      ensures GapSeconds(r[i - 1].timestamp, r[i].timestamp) >= 0
    {
      assert EntryOf(es[i], PrevStamp(es, None, i)) == Ok(r[i]);
      assert r[i - 1].timestamp == es[i - 1].timestamp && r[i].timestamp == es[i].timestamp;
      assert es[i - 1].timestamp <= es[i].timestamp;
    }
  }

  /** Each entry shows its own row's timestamp. */
  lemma EntriesFollowRows(es: seq<MissionEvent>, prev: Option<Timestamp>)
    requires EntriesFrom(es, prev).Ok?
    ensures forall i :: 0 <= i < |es| ==> EntriesFrom(es, prev).value[i].timestamp == es[i].timestamp
  {
    var r := EntriesFrom(es, prev).value;
    forall i | 0 <= i < |es|
      ensures r[i].timestamp == es[i].timestamp
    {
      assert EntryOf(es[i], PrevStamp(es, prev, i)) == Ok(r[i]);
    }
  }

  /** Every event of the attempt appears in the timeline, once per copy in
      the store, and no other attempt's event does. */
  lemma TimelineIsPermutation(events: seq<MissionEvent>, attemptId: string, e: MissionEvent)
    ensures multiset(SortByTime(OfAttempt(events, attemptId)))[e]
      == if e.attemptId == attemptId then multiset(events)[e] else 0
  {
    OfAttemptMultiset(events, attemptId, e);
    SortByTimePermutes(OfAttempt(events, attemptId));
  }

  /** `isStepSlow` given the step's average time, which is null when no
      event of that step exists: slow when strictly above twice the
      average. `BigDecimal.compareTo` compares values, not scales. */
  function IsStepSlow(timeOnStep: Ratio, avgTime: Option<Ratio>): (slow: bool)
    ensures avgTime.None? ==> !slow
    ensures avgTime.Some? ==> (slow <==> timeOnStep.num * avgTime.value.den > 2 * avgTime.value.num * timeOnStep.den)
  {
    match avgTime
    case None => false
    case Some(avg) => Greater(timeOnStep, Scale(avg, 2))
  }

  /** Exactly twice the average is not slow. */
  lemma TwiceAverageNotSlow(avg: Ratio)
    ensures !IsStepSlow(Scale(avg, 2), Some(avg))
  {
  }

  /** The same time written at another scale (`1.5` against `1.50`) gets
      the same answer. */
  lemma IsStepSlowIgnoresScale(t: Ratio, avg: Option<Ratio>, k: Pos)
    ensures IsStepSlow(Ratio(t.num * k, t.den * k), avg) == IsStepSlow(t, avg)
  {
    if avg.Some? {
      var a := avg.value;
      assert t.num * k * a.den == k * (t.num * a.den);
      assert 2 * a.num * (t.den * k) == k * (2 * a.num * t.den);
      MulPositiveOrder(t.num * a.den, 2 * a.num * t.den, k);
    }
  }

  lemma MulPositiveOrder(x: int, y: int, k: Pos)
    ensures k * x > k * y <==> x > y
  {
    if x > y {
      assert k * x - k * y == k * (x - y);
    } else {
      assert k * y - k * x == k * (y - x);
    }
  }

  /** A slower time is slow whenever a faster one is. */
  lemma IsStepSlowMonotone(t1: Ratio, t2: Ratio, avg: Option<Ratio>)
    requires t1.num * t2.den <= t2.num * t1.den
    requires IsStepSlow(t1, avg)
    ensures IsStepSlow(t2, avg)
  {
    var a := avg.value;
    AboveTwiceTransfers(t1.num, t1.den, t2.num, t2.den, a.num, a.den);
  }

  /** n1/d1 > 2 an/ad and n2/d2 >= n1/d1 give n2/d2 > 2 an/ad, compared
      with common denominators. */
  lemma AboveTwiceTransfers(n1: int, d1: Pos, n2: int, d2: Pos, an: int, ad: Pos)
    requires n1 * d2 <= n2 * d1
    requires n1 * ad > 2 * an * d1
    ensures n2 * ad > 2 * an * d2
  {
    MulPositiveOrder(n1 * ad, 2 * an * d1, d2);
    MulPositiveOrder(n1 * d2, n2 * d1, ad);
    assert d2 * (n1 * ad) == ad * (n1 * d2);
    assert d2 * (2 * an * d1) == d1 * (2 * an * d2);
    assert ad * (n2 * d1) == d1 * (n2 * ad);
    MulPositiveOrder(n2 * ad, 2 * an * d2, d1);
  }
}
